=== FILE: README.md ===
# HAXSTORE in Dafny

HAXSTORE is a storefront with two halves.

The first half is a React store backed by an Express API over a PostgreSQL schema. It has:
- users with the roles owner, admin and user;
- products;
- Pix payments that an admin approves or rejects;
- requests for admin rights;
- an activity log;
- key/value system settings.

The second half is a static "links" site. It consists of:
- a Node file server;
- a public page showing a main download and extra links;
- an admin page with a fixed login that edits the links in the browser's localStorage.

This project models the core of both halves.

- `Schema` (shared/schema.ts) covers the rows of the six tables, the role and status enumerations, and the defaults an insert fills in.
- `Storage` (server/storage.ts) is a `Database` class. It holds the tables as sequences and the serial counters that number their rows.
  - Every query and update of `DatabaseStorage` is a function or a method over that state.
  - The database's own guarantees are part of each statement's outcome. Unique usernames and setting keys, foreign keys and serial ids are kept as the invariant `Valid()`.
  - A statement that would break a constraint fails and leaves every table unchanged. The serial counter an insert drew from still advances, as a PostgreSQL sequence does.
- `Routes` (server/routes.ts) holds the route handlers as methods over the `Database`. Each one states:
  - the reply it sends;
  - the rows it changes;
  - the activity-log row it appends.
- `StaticServer` and `Paths` (server.js) cover the static file server:
  - its routing chain;
  - the MIME table, looked up by the lower-cased `path.extname`;
  - the caching policy;
  - the two 404 pages.
- `LinksSite` (script.js) is the public page's `siteData` and the admin functions it exports.
- `AdminSite` (admin-script.js) is the admin page's login session in localStorage and its forms.
- `StorePage` (client/src/pages/store.tsx) covers the store's search, its sorting and the discount guard.
- `AdminPanel` (client/src/components/admin-panel.tsx) covers:
  - the tag parsing and body of a new product;
  - the rejection prompt guard;
  - the dashboard counters;
  - the role buttons an owner is offered.
- `Text`, `Seqs` and `Wrappers` give the JavaScript string and array operations the code relies on. These are `toLowerCase`, `includes`, `trim`, `split`, `parseInt` and `String(n)`, plus `filter`, `find` and stable `sort`. They also give `undefined`/`null` as `Option`.

Clocks, request headers and the confirm/prompt dialogs are parameters. They are the `now`, `h` and `confirmed`/`reason` arguments.

## Model

| member | source | states |
|---|---|---|
| Schema.ParseRole | shared/schema.ts:10 | a role column accepts exactly "owner", "admin" and "user", and reads back as the text it was given |
| Schema.RoleRoundTrip | shared/schema.ts:10 | every role written to the column reads back as itself |
| Schema.ParseStatus | shared/schema.ts:36 | a status column accepts exactly "pending", "approved" and "rejected", and reads back as its text |
| Schema.StatusRoundTrip | shared/schema.ts:36 | every status written reads back as itself |
| Schema.UserRow | shared/schema.ts:6-15 | a new user keeps the given name and password; the role defaults to "user" and is_active to true; created_at is the insert time and there is no last login or IP |
| Schema.PatchUser | server/storage.ts:73-80 | an update of a user sets the given fields and keeps id, username, password and created_at |
| Schema.WithoutPassword | server/routes.ts:127 | the public view of a user keeps every field except the password |
| Schema.ParseNewProduct | shared/schema.ts:126-130 | validation accepts a product body exactly when both prices are texts, since both columns are `decimal` (shared/schema.ts:21-22); an accepted body keeps every field |
| Schema.TextPricesAccepted | shared/schema.ts:126-130 | a new product sent with its prices as texts is accepted unchanged |
| Schema.ProductRow | shared/schema.ts:17-29 | a new product is active and not featured with no tags unless told otherwise; created_at and updated_at are the insert time |
| Schema.PatchProduct | server/storage.ts:114-124 | updating a product sets each given field (name, description, price, old price, image, flags, tags) and keeps each absent one; id and created_at are kept and updated_at becomes now |
| Schema.PaymentRow | shared/schema.ts:31-42 | a new payment is pending unless a status is given, keeps the given references and amount, and has no processed_at |
| Schema.AdminRequestRow | shared/schema.ts:44-52 | a new admin request asks for the admin role, the only value its `requested_role` enumeration admits; it is pending, not yet approved by anyone and not processed |
| Schema.ActivityLogRow | shared/schema.ts:54-62 | a new log row keeps the given user, action, details, IP and user agent, stamped with the insert time |
| Storage.PaymentWithStatus | server/storage.ts:177-194 | a settled payment has the new status and processed_at = now; an absent approver or reason keeps the old value; id, references, amount, proof and created_at are kept |
| Storage.RequestWithStatus | server/storage.ts:219-234 | a settled request has the new status and processed_at = now; an absent approver keeps the old one; everything else is kept |
| Storage.SettingWithValue | server/storage.ts:268-278 | an updated setting has updated_at = now and the same id and key; the value and the updater change only when given, as an undefined field is skipped |
| Storage.SettingByKey | server/storage.ts:260-263 | the lookup finds a row with the key, or none exactly when no row has it |
| Storage.KeyedRow | server/storage.ts:260-263 | with unique keys, looking up a row's key finds that row |
| Storage.JoinPayments | server/storage.ts:145-159 | the inner join keeps, in order, exactly the payments whose user and product exist, each with that user and product |
| Storage.JoinRequests | server/storage.ts:205-217 | the inner join keeps, in order, exactly the requests whose user exists, each with that user |
| Storage.JoinLogs | server/storage.ts:245-257 | the left join keeps every log in order, with its user when that user exists and none otherwise |
| Storage.NewestPage | server/storage.ts:249-251 | the first `limit` logs by descending creation time hold each log at most as often as stored, none left out is newer than one kept, and they are newest first |
| Storage.NewestLogs | server/storage.ts:245-257 | min(limit, count) logs, each at most as often as stored, none left out newer than one returned, newest first, each with its user exactly when that user exists |
| Storage.SerialUnique | shared/schema.ts:7 | rows numbered by a serial sequence never share an id |
| Storage.SerialBelow | shared/schema.ts:7 | every serial id is positive and below the sequence's next value |
| Storage.SerialSubseq | shared/schema.ts:7 | any rows kept from a serially numbered table are still serially numbered (deleting keeps ids unique) |
| Storage.SameUsername | shared/schema.ts:8 | with the unique constraint, two users with the same name are the same row |
| Storage.Database.constructor | server/storage.ts:53 | an empty database satisfies every constraint |
| Storage.Database.GetUser | server/storage.ts:55-58 | the user with the id, or none exactly when no user has it |
| Storage.Database.GetUserByUsername | server/storage.ts:60-63 | the user with the name, or none exactly when no user has it |
| Storage.Database.CreateUser | server/storage.ts:65-71 | a taken name fails with a unique violation and changes nothing; otherwise UserRow is appended with the next serial id; the sequence advances either way |
| Storage.Database.UpdateUser | server/storage.ts:73-80 | an unknown id changes nothing and returns none; otherwise exactly that row is patched and returned, and the constraints still hold |
| Storage.Database.AllUsers | server/storage.ts:82-84 | every user exactly once (a permutation of the table), newest first |
| Storage.Database.AllProducts | server/storage.ts:87-89 | every product exactly once, newest first |
| Storage.Database.ActiveProducts | server/storage.ts:91-95 | exactly the active products, each once, featured first and newest first within each group |
| Storage.Database.GetProduct | server/storage.ts:97-100 | the product with the id, or none exactly when there is none |
| Storage.Database.CreateProduct | server/storage.ts:102-112 | ProductRow with the next serial id is appended and returned |
| Storage.Database.UpdateProduct | server/storage.ts:114-124 | an unknown id changes nothing; otherwise exactly that row is patched with updated_at = now |
| Storage.Database.DeleteProduct | server/storage.ts:126-129 | a product a payment references cannot be deleted (foreign-key violation, nothing changes); otherwise the rows with the id are removed and the others kept in order |
| Storage.Database.CreatePayment | server/storage.ts:132-138 | a payment whose user, product or approver does not exist fails and changes nothing; otherwise PaymentRow is appended; the sequence advances either way |
| Storage.Database.GetPayment | server/storage.ts:140-143 | the payment with the id, or none exactly when there is none |
| Storage.Database.PendingPayments | server/storage.ts:145-159 | only pending payments; every pending payment whose user and product exist; no payment more often than stored (so each once); each with its own user and product; newest first |
| Storage.Database.PaymentHistory | server/storage.ts:161-175 | only approved or rejected payments; every settled payment whose user and product exist; no payment more often than stored (so each once); ordered by processed_at descending, with unprocessed ones first |
| Storage.Database.UpdatePaymentStatus | server/storage.ts:177-194 | an unknown id changes nothing; a dangling approver fails; otherwise exactly that row becomes PaymentWithStatus |
| Storage.Database.CreateAdminRequest | server/storage.ts:197-203 | an unknown user fails and changes nothing; otherwise a pending request for the admin role is appended; the database invariant it keeps includes that every stored request asks for admin (shared/schema.ts line 47) |
| Storage.Database.PendingAdminRequests | server/storage.ts:205-217 | only pending requests; every pending request whose user exists; no request more often than stored (so each once); each with its user; newest first |
| Storage.Database.UpdateAdminRequestStatus | server/storage.ts:219-234 | an unknown id changes nothing; a dangling approver fails; otherwise exactly that row becomes RequestWithStatus |
| Storage.Database.CreateActivityLog | server/storage.ts:237-243 | a log naming a user who does not exist fails; otherwise ActivityLogRow is appended |
| Storage.Database.ActivityLogs | server/storage.ts:245-257 | a negative limit, or one beyond the largest `bigint` (2^63 - 1), is refused, and only those; otherwise the min(limit, count) newest logs: each at most as often as stored, none left out newer than one returned, newest first, each with its user exactly when that user exists |
| Storage.Database.GetSetting | server/storage.ts:260-263 | the setting with the key, or none exactly when there is none |
| Storage.Database.InsertSettingWithoutKey | server/storage.ts:265-290 | an undefined key finds no row, so the insert runs: the settings serial advances by one and the NOT NULL constraint on the key refuses the row |
| Storage.Database.SetSetting | server/storage.ts:265-290 | an existing key is updated in place, its value replaced only when one is given; a new key is inserted with the given value or NULL; afterwards the key reads back the stored row; a dangling updater fails and changes nothing |
| Storage.Database.UpdateSetting | server/storage.ts:268-278 | the update branch changes exactly the setting's row, as SettingWithValue states, and the key then reads back that row; a dangling updater fails and changes nothing |
| Storage.Database.InsertSetting | server/storage.ts:279-288 | the insert branch appends one row with the next serial id, the given value (NULL when none) and updated_at = now; the serial advances even when a dangling updater makes it fail |
| Routes.ClientIP | server/routes.ts:34-40 | the first truthy of x-forwarded-for, the connection's, the socket's and the connection socket's address, else 127.0.0.1; never empty |
| Routes.UserAgent | server/routes.ts:49 | the user-agent header when it is non-empty, else null |
| Routes.LogRow | server/routes.ts:43-55 | the logged row carries the user, action, details, client IP and user agent |
| Routes.Logged | server/routes.ts:43-55 | logging for a user who does not exist is swallowed and leaves the log unchanged; otherwise one row is appended |
| Routes.LogActivity | server/routes.ts:43-55 | appends the row exactly when Logged says so and never fails; the log sequence advances by one |
| Routes.AcceptsFile | server/routes.ts:14-23 | an upload passes exactly when both the lower-cased extension and the MIME type contain jpeg, jpg, png or pdf |
| Routes.RefusesNameWithoutExtension | server/routes.ts:14-23 | a file name without an extension is always refused |
| Routes.ExtensionCaseIgnored | server/routes.ts:16 | the extension's case never changes the verdict |
| Routes.UploadError | server/routes.ts:11-25 | a wrong type gives the "Invalid file type" error and a file over 5 MB the size error; otherwise there is no error |
| Routes.EnsureAccount | server/routes.ts:61-80 | creates the account only when the name is free; afterwards the name exists; any other existing account is untouched |
| Routes.EnsureAccounts | server/routes.ts:61-80 | afterwards owner "123" and admin "jhow" exist; the users table before is a prefix of the one after, grown by one row per missing account |
| Routes.EnsurePixKey | server/routes.ts:82-89 | sets pixKey to the default, updated by the owner, only when the key is missing and the owner exists, and then appends exactly that row to the settings |
| Routes.Init | server/routes.ts:58-95 | always replies success; afterwards both accounts and the Pix key exist; the users table before is a prefix of the one after, grown by one row per missing account; a missing Pix key is appended to the settings; on an initialised database nothing changes |
| Routes.LoginPatch | server/routes.ts:119-122 | a login sets last_login_at to now and the IP to the client IP, and nothing else |
| Routes.AcceptLogin | server/routes.ts:118-128 | patches exactly the user's row, appends LOGIN_SUCCESS and replies with the user minus the password |
| Routes.RefuseLogin | server/routes.ts:107-116 | appends LOGIN_FAILED and replies 401 "Invalid credentials"; users are unchanged |
| Routes.Authenticate | server/routes.ts:106-128 | succeeds exactly when the lower-cased name has an active user whose password matches; an unknown or inactive name logs with no user; a bad password logs with the user |
| Routes.Login | server/routes.ts:98-133 | a missing name or password gives 400 and changes nothing; an unknown or inactive name gives 401 with LOGIN_FAILED and no user id; a wrong password gives 401 with LOGIN_FAILED under the user's id; a match gives 200 with the user without password, stamps its last login and IP in place and logs LOGIN_SUCCESS |
| Routes.Registered | server/routes.ts:149-154 | the stored user has the lower-cased name and the hashed password, and keeps the given role and active flag |
| Routes.CreateRegistered | server/routes.ts:149-159 | appends the registered user, logs USER_REGISTERED and replies 201 with the public user; an active new user can log in with the given password |
| Routes.Register | server/routes.ts:135-164 | a malformed body gives 500; a taken name gives 400; a reserved name ("123", "jhow") gives 400 and creates nothing; otherwise one new user with the lower-cased name, the user and log serials each advanced by one |
| Routes.OnePendingAppend | server/routes.ts:184-195 | filing a request for a user with no pending one keeps at most one pending request per user |
| Routes.OnePendingSettle | server/routes.ts:400 | settling a request keeps at most one pending request per user |
| Routes.FindPending | server/routes.ts:185-186 | reports exactly whether the user already has a pending request |
| Routes.FileAdminRequest | server/routes.ts:184-199 | a user with a pending request gets 400 and nothing changes; otherwise one pending admin request is appended, logged ADMIN_REQUEST_CREATED, and replied 201 |
| Routes.RequestAdmin | server/routes.ts:167-204 | a missing id gives 400, an unknown user 404, an owner or admin 400, a second pending request 400, and each failure changes nothing; success exactly for a regular user with no pending request, which appends one pending request and its ADMIN_REQUEST_CREATED row |
| Routes.CreateProductRoute | server/routes.ts:217-229 | a malformed body gives 500 and changes nothing; otherwise ProductRow is appended, PRODUCT_CREATED is logged and the reply is 201 |
| Routes.UpdateProductRoute | server/routes.ts:231-248 | an unknown id gives 404 and changes nothing; otherwise exactly that product is patched and PRODUCT_UPDATED is logged |
| Routes.DeleteFoundProduct | server/routes.ts:259-266 | a product a payment references cannot be deleted (500); otherwise it is removed and PRODUCT_DELETED is logged |
| Routes.DeleteProductRoute | server/routes.ts:250-271 | an unknown id gives 404 and a referenced product 500, both changing nothing; success exactly for an existing unreferenced product, after which it is gone, the other products are kept in order and PRODUCT_DELETED is logged with its name |
| Routes.CreatePaymentRoute | server/routes.ts:274-290 | succeeds exactly for a well-formed body whose user, product and approver exist; the new pending payment is appended and PAYMENT_CREATED is logged |
| Routes.IdOrUndefined | server/routes.ts:309 | `x \|\| undefined` on an id: 0 and null become undefined |
| Routes.TextOrUndefined | server/routes.ts:309 | `x \|\| undefined` on a text: "" and null become undefined |
| Routes.ResubmitKeepsPayment | server/routes.ts:309 | re-settling a payment with its own status, approver and reason changes only processed_at |
| Routes.ResubmitPayment | server/routes.ts:305-316 | an upload to an existing payment changes only its processed_at; the proof URL is replied but never stored |
| Routes.UploadProof | server/routes.ts:292-321 | a refused file gives 500 with the filter's message; no file gives 400; an unknown payment 404; failures change nothing; otherwise only processed_at changes and PAYMENT_PROOF_UPLOADED is logged under the payment's user |
| Routes.RejectionDetails | server/routes.ts:372-376 | the log details hold the payment id, and the reason exactly when one was given |
| Routes.SettleReply | server/routes.ts:343-382 | success exactly when the payment exists and the approver is a user; otherwise 404 "Payment not found" or the 500 of the route; the replied payment has the new status and processed_at = now |
| Routes.SettlePayment | server/routes.ts:343-382 | the reply is SettleReply; a failure changes nothing; a success replaces exactly that payment and appends its PAYMENT_APPROVED/PAYMENT_REJECTED log |
| Routes.ApprovePayment | server/routes.ts:343-360 | approving: the reply of SettleReply with status approved and no reason; a failure changes nothing; a success replaces that payment and appends its PAYMENT_APPROVED row |
| Routes.RejectPayment | server/routes.ts:362-382 | rejecting: the reply of SettleReply with status rejected and the given reason; a failure changes nothing; a success replaces that payment and appends its PAYMENT_REJECTED row, with the reason when one was sent |
| Routes.RequestReply | server/routes.ts:395-437 | success exactly when the request exists and the approver is a user; otherwise 404 "Request not found" or the route's 500; the replied request keeps its user |
| Routes.PromoteRequester | server/routes.ts:406-414 | the requester's role becomes admin, nothing else in the user changes, and ADMIN_REQUEST_APPROVED is logged with the request and user ids |
| Routes.ApproveAdminRequest | server/routes.ts:395-418 | the reply is RequestReply; a failure changes nothing; a success settles exactly that request, changes only the requester's user row (to admin) and appends ADMIN_REQUEST_APPROVED |
| Routes.RejectAdminRequest | server/routes.ts:420-437 | the reply is RequestReply; users are never touched; a success settles exactly that request and logs ADMIN_REQUEST_REJECTED |
| Routes.PublicUsers | server/routes.ts:439-449 | one entry per user, each a user without the password, every user present, newest first |
| Routes.PublishedMembers | server/routes.ts:443 | mapping a newest-first permutation of the users drops only the passwords and keeps the order |
| Routes.LogLimit | server/routes.ts:453 | `parseInt(limit) \|\| 100`, with parseInt's hexadecimal prefix: a missing, unparsable or zero limit gives 100; a limit is never 0 |
| Routes.Logs | server/routes.ts:451-460 | a negative limit, or one beyond the `bigint` range, gives 500 "Failed to fetch logs", and only those; otherwise the min(limit, count) newest logs, each at most as often as stored, none left out newer than one listed, newest first, each with its user exactly when that user exists |
| Routes.HugeLimitFails | server/routes.ts:453-458 | a decimal limit of 2^63 or more is answered with 500 "Failed to fetch logs" |
| Routes.NegativeLimitFails | server/routes.ts:453-458 | a negative decimal limit, however large, is answered with 500 "Failed to fetch logs" |
| Routes.DefaultLogPage | server/routes.ts:453-454 | without a limit the route returns min(count, 100) logs and no log left out is newer than one returned |
| Routes.SettingDetails | server/routes.ts:478 | the SETTING_UPDATED details hold the key, and the value exactly when one was sent |
| Routes.SetSettingRoute | server/routes.ts:473-485 | success exactly when a key and an existing (or no) updater are given; a missing value keeps the old one of an existing key and stores NULL for a new key; an existing key's row is replaced in place by SettingWithValue (so the updater changes only when given) and a new key's row is appended with the next serial id, every other setting kept; afterwards the key reads back the reply and SETTING_UPDATED is logged; a failure gives 500 and changes no table or log; the settings serial still advances by one when the key is missing from the body or new, since the failed insert has drawn it |
| Routes.StoreSetting | server/routes.ts:473-485 | with a key given: success exactly when the updater is absent or exists; the stored row, in-place update or append and SETTING_UPDATED as for the route; a failure gives 500, leaves tables and logs as they were and advances the settings serial exactly when the key is new |
| Routes.AnswerStoredSetting | server/routes.ts:478-480 | once the setting is stored: one SETTING_UPDATED row under the updater with the key and value, the log serial advanced by one, the settings untouched, and the stored row sent back with 200 |
| Paths.TrimTrailingSlashes | server.js:27 | `path.extname` first ignores trailing slashes; what remains is a prefix without a trailing '/' |
| Paths.LastIndex | server.js:27 | the position of the last occurrence, or none exactly when the character is absent |
| Paths.LastSegment | server.js:27 | the base name is the suffix after the last '/' |
| Paths.BaseExtension | server.js:27 | empty exactly for a name with no '.' after its first character, or ".."; otherwise the suffix that starts at the last '.' |
| Paths.Extname | server.js:27 | `path.extname`: empty exactly when the base name has no '.' after its first character or is ".."; otherwise the base name's suffix from its last '.' |
| Paths.ExtnameWithoutDot | server.js:27 | a name without a '.' has no extension |
| Paths.ExtnameOfFileName | server.js:27 | the extension of `stem + ext` is `ext`, for any slash-free stem, dotted or not ("a.tar" + ".gz" gives ".gz") |
| StaticServer.PropertyOf | server.js:9-24 | a lookup on the MIME table finds an entry with the key, or none exactly when no entry has it |
| StaticServer.PropertyOfFirst | server.js:9-24 | the first entry with the key decides the lookup |
| StaticServer.FallbackNotInTable | server.js:28 | text/plain is never a table value |
| StaticServer.MimeType | server.js:26-29 | text/plain exactly when the lower-cased extension has no entry; otherwise that entry's type |
| StaticServer.CacheControl | server.js:78 | no-cache exactly for text/* types, one day otherwise |
| StaticServer.ServeFile | server.js:31-84 | a readable file gets 200 with its bytes, its MIME type and its caching policy; anything else gets the uncached 404 page |
| StaticServer.Relative | server.js:140 | a leading '/' is dropped from the request path |
| StaticServer.Route | server.js:115-141 | the named pages and /assets/ go to fixed files; every other path is looked up relative to the site |
| StaticServer.Respond | server.js:103-172 | OPTIONS gets 200 with no body; named files are served; a missing looked-up path gets the 404 page without a caching header |
| StaticServer.SuccessServesAFile | server.js:31-84 | every 200 reply other than OPTIONS carries the whole content of a readable file with its MIME type |
| StaticServer.StatusIs200Or404 | server.js:86-173 | the server only ever replies 200 or 404 |
| StaticServer.MimeTypeIgnoresCase | server.js:27 | the case of the extension never changes the MIME type |
| StaticServer.MimeTypeOfEntry | server.js:26-29 | a file with a table extension gets the first entry for it |
| StaticServer.PngIsImage | server.js:13 | ".png" files are image/png |
| StaticServer.UpperPngIsImage | server.js:27 | so are ".PNG" files |
| StaticServer.MimeTypeFallback | server.js:28 | a name without an extension is text/plain |
| StaticServer.PagesUncached | server.js:78 | HTML pages are never cached |
| StaticServer.ScriptsCached | server.js:78 | scripts are cached for a day |
| LinksSite.MaxId | script.js:240 | `Math.max(...ids, 0)`: at least 0, at least every id, and 0 or one of the ids |
| LinksSite.NextId | script.js:240 | the new id is above every id and at least 1 |
| LinksSite.Without | script.js:248 | exactly the links with another id, in order |
| LinksSite.SiteData.constructor | script.js:2-9 | the page starts with "HAX STORE v1.0", url "#", the default image and no extra links |
| LinksSite.SiteData.UpdateMainDownload | script.js:233-237 | the main download becomes exactly the given one |
| LinksSite.SiteData.AddAdditionalLink | script.js:239-245 | appends one link with id NextId and keeps the others |
| LinksSite.SiteData.RemoveAdditionalLink | script.js:247-251 | keeps exactly the links with another id |
| LinksSite.AddKeepsIdsDistinct | script.js:240-242 | adding a link keeps the ids distinct |
| LinksSite.RemoveAbsent | script.js:248 | removing an id no link has changes nothing |
| LinksSite.RemoveAfterAdd | script.js:239-251 | removing the id just added restores the list |
| LinksSite.WithoutShorter | admin-script.js:284-288 | the list gets shorter exactly when some link had the id |
| LinksSite.RemoveKeepsIdsDistinct | script.js:248 | removing keeps the ids distinct |
| AdminSite.LoggedIn | admin-script.js:58-59 | a login stores "true" and the login time, and keeps every other key |
| AdminSite.Placeholder | admin-script.js:225 | the placeholder URL followed by one character: the title's first letter moved to upper case when it is a lower-case ASCII letter, and kept otherwise |
| AdminSite.Merge | admin-script.js:112-115 | `{...main, ...saved}`: a saved field wins, a missing field keeps the current one |
| AdminSite.AdminPage.constructor | admin-script.js:7-15 | the admin page starts from the default data over the existing localStorage |
| AdminSite.AdminPage.LoadSavedData | admin-script.js:106-128 | a saved main download is merged and a saved list replaces the list; text that does not parse aborts the load, including the list |
| AdminSite.AdminPage.HandleLogin | admin-script.js:50-67 | succeeds exactly for jhow/morder, and only then stores the session |
| AdminSite.AdminPage.IsLoggedIn | admin-script.js:69-85 | true exactly for a present, unexpired session whose flag is "true"; an expired session loses both keys |
| AdminSite.AdminPage.HandleMainDownloadUpdate | admin-script.js:159-193 | accepted exactly when the trimmed title and URL are present and the URL parses; an empty image keeps the current one; a refused form changes nothing |
| AdminSite.AdminPage.HandleAddLink | admin-script.js:196-239 | the same checks; an accepted link with id = now is appended, with the placeholder image when none is given |
| AdminSite.AdminPage.DeleteLink | admin-script.js:282-296 | once confirmed it keeps the links with another id and reports whether one was removed; unconfirmed it changes nothing |
| AdminSite.AdminPage.TotalLinks | admin-script.js:299-305 | the extra links plus the main download |
| AdminSite.SessionLasts24Hours | admin-script.js:69-85 | right after a login at t, the session is valid exactly while at most 24 hours have passed, and expired exactly afterwards |
| AdminSite.LoggedInKeys | admin-script.js:58-59 | after a login both keys are present and the stored time reads back as t |
| AdminSite.AddLinkKeepsIdsDistinct | admin-script.js:221-222 | a link whose clock id is later than every id keeps the ids distinct |
| StorePage.IsAdmin | client/src/pages/store.tsx:25 | admin controls show exactly for a logged-in admin or owner |
| StorePage.Search | client/src/pages/store.tsx:41-44 | exactly the products whose lower-cased name or description contains the lower-cased term, in order |
| StorePage.EmptySearchKeepsAll | client/src/pages/store.tsx:41-44 | an empty search keeps every product |
| StorePage.FilteredProducts | client/src/pages/store.tsx:40-56 | the search hits, each as often, sorted newest first or featured first |
| StorePage.FeaturedFirstStable | client/src/pages/store.tsx:53-54 | the stable featured sort gives the featured products in their order, then the others in theirs |
| StorePage.Discount | client/src/pages/store.tsx:90-94 | no badge unless both prices are non-empty; otherwise the computed percentage |
| AdminPanel.TrimPieces | client/src/components/admin-panel.tsx:213 | each piece trimmed, in order |
| AdminPanel.ParseTags | client/src/components/admin-panel.tsx:213 | the trimmed comma-split pieces in their order with the empty ones dropped: a subsequence holding each non-empty piece as often as it occurs and no empty one; every tag has no comma and no surrounding space |
| AdminPanel.DropEmpty | client/src/components/admin-panel.tsx:213 | `filter(Boolean)` keeps each non-empty string as often as it occurs and drops every empty one |
| AdminPanel.BlankTagsGiveNone | client/src/components/admin-panel.tsx:213 | input of only commas and spaces gives no tags |
| AdminPanel.ParseTagsOfJoin | client/src/components/admin-panel.tsx:213 | clean tags joined by commas parse back to themselves |
| AdminPanel.OldPriceToSend | client/src/components/admin-panel.tsx:218 | an empty old price is sent as undefined, any other is sent |
| AdminPanel.ProductRequestAsWritten | client/src/components/admin-panel.tsx:212-221 | the body as sent: both prices are numbers, the old price is left out when empty, the tags are parsed |
| AdminPanel.PanelProductRefused | client/src/components/admin-panel.tsx:216-218 | no body the dialog sends passes the product validation, so the create route answers 500 |
| AdminPanel.ProductBody | client/src/components/admin-panel.tsx:212-221 | the intended body: the form with the old price made optional and the tags parsed, the prices kept as texts |
| AdminPanel.ProductBodyAccepted | client/src/components/admin-panel.tsx:212-221 | the intended body, sent with text prices, passes validation unchanged and differs from the body as written only in the prices |
| AdminPanel.RejectionToSend | client/src/components/admin-panel.tsx:227-232 | a rejection is sent exactly when the prompt returned a non-empty reason |
| AdminPanel.DashboardStats | client/src/components/admin-panel.tsx:249-254 | the pending, user and product counters; approved equals the history's size exactly when every entry is approved and 0 exactly when none is; the same holds for active products |
| AdminPanel.FilterLength | client/src/components/admin-panel.tsx:251-253 | a filter keeps everything exactly when all pass, and nothing exactly when none does |
| AdminPanel.OfferedRole | client/src/components/admin-panel.tsx:660-685 | only an owner sees a button, never on an owner; a user can be promoted to admin and an admin demoted to user |
| Text.ToLower | client/src/pages/store.tsx:42 | `toLowerCase`: same length, every letter lower-cased |
| Text.ToLowerIdempotent | server.js:27 | lower-casing twice is lower-casing once |
| Text.ContainsIffOccurs | client/src/pages/store.tsx:42 | `includes` holds exactly when the text occurs at some index |
| Text.ContainsEmpty | client/src/pages/store.tsx:42 | every string includes "" |
| Text.Trim | admin-script.js:162-164 | `trim`: the slice without white space at either end; empty exactly for all-space input |
| Text.TrimIdempotent | client/src/components/admin-panel.tsx:213 | trimming twice is trimming once |
| Text.Split | client/src/components/admin-panel.tsx:213 | `split`: at least one piece, and no piece holds the separator |
| Text.JoinSplit | client/src/components/admin-panel.tsx:213 | joining the split pieces gives back the string |
| Text.SplitJoin | client/src/components/admin-panel.tsx:213 | splitting separator-free pieces joined by the separator gives them back |
| Text.NatToString | admin-script.js:59 | `Date.now().toString()`: a non-empty string of digits |
| Text.ParseInt | server/routes.ts:453 | radix-less `parseInt`: after the leading space and sign, a "0x"/"0X" prefix switches to hexadecimal; none (NaN) exactly when no digit of the base follows; the sign decides the sign of the result |
| Text.HexPrefixRead | server/routes.ts:453 | "0x10" reads as 16 |
| Text.NegativeHexRead | server/routes.ts:453 | "-0x5" reads as -5 |
| Text.BareHexPrefixIsNaN | server/routes.ts:453 | "0x" is NaN |
| Text.ParseIntNatToString | admin-script.js:59-79 | a stored time parses back to itself |
| Text.NegativeRead | server/routes.ts:453 | a minus sign before the decimal digits of n reads back as -n |
| Seqs.Filter | client/src/pages/store.tsx:41 | `filter`: exactly the passing elements, in order |
| Seqs.FilterCount | client/src/pages/store.tsx:41 | `filter` keeps each passing element as often as it occurs and no failing one |
| Seqs.FilterAppend | script.js:248 | filtering a concatenation filters each part |
| Seqs.Find | server/routes.ts:186 | `find`: an element of the list that passes, or none exactly when none does |
| Seqs.FindIsFilterHead | server/routes.ts:186 | what `find` returns is the first passing element, the head of the filtered list |
| Seqs.Take | server/storage.ts:251 | `limit`: the first n elements |
| Seqs.SortDesc | server/storage.ts:83 | a stable sort by a descending key: a permutation, sorted, and every group of equal keys in its original order |
| Seqs.InsertStable | server/storage.ts:83 | one insertion keeps each group of equal keys in order, the inserted element first among its equals |
| Seqs.SortDescMembers | server/storage.ts:83 | the sort keeps every element, each as often |
| Seqs.SubseqSorted | server/storage.ts:249-251 | an ordered subsequence of a sorted list is sorted |
| Seqs.SubseqMultiset | server/storage.ts:150-152 | a join that drops rows holds no row more often than the table |
| Seqs.TakeNewest | server/storage.ts:250-251 | ORDER BY … DESC LIMIT n keeps each row at most as often as stored, and no row left out has a greater key than one kept |

## Left out

- HTTP itself is not modelled: Express, CORS headers, JSON bodies and the `{ user: … }` reply envelopes. A reply is a status with a value or an error text.
- bcrypt is idealised: a hash records its password, and a password matches exactly the hash of itself. Salting and the cost factor are not modelled.
- multer's disk storage is not modelled. The file is written even when the payment does not exist, and the stored name is a parameter.
- A multer error (wrong type or too large) is answered by Express's default handler. The model gives it as a 500 with the error text.
- zod validation is a parameter: a body that does not parse is `None` and is answered with 500, as the handlers' catch does.
- Floating point is not modelled:
  - prices and amounts are kept as text;
  - the number `parseFloat` makes of a price in the new-product body is not modelled, only that it is a number;
  - the store's price orderings (`price-low`, `price-high`) are not modelled;
  - StorePage.Discount: the percentage is a parameter, so only the guard is modelled.
- Timestamps are natural numbers from the caller's clock. Dates, time zones and `toLocaleString` are not modelled.
- Case mapping covers ASCII letters only.
- `path.join` and URL parsing of the request path are not modelled. The path is taken as already decoded, and `..` segments are not normalised.
- `parseInt` of route ids is not modelled: ids are integers, and the NaN case is not modelled.
- The request-admin body's `userId` is compared with `===` against numbers. It is modelled as a number, not as a string.
- `null` and `undefined` are one `Option`. Extra keys in an update body are not modelled.
- Routes.SetSettingRoute: a JSON `null` value is read as an absent one. Updating a key with `null` therefore keeps its old value, where the update would write NULL. Values other than text are not modelled.
- Seqs.Find: its own contract states that the result passes and is a member. That it is the first passing element is the lemma FindIsFilterHead, kept out of the contract so that every lookup stays cheap to verify.
- Text.ParseInt: the value is the exact integer. The rounding of numbers beyond 2^53 to a double, and the `-0` of "-0", are not modelled. `-0` is falsy, so the log route's default limit follows as from 0. Rounding changes the route's answer only near 2^63: see the next two lines.
- Storage.Database.ActivityLogs: the `bigint` bound is checked on the exact integer. A limit from 2^63 - 512 to 2^63 - 1 rounds up to 2^63 as a double, which PostgreSQL refuses; the model answers it as in range. The negative-limit failure assumes the query builder hands the limit to PostgreSQL, which refuses a negative LIMIT. A builder that drops a negative `.limit()` would instead list every log.
- Routes.Logs: inherits both assumptions of the line above. A rounded limit just below 2^63 gets 200 rather than 500, and a negative limit gets 500 rather than every log if the builder drops it.
- localStorage persistence of `siteData` by `script.js` is not modelled: the JSON copies, `loadSavedData` and rendering. The JSON copies written by the admin page and its auto-save are not modelled either.
- The DOM, React rendering and notifications are not modelled. The confirm and prompt dialogs are parameters.
- URL validity (`new URL`) is a parameter.
- The owner's role-change mutation is not modelled, because its server endpoint is not part of the routes file. Only which button is offered is modelled.
- Concurrency is not modelled: handlers run one at a time, and a handler's storage calls are not interleaved with another's.
- The GET routes that only return a storage query are the storage functions themselves. These are products, pending payments, payment history, admin requests and `settings/:key`. Each adds only a 500 on an exception.
- The `warnings` table and `getActiveWarnings`/`createWarning`/`updateWarning` are not modelled. Neither is `/api/warnings`.
- Routes.RequestAdmin: the "at most one pending request per user" invariant is stated by the lemmas OnePendingAppend and OnePendingSettle, not kept in the method's contract.
- AdminSite.AdminPage.HandleAddLink: ids come from the clock, so two links added in the same millisecond share an id. AddLinkKeepsIdsDistinct states distinctness only for a later clock.

## Findings

| source | as written | input that shows it | evidently intended | confidence | as-written member | corrected member |
|---|---|---|---|---|---|---|
| client/src/components/admin-panel.tsx:216-218 | the new-product dialog sends `price` and `oldPrice` through `parseFloat`, as numbers, while both columns are `decimal` (shared/schema.ts:21-22) and the insert schema (shared/schema.ts:126-130) takes decimals as text; `POST /api/products` (server/routes.ts:217-229) then fails validation and answers 500 | any form, e.g. name "Camisa", price "49.90", old price "" | send the prices as their texts, which validation accepts | medium, not executed; depends on the schema generator's mapping of `decimal` to text | AdminPanel.PanelProductRefused | AdminPanel.ProductBodyAccepted |

=== FILE: admin_panel.dfy ===
/**
 * The admin panel of the store (`client/src/components/admin-panel.tsx`):
 * the pure parts of its handlers — tag parsing and the optional old price
 * of a new product, the rejection-reason guard — the dashboard counters and
 * which role-change buttons a viewer is offered.
 */
module AdminPanel {
  import opened Wrappers
  import opened Seqs
  import opened Text
  import opened Schema
  import opened Storage

  /** Each piece trimmed, in order. */
  function TrimPieces(pieces: seq<string>): (r: seq<string>)
    ensures |r| == |pieces| && forall k :: 0 <= k < |pieces| ==> r[k] == Trim(pieces[k])
  {
    seq(|pieces|, k requires 0 <= k < |pieces| => Trim(pieces[k]))
  }

  /** `filter(Boolean)` on strings. */
  function NonEmpty(s: string): bool { s != [] }

  /**
   * `tags.split(",").map(tag => tag.trim()).filter(Boolean)`: the trimmed
   * pieces between commas, empty ones dropped, in order. The last two
   * ensures pin the sequence: a subsequence of the pieces that holds every
   * non-empty piece as often as it occurs and no empty one.
   */
  function ParseTags(input: string): (r: seq<string>)
    ensures forall t | t in r :: t != [] && ',' !in t && Trim(t) == t
    ensures forall t :: t in r <==> t != [] && t in TrimPieces(Split(input, ','))
    ensures IsSubseq(r, TrimPieces(Split(input, ',')))
    ensures multiset(r) == multiset(TrimPieces(Split(input, ',')))[[] := 0]
  {
    var pieces := TrimPieces(Split(input, ','));
    CleanPieces(Split(input, ','));
    DropEmpty(pieces);
    Filter(pieces, NonEmpty)
  }

  /** The trimmed pieces of a comma split hold no comma and no surrounding space. */
  lemma CleanPieces(parts: seq<string>)
    requires forall k :: 0 <= k < |parts| ==> ',' !in parts[k]
    ensures forall t | t in TrimPieces(parts) :: ',' !in t && Trim(t) == t
  {
    var pieces := TrimPieces(parts);
    forall t | t in pieces ensures ',' !in t && Trim(t) == t {
      var k :| 0 <= k < |pieces| && pieces[k] == t;
      TrimIdempotent(parts[k]);
      TrimNoNewChars(parts[k]);
    }
  }

  /** `filter(Boolean)` keeps each non-empty string as often as it occurs. */
  lemma DropEmpty(pieces: seq<string>)
    ensures multiset(Filter(pieces, NonEmpty)) == multiset(pieces)[[] := 0]
  {
    var r := Filter(pieces, NonEmpty);
    forall t ensures multiset(r)[t] == multiset(pieces)[[] := 0][t] {
      FilterCount(pieces, NonEmpty, t);
    }
  }

  /** Trimming only removes characters. */
  lemma TrimNoNewChars(s: string)
    ensures forall c | c in Trim(s) :: c in s
  {
    var i :| TrimmedAt(s, Trim(s), i);
    forall c | c in Trim(s) ensures c in s {
      var k :| 0 <= k < |Trim(s)| && Trim(s)[k] == c;
      assert s[i + k] == c;
    }
  }

  /** The characters of a piece of a split come from the split string. */
  lemma {:induction false} SplitChars(s: string, sep: char)
    ensures forall k, c | 0 <= k < |Split(s, sep)| && c in Split(s, sep)[k] :: c in s
    decreases |s|
  {
    if s != [] {
      SplitChars(s[1..], sep);
      var rest := Split(s[1..], sep);
      assert forall c | c in s[1..] :: c in s;
      if s[0] != sep {
        assert forall c | c in [s[0]] + rest[0] :: c == s[0] || c in rest[0];
        assert forall k | 1 <= k < |Split(s, sep)| :: Split(s, sep)[k] == rest[k];
      } else {
        assert forall k | 1 <= k < |Split(s, sep)| :: Split(s, sep)[k] == rest[k - 1];
      }
    }
  }

  /** Input made only of commas and white space gives no tag. */
  lemma BlankTagsGiveNone(input: string)
    requires forall c | c in input :: c == ',' || IsSpace(c)
    ensures ParseTags(input) == []
  {
    var parts := Split(input, ',');
    var pieces := TrimPieces(parts);
    SplitChars(input, ',');
    forall k | 0 <= k < |parts| ensures pieces[k] == [] {
      BlankPiece(parts[k]);
    }
    FilterNone(pieces, NonEmpty);
  }

  lemma BlankPiece(s: string)
    requires forall c | c in s :: c == ',' || IsSpace(c)
    requires ',' !in s
    ensures Trim(s) == []
  {
    assert AllSpace(s) by {
      forall j | 0 <= j < |s| ensures IsSpace(s[j]) {
        assert s[j] in s;
      }
    }
  }

  /** Tags without commas and surrounding space, joined by commas, parse back to themselves. */
  lemma ParseTagsOfJoin(tags: seq<string>)
    requires |tags| >= 1
    requires forall k :: 0 <= k < |tags| ==> tags[k] != [] && ',' !in tags[k] && Trim(tags[k]) == tags[k]
    ensures ParseTags(Join(tags, ',')) == tags
  {
    var joined := Join(tags, ',');
    SplitJoin(tags, ',');
    assert Split(joined, ',') == tags;
    var pieces := TrimPieces(tags);
    assert pieces == tags;
    FilterAll(tags, NonEmpty);
    assert ParseTags(joined) == Filter(pieces, NonEmpty);
  }

  /** `oldPrice ? parseFloat(oldPrice) : undefined`: the text to send, or nothing for an empty field. */
  function OldPriceToSend(field: string): (r: Option<string>)
    ensures r.None? <==> field == ""
    ensures r.Some? ==> r.value == field
  {
    if field == "" then None else Some(field)
  }

  /** The form of the new-product dialog, all text except the featured switch. */
  datatype ProductForm = ProductForm(
    name: string,
    description: string,
    price: string,
    oldPrice: string,
    imageUrl: string,
    isFeatured: bool,
    tags: string)

  /**
   * The body `handleCreateProduct` sends as written: `parseFloat` turns both
   * prices into JSON numbers (its value is not modelled, only that it is a
   * number), the old price is left out when empty and the tags are parsed.
   */
  function ProductRequestAsWritten(form: ProductForm): (r: ProductRequest)
    ensures r.price == PriceNumber(form.price)
    ensures r.oldPrice.None? <==> form.oldPrice == ""
    ensures r.oldPrice.Some? ==> r.oldPrice.value == PriceNumber(form.oldPrice)
    ensures r.name == form.name && r.description == form.description && r.tags == Some(ParseTags(form.tags))
  {
    ProductRequest(form.name, form.description, PriceNumber(form.price),
                   if form.oldPrice == "" then None else Some(PriceNumber(form.oldPrice)),
                   Some(form.imageUrl), None, Some(form.isFeatured), Some(ParseTags(form.tags)))
  }

  /**
   * No product the dialog sends as written passes the decimal price
   * validation, so `POST /api/products` answers 500 for every one.
   */
  lemma PanelProductRefused(form: ProductForm)
    ensures ParseNewProduct(ProductRequestAsWritten(form)).None?
  {
  }

  /**
   * The body `handleCreateProduct` evidently means to send: the form with
   * the old price made optional and the tags parsed, the prices kept as the
   * decimal texts the schema accepts.
   */
  function ProductBody(form: ProductForm): (r: NewProduct)
    ensures r.name == form.name && r.description == form.description && r.price == form.price
    ensures r.oldPrice == OldPriceToSend(form.oldPrice) && r.isFeatured == Some(form.isFeatured)
    ensures r.tags == Some(ParseTags(form.tags))
    ensures r.imageUrl == Some(form.imageUrl) && r.isActive.None?
  {
    NewProduct(form.name, form.description, form.price, OldPriceToSend(form.oldPrice), Some(form.imageUrl),
               None, Some(form.isFeatured), Some(ParseTags(form.tags)))
  }

  /**
   * Sent with text prices, the product the dialog builds passes validation
   * as it is; it differs from the body as written only in the prices.
   */
  lemma ProductBodyAccepted(form: ProductForm)
    ensures ParseNewProduct(ProductRequestOf(ProductBody(form))) == Some(ProductBody(form))
    ensures var sent := ProductRequestAsWritten(form);
      ProductRequestOf(ProductBody(form)) == sent.(price := PriceText(form.price),
        oldPrice := if form.oldPrice == "" then None else Some(PriceText(form.oldPrice)))
  {
    TextPricesAccepted(ProductBody(form));
  }

  /**
   * `handleRejectPayment`: the answer of the reason prompt (`None` when it
   * was cancelled); a rejection is sent only with a non-empty reason.
   */
  function RejectionToSend(paymentId: int, reason: Option<string>): (r: Option<(int, string)>)
    ensures r.Some? <==> reason.Some? && reason.value != ""
    ensures r.Some? ==> r.value == (paymentId, reason.value)
  {
    if reason.Some? && reason.value != "" then Some((paymentId, reason.value)) else None
  }

  datatype Stats = Stats(pendingPayments: nat, approvedPayments: nat, totalUsers: nat, activeProducts: nat)

  function IsApprovedView(v: PaymentView): bool { v.payment.status == Approved }

  /** The dashboard counters over the lists the panel fetched. */
  function DashboardStats(pending: seq<PaymentView>, history: seq<PaymentView>, users: seq<PublicUser>,
                          products: seq<Product>): (r: Stats)
    ensures r.pendingPayments == |pending| && r.totalUsers == |users|
    ensures r.approvedPayments <= |history|
    ensures r.approvedPayments == |history| <==> forall v | v in history :: v.payment.status == Approved
    ensures r.approvedPayments == 0 <==> forall v | v in history :: v.payment.status != Approved
    ensures r.activeProducts <= |products|
    ensures r.activeProducts == |products| <==> forall p | p in products :: p.isActive
    ensures r.activeProducts == 0 <==> forall p | p in products :: !p.isActive
  {
    FilterLength(history, IsApprovedView);
    FilterLength(products, IsActiveProduct);
    Stats(|pending|, |Filter(history, IsApprovedView)|, |users|, |Filter(products, IsActiveProduct)|)
  }

  /** A filter keeps everything exactly when all pass, and nothing exactly when none does. */
  lemma {:induction false} FilterLength<T>(s: seq<T>, p: T -> bool)
    ensures |Filter(s, p)| == |s| <==> forall x | x in s :: p(x)
    ensures |Filter(s, p)| == 0 <==> forall x | x in s :: !p(x)
    decreases |s|
  {
    if s != [] {
      FilterLength(s[1..], p);
      assert forall x | x in s :: x == s[0] || x in s[1..];
      assert Filter(s, p) == if p(s[0]) then [s[0]] + Filter(s[1..], p) else Filter(s[1..], p);
    }
  }

  /**
   * The role-change button shown to `viewer` on `target`'s row: only an
   * owner sees one, never on an owner; a user can be promoted to admin and
   * an admin demoted to user.
   */
  function OfferedRole(viewer: Option<PublicUser>, target: PublicUser): (r: Option<Role>)
    ensures r.Some? ==> viewer.Some? && viewer.value.role == Owner
    ensures r.Some? ==> target.role != Owner && r.value != Owner && r.value != target.role
    ensures viewer.Some? && viewer.value.role == Owner && target.role != Owner ==> r.Some?
    ensures r == Some(Admin) <==> viewer.Some? && viewer.value.role == Owner && target.role == Regular
    ensures r == Some(Regular) <==> viewer.Some? && viewer.value.role == Owner && target.role == Admin
  {
    var isOwner := viewer.Some? && viewer.value.role == Owner;
    if !isOwner || target.role == Owner then None
    else if target.role == Regular then Some(Admin)
    else Some(Regular)
  }
}

=== FILE: admin_site.dfy ===
/**
 * The admin page of the static links site (`admin-script.js`): a fixed
 * login kept for 24 hours in localStorage, and the forms that edit the
 * page's own copy of `siteData`. localStorage is a map from keys to strings;
 * the JSON copies of `siteData` written to it are not modelled, and neither
 * are the notifications and the DOM.
 */
module AdminSite {
  import opened Wrappers
  import opened Seqs
  import opened Text
  import opened LinksSite

  const AdminUsername := "jhow"
  const AdminPassword := "morder"

  const LoggedInKey := "haxstore_admin_logged_in"
  const LoginTimeKey := "haxstore_admin_login_time"

  /** 24 hours, in milliseconds. */
  const SessionDuration := 24 * 60 * 60 * 1000

  const DefaultUrl := "https://example.com/download"

  const LinkPlaceholder := "https://via.placeholder.com/60x60/0066ff/ffffff?text="

  /** `localStorage.getItem(key)` is truthy: present and not the empty string. */
  predicate Present(storage: map<string, string>, key: string)
  {
    key in storage && storage[key] != ""
  }

  /**
   * The session is over: both keys are there and more than 24 hours went by
   * since the stored login time. A login time `parseInt` cannot read never
   * expires, since a comparison with NaN is false.
   */
  predicate Expired(storage: map<string, string>, now: int)
  {
    Present(storage, LoggedInKey) && Present(storage, LoginTimeKey)
    && match ParseInt(storage[LoginTimeKey])
       case None => false
       case Some(t) => now - t > SessionDuration
  }

  /** `isLoggedIn()`'s answer. */
  predicate SessionValid(storage: map<string, string>, now: int)
  {
    Present(storage, LoggedInKey) && Present(storage, LoginTimeKey)
    && !Expired(storage, now) && storage[LoggedInKey] == "true"
  }

  /** The session keys after a successful login at `now`. */
  function LoggedIn(storage: map<string, string>, now: nat): (r: map<string, string>)
    ensures LoggedInKey in r && LoginTimeKey in r
    ensures r[LoggedInKey] == "true" && r[LoginTimeKey] == NatToString(now)
    ensures forall k | k in storage :: k in r
    ensures forall k | k in storage && k != LoggedInKey && k != LoginTimeKey :: r[k] == storage[k]
  {
    storage[LoggedInKey := "true"][LoginTimeKey := NatToString(now)]
  }

  /** The placeholder image of a link added without one. */
  function Placeholder(title: string): (r: string)
    requires title != []
    ensures r == LinkPlaceholder + [UpperChar(title[0])]
    ensures |r| == |LinkPlaceholder| + 1 && !('a' <= r[|r| - 1] <= 'z')
    ensures r[..|LinkPlaceholder|] == LinkPlaceholder
    ensures 'a' <= title[0] <= 'z' ==> r[|r| - 1] as int == title[0] as int - ('a' as int - 'A' as int)
    ensures !('a' <= title[0] <= 'z') ==> r[|r| - 1] == title[0]
  {
    LinkPlaceholder + [UpperChar(title[0])]
  }

  /** A form's trimmed title and URL pass the checks: present, and the URL parses. */
  predicate FormAccepted(title: string, url: string, validUrl: string -> bool)
  {
    Trim(title) != [] && Trim(url) != [] && validUrl(Trim(url))
  }

  /**
   * What localStorage held for a piece of `siteData` when the page loaded:
   * nothing (or the empty string), text `JSON.parse` rejects, JSON of the
   * wrong shape, or a value of the right shape.
   */
  datatype Saved<T> = Missing | Unparsable | WrongShape | Parsed(value: T)

  /** The fields a saved main download sets; the others keep their value. */
  datatype DownloadFields = DownloadFields(title: Option<string>, url: Option<string>, image: Option<string>)

  /** `{ ...main, ...fields }`. */
  function Merge(main: Download, fields: DownloadFields): (r: Download)
    ensures r.title == fields.title.GetOr(main.title)
    ensures r.url == fields.url.GetOr(main.url)
    ensures r.image == fields.image.GetOr(main.image)
  {
    Download(fields.title.GetOr(main.title), fields.url.GetOr(main.url), fields.image.GetOr(main.image))
  }

  /** The admin page: its copy of `siteData` and the browser's localStorage. */
  class AdminPage {
    var mainDownload: Download
    var additionalLinks: seq<Link>
    var storage: map<string, string>

    /** The data the page starts with, over whatever localStorage holds. */
    constructor(storage: map<string, string>)
      ensures mainDownload == Download("HAX STORE v1.0", DefaultUrl, DefaultImage)
      ensures additionalLinks == []
      ensures this.storage == storage
    {
      mainDownload := Download("HAX STORE v1.0", DefaultUrl, DefaultImage);
      additionalLinks := [];
      this.storage := storage;
    }

    /**
     * `loadSavedData`: a saved main download is merged over the current one
     * and a saved list replaces the current list; text that does not parse
     * aborts the loading, so a broken main download also skips the list.
     */
    method LoadSavedData(savedMain: Saved<DownloadFields>, savedLinks: Saved<seq<Link>>)
      modifies this`mainDownload, this`additionalLinks
      ensures mainDownload == if savedMain.Parsed? then Merge(old(mainDownload), savedMain.value) else old(mainDownload)
      ensures additionalLinks ==
        if !savedMain.Unparsable? && savedLinks.Parsed? then savedLinks.value else old(additionalLinks)
    {
      if savedMain.Unparsable? {
        return;
      }
      if savedMain.Parsed? {
        mainDownload := Merge(mainDownload, savedMain.value);
      }
      if savedLinks.Parsed? {
        additionalLinks := savedLinks.value;
      }
    }

    /** `handleLogin`: only the fixed pair logs in, which stores both session keys. */
    method HandleLogin(username: string, password: string, now: nat) returns (ok: bool)
      modifies this`storage
      ensures ok <==> username == AdminUsername && password == AdminPassword
      ensures ok ==> storage == LoggedIn(old(storage), now)
      ensures !ok ==> storage == old(storage)
    {
      ok := username == AdminUsername && password == AdminPassword;
      if ok {
        storage := LoggedIn(storage, now);
      }
    }

    /** `isLoggedIn`: an expired session is logged out, which removes both keys. */
    method IsLoggedIn(now: int) returns (r: bool)
      modifies this`storage
      ensures r <==> SessionValid(old(storage), now)
      ensures Expired(old(storage), now) ==> storage == old(storage) - {LoggedInKey, LoginTimeKey}
      ensures !Expired(old(storage), now) ==> storage == old(storage)
    {
      if !Present(storage, LoggedInKey) || !Present(storage, LoginTimeKey) {
        return false;
      }
      var t := ParseInt(storage[LoginTimeKey]);
      if t.Some? && now - t.value > SessionDuration {
        storage := storage - {LoggedInKey, LoginTimeKey};
        return false;
      }
      r := storage[LoggedInKey] == "true";
    }

    /**
     * `handleMainDownloadUpdate`: the trimmed title and URL must be present
     * and the URL must parse; an empty image keeps the current one. A
     * refused form changes nothing.
     */
    method HandleMainDownloadUpdate(title: string, url: string, image: string, validUrl: string -> bool)
      returns (accepted: bool)
      modifies this`mainDownload
      ensures accepted <==> FormAccepted(title, url, validUrl)
      ensures !accepted ==> mainDownload == old(mainDownload)
      ensures accepted ==> mainDownload.title == Trim(title) && mainDownload.url == Trim(url)
      ensures accepted ==> mainDownload.image == if Trim(image) == [] then old(mainDownload.image) else Trim(image)
    {
      var t, u, i := Trim(title), Trim(url), Trim(image);
      if t == [] || u == [] || !validUrl(u) {
        return false;
      }
      mainDownload := Download(t, u, if i != [] then i else mainDownload.image);
      accepted := true;
    }

    /**
     * `handleAddLink`: the same checks; an accepted link, whose id is the
     * clock, is appended and nothing else changes.
     */
    method HandleAddLink(title: string, url: string, image: string, validUrl: string -> bool, now: int)
      returns (accepted: bool)
      modifies this`additionalLinks
      ensures accepted <==> FormAccepted(title, url, validUrl)
      ensures !accepted ==> additionalLinks == old(additionalLinks)
      ensures accepted ==>
        && |additionalLinks| == |old(additionalLinks)| + 1
        && additionalLinks[..|old(additionalLinks)|] == old(additionalLinks)
        && additionalLinks[|old(additionalLinks)|]
           == Link(now, Trim(title), Trim(url), if Trim(image) == [] then Placeholder(Trim(title)) else Trim(image))
    {
      var t, u, i := Trim(title), Trim(url), Trim(image);
      if t == [] || u == [] || !validUrl(u) {
        return false;
      }
      additionalLinks := additionalLinks + [Link(now, t, u, if i != [] then i else Placeholder(t))];
      accepted := true;
    }

    /**
     * `deleteLink`, once confirmed: keeps the links with another id and
     * reports success iff the list got shorter.
     */
    method DeleteLink(linkId: int, confirmed: bool) returns (deleted: bool)
      modifies this`additionalLinks
      ensures !confirmed ==> !deleted && additionalLinks == old(additionalLinks)
      ensures confirmed ==> additionalLinks == Without(old(additionalLinks), linkId)
      ensures deleted <==> confirmed && exists l | l in old(additionalLinks) :: l.id == linkId
    {
      if !confirmed {
        return false;
      }
      var originalLength := |additionalLinks|;
      WithoutShorter(additionalLinks, linkId);
      additionalLinks := Without(additionalLinks, linkId);
      deleted := |additionalLinks| < originalLength;
    }

    /** `updateStatistics`: the extra links and the main download. */
    function TotalLinks(): (r: nat)
      reads this`additionalLinks
      ensures 1 <= r && r - 1 == |additionalLinks|
    {
      |additionalLinks| + 1
    }
  }

  /**
   * Right after a login at `t`, the session is valid at `now` exactly while
   * at most 24 hours have gone by (exactly 24 hours still counts).
   */
  lemma SessionLasts24Hours(storage: map<string, string>, t: nat, now: int)
    ensures SessionValid(LoggedIn(storage, t), now) <==> now - t <= SessionDuration
    ensures Expired(LoggedIn(storage, t), now) <==> now - t > SessionDuration
  {
    LoggedInKeys(storage, t);
  }

  /** After a login at `t` both keys are present, the flag is "true" and the time reads back as `t`. */
  lemma LoggedInKeys(storage: map<string, string>, t: nat)
    ensures Present(LoggedIn(storage, t), LoggedInKey) && Present(LoggedIn(storage, t), LoginTimeKey)
    ensures LoggedIn(storage, t)[LoggedInKey] == "true"
    ensures ParseInt(LoggedIn(storage, t)[LoginTimeKey]) == Some(t)
  {
    var s := LoggedIn(storage, t);
    ParseIntNatToString(t);
    assert s[LoginTimeKey] != "" by {
      assert |NatToString(t)| >= 1;
    }
  }

  /** A link added with a clock later than every id keeps the ids distinct. */
  lemma AddLinkKeepsIdsDistinct(links: seq<Link>, l: Link)
    requires DistinctIds(links)
    requires forall x | x in links :: x.id < l.id
    ensures DistinctIds(links + [l])
  {
    var r := links + [l];
    forall i, j | 0 <= i < j < |r| ensures r[i].id != r[j].id {
      if j == |links| {
        assert r[i] in links;
      } else {
        assert r[i] == links[i] && r[j] == links[j];
      }
    }
  }
}

=== FILE: links_site.dfy ===
/**
 * The static links page (`script.js`): a main download and a list of extra
 * download links held in the page's `siteData`, which the admin functions
 * replace, append to and filter. Writing the list to localStorage and
 * re-rendering the page are not modelled.
 */
module LinksSite {
  import opened Seqs

  datatype Download = Download(title: string, url: string, image: string)

  datatype Link = Link(id: int, title: string, url: string, image: string)

  const DefaultImage := "https://via.placeholder.com/100x100/0066ff/ffffff?text=HAX"

  /** `Math.max(...links.map(l => l.id), 0)`. */
  function MaxId(links: seq<Link>): (r: int)
    ensures 0 <= r
    ensures forall l | l in links :: l.id <= r
    ensures r == 0 || exists l | l in links :: l.id == r
    decreases |links|
  {
    if links == [] then 0
    else
      var rest := MaxId(links[1..]);
      assert forall l | l in links[1..] :: l in links;
      assert forall l | l in links :: l == links[0] || l in links[1..];
      if links[0].id > rest then links[0].id else rest
  }

  /** The id `addAdditionalLink` gives a new link: one more than the largest id, and at least 1. */
  function NextId(links: seq<Link>): (r: int)
    ensures 1 <= r
    ensures forall l | l in links :: l.id < r
    ensures r == 1 || exists l | l in links :: l.id == r - 1
  {
    MaxId(links) + 1
  }

  /** The filter predicate of `removeAdditionalLink`: `link.id !== id`. */
  function OtherLink(id: int): Link -> bool
  {
    (l: Link) => l.id != id
  }

  /** The links without those whose id is `id`, the others in their order. */
  function Without(links: seq<Link>, id: int): (r: seq<Link>)
    ensures forall l :: l in r <==> l in links && l.id != id
    ensures IsSubseq(r, links)
  {
    Filter(links, OtherLink(id))
  }

  /** No two links share an id. */
  ghost predicate DistinctIds(links: seq<Link>)
  {
    forall i, j | 0 <= i < j < |links| :: links[i].id != links[j].id
  }

  /** The page's `siteData`. */
  class SiteData {
    var mainDownload: Download
    var additionalLinks: seq<Link>

    /** The data the page starts with. */
    constructor()
      ensures mainDownload == Download("HAX STORE v1.0", "#", DefaultImage)
      ensures additionalLinks == []
    {
      mainDownload := Download("HAX STORE v1.0", "#", DefaultImage);
      additionalLinks := [];
    }

    /** `updateMainDownload`: the main download becomes exactly what was given. */
    method UpdateMainDownload(title: string, url: string, image: string)
      modifies this`mainDownload
      ensures mainDownload == Download(title, url, image)
    {
      mainDownload := Download(title, url, image);
    }

    /** `addAdditionalLink`: appends one link with a fresh id; the others stay as they were. */
    method AddAdditionalLink(title: string, url: string, image: string) returns (newId: int)
      modifies this`additionalLinks
      ensures newId == NextId(old(additionalLinks))
      ensures additionalLinks == old(additionalLinks) + [Link(newId, title, url, image)]
    {
      newId := NextId(additionalLinks);
      additionalLinks := additionalLinks + [Link(newId, title, url, image)];
    }

    /** `removeAdditionalLink`: keeps exactly the links with another id. */
    method RemoveAdditionalLink(id: int)
      modifies this`additionalLinks
      ensures additionalLinks == Without(old(additionalLinks), id)
    {
      additionalLinks := Without(additionalLinks, id);
    }
  }

  /** Adding a link keeps the ids distinct. */
  lemma AddKeepsIdsDistinct(links: seq<Link>, title: string, url: string, image: string)
    requires DistinctIds(links)
    ensures DistinctIds(links + [Link(NextId(links), title, url, image)])
  {
    var r := links + [Link(NextId(links), title, url, image)];
    forall i, j | 0 <= i < j < |r| ensures r[i].id != r[j].id {
      if j == |links| {
        assert r[i] in links;
      } else {
        assert r[i] == links[i] && r[j] == links[j];
      }
    }
  }

  /** Removing an id no link has leaves the list as it was. */
  lemma RemoveAbsent(links: seq<Link>, id: int)
    requires forall l | l in links :: l.id != id
    ensures Without(links, id) == links
  {
    FilterAll(links, OtherLink(id));
  }

  /** Removing the id just added restores the list. */
  lemma RemoveAfterAdd(links: seq<Link>, title: string, url: string, image: string)
    ensures Without(links + [Link(NextId(links), title, url, image)], NextId(links)) == links
  {
    var n := NextId(links);
    FilterAppend(links, [Link(n, title, url, image)], OtherLink(n));
    RemoveAbsent(links, n);
    assert Filter([Link(n, title, url, image)], OtherLink(n)) == [];
  }

  /** The list gets shorter exactly when some link had the id. */
  lemma {:induction false} WithoutShorter(links: seq<Link>, id: int)
    ensures |Without(links, id)| < |links| <==> exists l | l in links :: l.id == id
    decreases |links|
  {
    if links != [] {
      var rest := Filter(links[1..], OtherLink(id));
      assert links == [links[0]] + links[1..];
      assert Without(links, id) == if links[0].id != id then [links[0]] + rest else rest;
      WithoutShorter(links[1..], id);
      if links[0].id != id {
        assert (exists l | l in links :: l.id == id) <==> (exists l | l in links[1..] :: l.id == id) by {
          assert forall l | l in links :: l == links[0] || l in links[1..];
        }
      }
    }
  }

  /** Removing keeps the ids distinct. */
  lemma RemoveKeepsIdsDistinct(links: seq<Link>, id: int)
    requires DistinctIds(links)
    ensures DistinctIds(Without(links, id))
  {
    SubseqDistinct(Without(links, id), links);
  }

  lemma {:induction false} SubseqDistinct(a: seq<Link>, b: seq<Link>)
    requires IsSubseq(a, b) && DistinctIds(b)
    ensures DistinctIds(a)
    decreases |b|
  {
    if a != [] && b != [] {
      assert DistinctIds(b[1..]) by {
        forall i, j | 0 <= i < j < |b[1..]| ensures b[1..][i].id != b[1..][j].id {
          assert b[1..][i] == b[i + 1] && b[1..][j] == b[j + 1];
        }
      }
      if a[0] == b[0] {
        SubseqDistinct(a[1..], b[1..]);
        SubseqMembers(a[1..], b[1..]);
        forall i, j | 0 <= i < j < |a| ensures a[i].id != a[j].id {
          assert a[j] == a[1..][j - 1];
          if i == 0 {
            assert a[j] in b[1..];
            var m :| 0 <= m < |b[1..]| && b[1..][m] == a[j];
            assert b[m + 1] == a[j];
          } else {
            assert a[i] == a[1..][i - 1];
          }
        }
      } else {
        SubseqDistinct(a, b[1..]);
      }
    }
  }
}

=== FILE: paths.dfy ===
/**
 * The part of Node's `path` module the servers use: `path.extname` on POSIX
 * paths.
 */
module Paths {
  import opened Wrappers

  /** `s` ends with `t`. */
  predicate EndsWith(s: string, t: string)
  {
    |t| <= |s| && s[|s| - |t|..] == t
  }

  /** Drops the trailing '/' characters. */
  function TrimTrailingSlashes(p: string): (r: string)
    ensures r <= p
    ensures r == [] || r[|r| - 1] != '/'
    ensures forall i | |r| <= i < |p| :: p[i] == '/'
    decreases |p|
  {
    if p != [] && p[|p| - 1] == '/' then TrimTrailingSlashes(p[..|p| - 1]) else p
  }

  /** The index of the last `c` in `s`, if any. */
  function LastIndex(s: string, c: char): (r: Option<nat>)
    ensures r.Some? ==> r.value < |s| && s[r.value] == c && c !in s[r.value + 1..]
    ensures r.None? <==> c !in s
    decreases |s|
  {
    if s == [] then None
    else if s[|s| - 1] == c then Some(|s| - 1)
    else
      var r := LastIndex(s[..|s| - 1], c);
      assert s == s[..|s| - 1] + [s[|s| - 1]];
      r
  }

  /** What follows the last '/' (the whole path when there is none). */
  function LastSegment(p: string): (r: string)
    ensures '/' !in r
    ensures EndsWith(p, r)
    ensures '/' !in p ==> r == p
  {
    match LastIndex(p, '/')
    case None => p
    case Some(i) => p[i + 1..]
  }

  /** The base name whose extension `path.extname` reports. */
  function BaseName(p: string): string
  {
    LastSegment(TrimTrailingSlashes(p))
  }

  /**
   * The extension of a base name: from its last '.' to its end, or "" when
   * it has no '.', starts with its only '.', or is "..". The ensures pin the
   * value: a non-empty result is a suffix of `b` that starts with a '.' and
   * holds no other, so it starts at the last '.'.
   */
  function BaseExtension(b: string): (r: string)
    requires '/' !in b
    ensures r == [] || (r[0] == '.' && '.' !in r[1..] && '/' !in r)
    ensures EndsWith(b, r)
    ensures r == [] <==> b == [] || '.' !in b[1..] || b == ".."
  {
    match LastIndex(b, '.')
    case None => []
    case Some(d) =>
      if d == 0 || b == ".." then []
      else
        assert b[d..][1..] == b[d + 1..];
        assert b[1..][d - 1] == '.';
        b[d..]
  }

  /** `path.extname`: the extension of the base name. */
  function Extname(p: string): (r: string)
    ensures r == [] || (r[0] == '.' && '.' !in r[1..] && '/' !in r)
    ensures EndsWith(BaseName(p), r)
    ensures r == [] <==> BaseName(p) == [] || '.' !in BaseName(p)[1..] || BaseName(p) == ".."
  {
    BaseExtension(BaseName(p))
  }

  /** A slash-free name without a '.' has no extension. */
  lemma ExtnameWithoutDot(name: string)
    requires '/' !in name && '.' !in name
    ensures Extname(name) == ""
  {
    assert TrimTrailingSlashes(name) == name;
  }

  /**
   * The extension of a file name `stem + ext` is `ext` ("a.tar" + ".gz" gives
   * ".gz"), the name ".." excepted.
   */
  lemma ExtnameOfFileName(stem: string, ext: string)
    requires stem != [] && '/' !in stem && stem + ext != ".."
    requires ext != [] && ext[0] == '.' && '/' !in ext && '.' !in ext[1..]
    ensures Extname(stem + ext) == ext
  {
    var b := stem + ext;
    assert '/' !in b by {
      forall i | 0 <= i < |b| ensures b[i] != '/' {
        if i < |stem| { assert b[i] == stem[i]; } else { assert b[i] == ext[i - |stem|]; }
      }
    }
    assert TrimTrailingSlashes(b) == b;
    assert BaseName(b) == b;
    assert b[|stem|] == '.';
    var d := LastIndex(b, '.').value;
    assert d == |stem|;
    assert b[d..] == ext;
  }
}

=== FILE: routes.dfy ===
/**
 * The API route handlers (`registerRoutes`): each handler's guards, the
 * reply it sends and the storage calls it makes, over the `Database`.
 * A handler's request is given as its parsed parameters; `now` is the
 * clock reading of the request and `h` the request headers. An exception
 * thrown by a storage call (a violated constraint) is caught by the
 * handler and answered with 500.
 */
module Routes {
  import opened Wrappers
  import opened Seqs
  import opened Text
  import opened Paths
  import opened Schema
  import opened Storage

  datatype Response<T> = Success(status: nat, value: T) | Failure(status: nat, error: string)

  /** The request headers and socket addresses the handlers read. */
  datatype Headers = Headers(
    forwardedFor: Option<string>,
    connectionAddress: Option<string>,
    socketAddress: Option<string>,
    connectionSocketAddress: Option<string>,
    userAgent: Option<string>)

  /** A JavaScript value that is truthy: present and not the empty string. */
  predicate Truthy(s: Option<string>)
  {
    s.Some? && s.value != ""
  }

  const Localhost: string := "127.0.0.1"

  /** `getClientIP`: the first truthy of the forwarded-for header and the socket addresses, else localhost. */
  function ClientIP(h: Headers): (r: string)
    ensures r != ""
    ensures Truthy(h.forwardedFor) ==> r == h.forwardedFor.value
    ensures !Truthy(h.forwardedFor) && Truthy(h.connectionAddress) ==> r == h.connectionAddress.value
    ensures !Truthy(h.forwardedFor) && !Truthy(h.connectionAddress) && Truthy(h.socketAddress) ==>
      r == h.socketAddress.value
    ensures !Truthy(h.forwardedFor) && !Truthy(h.connectionAddress) && !Truthy(h.socketAddress) ==>
      r == if Truthy(h.connectionSocketAddress) then h.connectionSocketAddress.value else Localhost
  {
    if Truthy(h.forwardedFor) then h.forwardedFor.value
    else if Truthy(h.connectionAddress) then h.connectionAddress.value
    else if Truthy(h.socketAddress) then h.socketAddress.value
    else if Truthy(h.connectionSocketAddress) then h.connectionSocketAddress.value
    else Localhost
  }

  function UserAgent(h: Headers): (r: Option<string>)
    ensures r.Some? ==> r.value != ""
  {
    if Truthy(h.userAgent) then h.userAgent else None
  }

  /** A number as JSON writes it. */
  function IntText(i: int): string
  {
    if i < 0 then "-" + NatToString(-i) else NatToString(i)
  }

  /** The activity-log row `logActivity` inserts. */
  function LogRow(id: int, userId: Option<int>, action: string, details: Details, h: Headers, now: nat): (r: ActivityLog)
    ensures r.id == id && r.userId == userId && r.action == action && r.details == details
    ensures r.ipAddress == Some(ClientIP(h)) && r.userAgent == UserAgent(h) && r.createdAt == now
  {
    ActivityLogRow(id, NewActivityLog(userId, action, details, Some(ClientIP(h)), UserAgent(h)), now)
  }

  /**
   * The log table after `logActivity`: the entry is appended, unless its
   * user does not exist; that failure is swallowed.
   */
  function Logged(logs: seq<ActivityLog>, users: seq<User>, id: int, userId: Option<int>, action: string,
                  details: Details, h: Headers, now: nat): (r: seq<ActivityLog>)
    ensures IsRef(userId, UserIds(users)) ==> r == logs + [LogRow(id, userId, action, details, h, now)]
    ensures !IsRef(userId, UserIds(users)) ==> r == logs
  {
    if IsRef(userId, UserIds(users)) then logs + [LogRow(id, userId, action, details, h, now)] else logs
  }

  /** `logActivity`: records the action; never fails. */
  method LogActivity(db: Database, userId: Option<int>, action: string, details: Details, h: Headers, now: nat)
    requires db.Valid()
    modifies db`activityLogs, db`logSeq
    ensures db.Valid()
    ensures db.logSeq == old(db.logSeq) + 1
    ensures db.activityLogs == Logged(old(db.activityLogs), db.users, old(db.logSeq), userId, action, details, h, now)
  {
    var ignored := db.CreateActivityLog(NewActivityLog(userId, action, details, Some(ClientIP(h)), UserAgent(h)), now);
  }

  // ---- upload filter ----

  /** The alternatives of the `/jpeg|jpg|png|pdf/` pattern. */
  const AllowedTypes: seq<string> := ["jpeg", "jpg", "png", "pdf"]

  /** The pattern matches somewhere in `s`. */
  predicate MatchesAllowed(s: string)
  {
    exists t | t in AllowedTypes :: Contains(s, t)
  }

  /**
   * The multer `fileFilter`: the lower-cased extension of the original name
   * and the mimetype (as sent) must both match the pattern.
   */
  function AcceptsFile(originalName: string, mimeType: string): (r: bool)
    ensures r <==> MatchesAllowed(ToLower(Extname(originalName))) && MatchesAllowed(mimeType)
  {
    MatchesAllowed(ToLower(Extname(originalName))) && MatchesAllowed(mimeType)
  }

  /** A file name without an extension is refused, whatever its mimetype. */
  lemma RefusesNameWithoutExtension(name: string, mimeType: string)
    requires '/' !in name && '.' !in name
    ensures !AcceptsFile(name, mimeType)
  {
    ExtnameWithoutDot(name);
    forall t | t in AllowedTypes ensures !Contains(ToLower(""), t) {
      ContainsIffOccurs(ToLower(""), t);
    }
  }

  /** The case of the extension does not matter. */
  lemma ExtensionCaseIgnored(stem: string, ext: string, mimeType: string)
    requires stem != [] && '/' !in stem && '.' !in stem
    requires ext != [] && ext[0] == '.' && '/' !in ext && '.' !in ext[1..]
    ensures AcceptsFile(stem + ext, mimeType) == AcceptsFile(stem + ToLower(ext), mimeType)
  {
    var low := ToLower(ext);
    assert '/' !in low && '.' !in low[1..] by {
      forall i | 0 <= i < |low| ensures low[i] != '/' && (i > 0 ==> low[i] != '.') {
        if i > 0 {
          assert ext[i] == ext[1..][i - 1];
        }
      }
    }
    assert (stem + ext)[0] == stem[0] == (stem + low)[0];
    ExtnameOfFileName(stem, ext);
    ExtnameOfFileName(stem, low);
    ToLowerIdempotent(ext);
  }

  /** multer's `fileSize` limit: 5 MB. */
  const MaxUploadBytes: nat := 5 * 1024 * 1024

  // ---- /api/init ----

  const OwnerName: string := "123"
  const OwnerPassword: string := "jhow"
  const AdminName: string := "jhow"
  const AdminPassword: string := "jhow123"
  const PixKey: string := "pixKey"
  const DefaultPix: string := "chave-pix-default@email.com"

  /** The owner, the default admin and the PIX key all exist. */
  ghost predicate Initialized(db: Database)
    reads db`users, db`systemSettings
  {
    db.GetUserByUsername(OwnerName).Some? && db.GetUserByUsername(AdminName).Some? && db.GetSetting(PixKey).Some?
  }

  /**
   * Creates the account unless a user already has its name; the user
   * named `keep`, when it exists, is left as it was.
   */
  method EnsureAccount(db: Database, name: string, password: string, role: Role, keep: string, now: nat)
    requires db.Valid()
    modifies db`users, db`userSeq
    ensures db.Valid()
    ensures old(db.GetUserByUsername(name)).Some? ==> db.users == old(db.users) && db.userSeq == old(db.userSeq)
    ensures old(db.GetUserByUsername(name)).None? ==>
      db.users == old(db.users) + [UserRow(old(db.userSeq), NewUser(name, Hash(password), Some(role), None), now)]
      && db.userSeq == old(db.userSeq) + 1
    ensures db.GetUserByUsername(name).Some?
    ensures old(db.GetUserByUsername(name)).None? ==>
      db.GetUserByUsername(name).value.role == role && Matches(password, db.GetUserByUsername(name).value.password)
    ensures old(db.GetUserByUsername(keep)).Some? ==> db.GetUserByUsername(keep) == old(db.GetUserByUsername(keep))
    ensures old(db.GetUserByUsername(keep)).None? && keep != name ==> db.GetUserByUsername(keep).None?
  {
    if db.GetUserByUsername(name).None? {
      ghost var kept := db.GetUserByUsername(keep);
      var created := db.CreateUser(NewUser(name, Hash(password), Some(role), None), now);
      var row := created.value;
      assert row in db.users;
      SameUsername(db.users, row, db.GetUserByUsername(name).value);
      if kept.Some? {
        assert kept.value in db.users;
        SameUsername(db.users, kept.value, db.GetUserByUsername(keep).value);
      }
    }
  }

  /** Creates the owner and then the default admin, each only when missing. */
  method EnsureAccounts(db: Database, now: nat)
    requires db.Valid()
    modifies db`users, db`userSeq
    ensures db.Valid()
    ensures db.GetUserByUsername(OwnerName).Some? && db.GetUserByUsername(AdminName).Some?
    ensures old(db.GetUserByUsername(OwnerName)).Some? && old(db.GetUserByUsername(AdminName)).Some? ==>
      db.users == old(db.users) && db.userSeq == old(db.userSeq)
    ensures old(db.GetUserByUsername(OwnerName)).None? ==>
      db.GetUserByUsername(OwnerName).value.role == Owner
      && Matches(OwnerPassword, db.GetUserByUsername(OwnerName).value.password)
    ensures old(db.GetUserByUsername(AdminName)).None? ==>
      db.GetUserByUsername(AdminName).value.role == Admin
      && Matches(AdminPassword, db.GetUserByUsername(AdminName).value.password)
    ensures old(db.users) <= db.users
    ensures |db.users| == |old(db.users)| + (if old(db.GetUserByUsername(OwnerName)).None? then 1 else 0)
      + (if old(db.GetUserByUsername(AdminName)).None? then 1 else 0)
  {
    assert OwnerName[0] != AdminName[0];
    ghost var admin := db.GetUserByUsername(AdminName);
    EnsureAccount(db, OwnerName, OwnerPassword, Owner, AdminName, now);
    assert admin.Some? ==> db.GetUserByUsername(AdminName) == admin;
    assert admin.None? ==> db.GetUserByUsername(AdminName).None?;
    EnsureAccount(db, AdminName, AdminPassword, Admin, OwnerName, now);
  }

  /** Sets the default PIX key, by the owner, unless the key exists or there is no owner. */
  method EnsurePixKey(db: Database, now: nat)
    requires db.Valid()
    modifies db`systemSettings, db`settingSeq
    ensures db.Valid()
    ensures old(db.GetSetting(PixKey)).Some? || db.GetUserByUsername(OwnerName).None? ==>
      db.systemSettings == old(db.systemSettings) && db.settingSeq == old(db.settingSeq)
    ensures old(db.GetSetting(PixKey)).None? && db.GetUserByUsername(OwnerName).Some? ==>
      db.GetSetting(PixKey).Some? && db.GetSetting(PixKey).value.value == Some(DefaultPix)
      && db.GetSetting(PixKey).value.updatedBy == Some(db.GetUserByUsername(OwnerName).value.id)
      && db.systemSettings == old(db.systemSettings) + [db.GetSetting(PixKey).value]
  {
    if db.GetSetting(PixKey).None? {
      var owner := db.GetUserByUsername(OwnerName);
      if owner.Some? {
        var ignored := db.SetSetting(PixKey, Some(DefaultPix), Some(owner.value.id), now);
      }
    }
  }

  /**
   * `POST /api/init`: creates the owner "123" (password "jhow"), the admin
   * "jhow" (password "jhow123") and the default PIX key, each only when it
   * is missing.
   */
  method Init(db: Database, now: nat) returns (r: Response<bool>)
    requires db.Valid()
    modifies db`users, db`userSeq, db`systemSettings, db`settingSeq
    ensures db.Valid()
    ensures r == Success(200, true)
    ensures Initialized(db)
    ensures old(Initialized(db)) ==>
      db.users == old(db.users) && db.userSeq == old(db.userSeq)
      && db.systemSettings == old(db.systemSettings) && db.settingSeq == old(db.settingSeq)
    ensures old(db.GetUserByUsername(OwnerName)).None? ==>
      db.GetUserByUsername(OwnerName).value.role == Owner
      && Matches(OwnerPassword, db.GetUserByUsername(OwnerName).value.password)
    ensures old(db.GetUserByUsername(AdminName)).None? ==>
      db.GetUserByUsername(AdminName).value.role == Admin
      && Matches(AdminPassword, db.GetUserByUsername(AdminName).value.password)
    ensures old(db.GetSetting(PixKey)).None? ==>
      db.GetSetting(PixKey).value.value == Some(DefaultPix)
      && db.GetSetting(PixKey).value.updatedBy == Some(db.GetUserByUsername(OwnerName).value.id)
    ensures old(db.GetSetting(PixKey)).Some? ==> db.systemSettings == old(db.systemSettings)
    ensures old(db.GetSetting(PixKey)).None? ==> db.systemSettings == old(db.systemSettings) + [db.GetSetting(PixKey).value]
    ensures old(db.users) <= db.users
    ensures |db.users| == |old(db.users)| + (if old(db.GetUserByUsername(OwnerName)).None? then 1 else 0)
      + (if old(db.GetUserByUsername(AdminName)).None? then 1 else 0)
  {
    EnsureAccounts(db, now);
    ghost var owner := db.GetUserByUsername(OwnerName);
    ghost var admin := db.GetUserByUsername(AdminName);
    assert owner.Some? && admin.Some?;
    EnsurePixKey(db, now);
    assert db.GetUserByUsername(OwnerName) == owner;
    assert db.GetUserByUsername(AdminName) == admin;
    r := Success(200, true);
  }

  // ---- /api/auth/login ----

  const InvalidCredentials: string := "Invalid credentials"

  /** A login with these credentials is accepted: an active user has the lower-cased name and the password. */
  ghost predicate CanLogIn(users: seq<User>, name: string, password: string)
  {
    exists u | u in users :: u.username == ToLower(name) && u.isActive && Matches(password, u.password)
  }

  /** The columns a successful login stamps on the user. */
  function LoginPatch(h: Headers, now: nat): (r: UserPatch)
    ensures r.role.None? && r.isActive.None?
    ensures r.lastLoginAt == Some(now) && r.ipAddress == Some(ClientIP(h))
  {
    UserPatch(None, None, Some(now), Some(ClientIP(h)))
  }

  /** `LOGIN_FAILED` details for a name with no active user. */
  function UnknownUserDetails(name: string): Details
  {
    map["username" := name, "reason" := "User not found"]
  }

  function BadPasswordDetails(): Details
  {
    map["reason" := "Invalid password"]
  }

  /**
   * The user at position `k` logs in: its row is stamped with the login
   * time and address, and `LOGIN_SUCCESS` is logged.
   */
  method AcceptLogin(db: Database, k: nat, h: Headers, now: nat) returns (r: Response<PublicUser>)
    requires db.Valid() && k < |db.users|
    modifies db`users, db`activityLogs, db`logSeq
    ensures db.Valid()
    ensures r == Success(200, WithoutPassword(old(db.users[k])))
    ensures db.users == old(db.users)[k := PatchUser(old(db.users[k]), LoginPatch(h, now))]
    ensures db.logSeq == old(db.logSeq) + 1
    ensures db.activityLogs == old(db.activityLogs)
      + [LogRow(old(db.logSeq), Some(old(db.users[k]).id), "LOGIN_SUCCESS", map[], h, now)]
  {
    var u := db.users[k];
    assert u in db.users;
    SerialUnique(db.users, UserId, db.userSeq, k, db.UserIndex(u.id).value);
    var updated := db.UpdateUser(u.id, LoginPatch(h, now));
    assert db.users[k] in db.users && db.users[k].id == u.id;
    ghost var stamped := db.users;
    LogActivity(db, Some(u.id), "LOGIN_SUCCESS", map[], h, now);
    assert db.users == stamped;
    r := Success(200, WithoutPassword(u));
  }

  /** The 401 answer to a refused login, after logging `LOGIN_FAILED`. */
  method RefuseLogin(db: Database, userId: Option<int>, details: Details, h: Headers, now: nat)
    returns (r: Response<PublicUser>)
    requires db.Valid() && IsRef(userId, UserIds(db.users))
    modifies db`activityLogs, db`logSeq
    ensures db.Valid()
    ensures r == Failure(401, InvalidCredentials)
    ensures db.logSeq == old(db.logSeq) + 1
    ensures db.activityLogs == old(db.activityLogs) + [LogRow(old(db.logSeq), userId, "LOGIN_FAILED", details, h, now)]
  {
    LogActivity(db, userId, "LOGIN_FAILED", details, h, now);
    r := Failure(401, InvalidCredentials);
  }

  /**
   * The login checks once both fields are present: an unknown name, an
   * inactive user and a wrong password all get the same 401 and a
   * `LOGIN_FAILED` entry; a success stamps the user's last login and
   * address, logs `LOGIN_SUCCESS` and returns the user as it was read,
   * without its password.
   */
  method Authenticate(db: Database, name: string, password: string, h: Headers, now: nat)
    returns (r: Response<PublicUser>)
    requires db.Valid()
    modifies db`users, db`activityLogs, db`logSeq
    ensures db.Valid()
    ensures r.Success? <==> old(CanLogIn(db.users, name, password))
    ensures db.logSeq == old(db.logSeq) + 1
    ensures var found := old(db.GetUserByUsername(ToLower(name)));
      found.None? || !found.value.isActive ==>
        && r == Failure(401, InvalidCredentials) && db.users == old(db.users)
        && db.activityLogs == old(db.activityLogs)
           + [LogRow(old(db.logSeq), None, "LOGIN_FAILED", UnknownUserDetails(name), h, now)]
    ensures var found := old(db.GetUserByUsername(ToLower(name)));
      found.Some? && found.value.isActive && !Matches(password, found.value.password) ==>
        && r == Failure(401, InvalidCredentials) && db.users == old(db.users)
        && db.activityLogs == old(db.activityLogs)
           + [LogRow(old(db.logSeq), Some(found.value.id), "LOGIN_FAILED", BadPasswordDetails(), h, now)]
    ensures var found := old(db.GetUserByUsername(ToLower(name)));
      found.Some? && found.value.isActive && Matches(password, found.value.password) ==>
        && r == Success(200, WithoutPassword(found.value))
        && db.users == old(db.users)[old(db.UsernameIndex(ToLower(name))).value := PatchUser(found.value, LoginPatch(h, now))]
        && db.activityLogs == old(db.activityLogs)
           + [LogRow(old(db.logSeq), Some(found.value.id), "LOGIN_SUCCESS", map[], h, now)]
  {
    var found := db.GetUserByUsername(ToLower(name));
    if found.None? || !found.value.isActive {
      forall v | v in db.users && v.username == ToLower(name) ensures !v.isActive {
        if found.Some? {
          SameUsername(db.users, v, found.value);
        }
      }
      r := RefuseLogin(db, None, UnknownUserDetails(name), h, now);
      return;
    }
    var u := found.value;
    if !Matches(password, u.password) {
      forall v | v in db.users && v.username == ToLower(name) ensures !Matches(password, v.password) {
        SameUsername(db.users, v, u);
      }
      assert u.id in UserIds(db.users);
      r := RefuseLogin(db, Some(u.id), BadPasswordDetails(), h, now);
      return;
    }
    r := AcceptLogin(db, db.UsernameIndex(ToLower(name)).value, h, now);
  }

  /** `POST /api/auth/login`: both fields are required, then `Authenticate` decides. */
  method Login(db: Database, username: Option<string>, password: Option<string>, h: Headers, now: nat)
    returns (r: Response<PublicUser>)
    requires db.Valid()
    modifies db`users, db`activityLogs, db`logSeq
    ensures db.Valid()
    ensures !Truthy(username) || !Truthy(password) ==>
      r == Failure(400, "Username and password are required")
      && db.users == old(db.users) && db.activityLogs == old(db.activityLogs) && db.logSeq == old(db.logSeq)
    ensures r.Success? <==> Truthy(username) && Truthy(password) && old(CanLogIn(db.users, username.value, password.value))
    ensures r.Failure? ==> r.status == 400 || r == Failure(401, InvalidCredentials)
    ensures Truthy(username) && Truthy(password) ==> db.logSeq == old(db.logSeq) + 1
    ensures Truthy(username) && Truthy(password) ==>
      var found := old(db.GetUserByUsername(ToLower(username.value)));
      found.None? || !found.value.isActive ==>
        && r == Failure(401, InvalidCredentials) && db.users == old(db.users)
        && db.activityLogs == old(db.activityLogs)
           + [LogRow(old(db.logSeq), None, "LOGIN_FAILED", UnknownUserDetails(username.value), h, now)]
    ensures Truthy(username) && Truthy(password) ==>
      var found := old(db.GetUserByUsername(ToLower(username.value)));
      found.Some? && found.value.isActive && !Matches(password.value, found.value.password) ==>
        && r == Failure(401, InvalidCredentials) && db.users == old(db.users)
        && db.activityLogs == old(db.activityLogs)
           + [LogRow(old(db.logSeq), Some(found.value.id), "LOGIN_FAILED", BadPasswordDetails(), h, now)]
    ensures Truthy(username) && Truthy(password) ==>
      var found := old(db.GetUserByUsername(ToLower(username.value)));
      found.Some? && found.value.isActive && Matches(password.value, found.value.password) ==>
        && r == Success(200, WithoutPassword(found.value))
        && db.users == old(db.users)[old(db.UsernameIndex(ToLower(username.value))).value := PatchUser(found.value, LoginPatch(h, now))]
        && db.activityLogs == old(db.activityLogs)
           + [LogRow(old(db.logSeq), Some(found.value.id), "LOGIN_SUCCESS", map[], h, now)]
  {
    if !Truthy(username) || !Truthy(password) {
      return Failure(400, "Username and password are required");
    }
    r := Authenticate(db, username.value, password.value, h, now);
  }

  // ---- /api/auth/register ----

  /** A request body that `insertUserSchema` accepts; `role` and `isActive` are optional and taken as sent. */
  datatype Registration = Registration(username: string, password: string, role: Option<Role>, isActive: Option<bool>)

  /** The names registration refuses: the owner's and the default admin's. */
  const ReservedNames: seq<string> := [OwnerName, AdminName]

  /** The row a registration inserts: the lower-cased name, the hashed password, the rest of the body as sent. */
  function Registered(b: Registration): (r: NewUser)
    ensures r.username == ToLower(b.username) && IsLower(r.username)
    ensures Matches(b.password, r.password)
    ensures r.role == b.role && r.isActive == b.isActive
  {
    ToLowerIdempotent(b.username);
    NewUser(ToLower(b.username), Hash(b.password), b.role, b.isActive)
  }

  /** Inserts the registered user (whose name is free) and logs `USER_REGISTERED`. */
  method CreateRegistered(db: Database, b: Registration, h: Headers, now: nat) returns (r: Response<PublicUser>)
    requires db.Valid() && db.GetUserByUsername(ToLower(b.username)).None?
    modifies db`users, db`userSeq, db`activityLogs, db`logSeq
    ensures db.Valid()
    ensures db.users == old(db.users) + [UserRow(old(db.userSeq), Registered(b), now)]
    ensures db.userSeq == old(db.userSeq) + 1 && db.logSeq == old(db.logSeq) + 1
    ensures db.activityLogs == old(db.activityLogs)
      + [LogRow(old(db.logSeq), Some(old(db.userSeq)), "USER_REGISTERED", map[], h, now)]
    ensures r == Success(201, WithoutPassword(UserRow(old(db.userSeq), Registered(b), now)))
    ensures IsLower(r.value.username) && r.value.role == b.role.GetOr(Regular)
    ensures b.isActive != Some(false) ==> CanLogIn(db.users, b.username, b.password)
  {
    var created := db.CreateUser(Registered(b), now);
    var u := created.value;
    assert u in db.users;
    ghost var users := db.users;
    LogActivity(db, Some(u.id), "USER_REGISTERED", map[], h, now);
    assert db.users == users;
    r := Success(201, WithoutPassword(u));
  }

  /**
   * `POST /api/auth/register`: a body the schema refuses gets 500; an existing
   * lower-cased name gets 400 before the reserved names are checked; otherwise
   * the user is created under the lower-cased name with the role and
   * activity the body gives.
   */
  method Register(db: Database, body: Option<Registration>, h: Headers, now: nat) returns (r: Response<PublicUser>)
    requires db.Valid()
    modifies db`users, db`userSeq, db`activityLogs, db`logSeq
    ensures db.Valid()
    ensures r.Failure? ==>
      && db.users == old(db.users) && db.userSeq == old(db.userSeq)
      && db.activityLogs == old(db.activityLogs) && db.logSeq == old(db.logSeq)
    ensures body.None? ==> r == Failure(500, "Internal server error")
    ensures body.Some? && old(db.GetUserByUsername(ToLower(body.value.username))).Some? ==>
      r == Failure(400, "Username already exists")
    ensures body.Some? && ToLower(body.value.username) in ReservedNames ==>
      old(db.GetUserByUsername(ToLower(body.value.username))).None? ==> r == Failure(400, "This username is reserved")
    ensures body.Some? && old(Initialized(db)) && ToLower(body.value.username) in ReservedNames ==>
      r == Failure(400, "Username already exists")
    ensures body.Some? && ToLower(body.value.username) !in ReservedNames ==>
      old(db.GetUserByUsername(ToLower(body.value.username))).None? ==>
      && r == Success(201, WithoutPassword(UserRow(old(db.userSeq), Registered(body.value), now)))
      && db.users == old(db.users) + [UserRow(old(db.userSeq), Registered(body.value), now)]
      && db.activityLogs == old(db.activityLogs)
         + [LogRow(old(db.logSeq), Some(old(db.userSeq)), "USER_REGISTERED", map[], h, now)]
      && db.userSeq == old(db.userSeq) + 1 && db.logSeq == old(db.logSeq) + 1
    ensures r.Success? ==> IsLower(r.value.username) && r.value.role == body.value.role.GetOr(Regular)
    ensures r.Success? && body.value.isActive != Some(false) ==>
      CanLogIn(db.users, body.value.username, body.value.password)
  {
    if body.None? {
      return Failure(500, "Internal server error");
    }
    var b := body.value;
    var name := ToLower(b.username);
    if db.GetUserByUsername(name).Some? {
      return Failure(400, "Username already exists");
    }
    if name in ReservedNames {
      assert !Initialized(db);
      return Failure(400, "This username is reserved");
    }
    r := CreateRegistered(db, b, h, now);
  }

  // ---- /api/auth/request-admin ----

  /** The user has a pending admin request. */
  ghost predicate HasPendingRequest(rs: seq<AdminRequest>, userId: int)
  {
    exists q | q in rs :: q.userId == userId && q.status == Pending
  }

  /** No user has two pending admin requests: the invariant request-admin's duplicate check keeps. */
  ghost predicate OnePendingPerUser(rs: seq<AdminRequest>)
  {
    forall i, j | 0 <= i < j < |rs| && rs[i].status == Pending && rs[j].status == Pending :: rs[i].userId != rs[j].userId
  }

  /** Filing a request for a user with none pending keeps the invariant. */
  lemma OnePendingAppend(rs: seq<AdminRequest>, q: AdminRequest)
    requires OnePendingPerUser(rs) && !HasPendingRequest(rs, q.userId)
    ensures OnePendingPerUser(rs + [q])
  {
    forall i, j | 0 <= i < j < |rs + [q]| && (rs + [q])[i].status == Pending && (rs + [q])[j].status == Pending
      ensures (rs + [q])[i].userId != (rs + [q])[j].userId
    {
      if j == |rs| {
        assert rs[i] in rs;
      }
    }
  }

  /** Settling a request (approving or rejecting it) keeps the invariant. */
  lemma OnePendingSettle(rs: seq<AdminRequest>, k: nat, q: AdminRequest)
    requires OnePendingPerUser(rs) && k < |rs| && q.status != Pending
    ensures OnePendingPerUser(rs[k := q])
  {
  }

  /** The duplicate check reads the joined pending list; for an existing user it sees every pending request. */
  method FindPending(db: Database, userId: int) returns (pending: bool)
    requires db.Valid() && userId in UserIds(db.users)
    ensures pending <==> HasPendingRequest(db.adminRequests, userId)
  {
    var views := db.PendingAdminRequests();
    var found := Find(views, (v: RequestView) => v.request.userId == userId);
    pending := found.Some?;
    if pending {
      assert found.value.request in RequestsOf(views);
    } else {
      forall q | q in RequestsOf(views) ensures q.userId != userId {
        var i :| 0 <= i < |views| && views[i].request == q;
        assert views[i] in views;
      }
    }
  }

  /**
   * The duplicate check and the insertion, for an existing user: a pending
   * request of the user's gets 400; otherwise a pending request for the
   * role admin is filed and `ADMIN_REQUEST_CREATED` logged.
   */
  method FileAdminRequest(db: Database, userId: int, h: Headers, now: nat) returns (r: Response<AdminRequest>)
    requires db.Valid() && userId in UserIds(db.users)
    modifies db`adminRequests, db`requestSeq, db`activityLogs, db`logSeq
    ensures db.Valid()
    ensures old(HasPendingRequest(db.adminRequests, userId)) ==>
      && r == Failure(400, "Admin request already pending")
      && db.adminRequests == old(db.adminRequests) && db.requestSeq == old(db.requestSeq)
      && db.activityLogs == old(db.activityLogs) && db.logSeq == old(db.logSeq)
    ensures !old(HasPendingRequest(db.adminRequests, userId)) ==>
      && r == Success(201, AdminRequestRow(old(db.requestSeq), userId, now))
      && db.adminRequests == old(db.adminRequests) + [r.value]
      && db.requestSeq == old(db.requestSeq) + 1 && db.logSeq == old(db.logSeq) + 1
      && db.activityLogs == old(db.activityLogs)
         + [LogRow(old(db.logSeq), Some(userId), "ADMIN_REQUEST_CREATED", map["requestId" := IntText(old(db.requestSeq))], h, now)]
  {
    var pending := FindPending(db, userId);
    if pending {
      return Failure(400, "Admin request already pending");
    }
    var created := db.CreateAdminRequest(userId, now);
    ghost var filed := db.adminRequests;
    LogActivity(db, Some(userId), "ADMIN_REQUEST_CREATED", map["requestId" := IntText(created.value.id)], h, now);
    assert db.adminRequests == filed;
    r := Success(201, created.value);
  }

  /**
   * `POST /api/auth/request-admin`: the user id is required (0 counts as
   * missing), the user must exist and have the role user; then
   * `FileAdminRequest` decides.
   */
  method RequestAdmin(db: Database, userId: Option<int>, h: Headers, now: nat) returns (r: Response<AdminRequest>)
    requires db.Valid()
    modifies db`adminRequests, db`requestSeq, db`activityLogs, db`logSeq
    ensures db.Valid()
    ensures r.Failure? ==>
      && db.adminRequests == old(db.adminRequests) && db.requestSeq == old(db.requestSeq)
      && db.activityLogs == old(db.activityLogs) && db.logSeq == old(db.logSeq)
    ensures userId.None? || userId == Some(0) ==> r == Failure(400, "User ID is required")
    ensures userId.Some? && userId.value != 0 && old(db.GetUser(userId.value)).None? ==>
      r == Failure(404, "User not found")
    ensures userId.Some? && userId.value != 0 && old(db.GetUser(userId.value)).Some? ==>
      old(db.GetUser(userId.value)).value.role != Regular ==> r == Failure(400, "User already has elevated privileges")
    ensures userId.Some? && userId.value != 0 && old(db.GetUser(userId.value)).Some? ==>
      old(db.GetUser(userId.value)).value.role == Regular && old(HasPendingRequest(db.adminRequests, userId.value)) ==>
      r == Failure(400, "Admin request already pending")
    ensures r.Success? <==>
      && userId.Some? && userId.value != 0 && old(db.GetUser(userId.value)).Some?
      && old(db.GetUser(userId.value)).value.role == Regular && !old(HasPendingRequest(db.adminRequests, userId.value))
    ensures r.Success? ==>
      && r == Success(201, AdminRequestRow(old(db.requestSeq), userId.value, now))
      && db.adminRequests == old(db.adminRequests) + [r.value]
      && db.requestSeq == old(db.requestSeq) + 1 && db.logSeq == old(db.logSeq) + 1
      && db.activityLogs == old(db.activityLogs)
         + [LogRow(old(db.logSeq), Some(userId.value), "ADMIN_REQUEST_CREATED", map["requestId" := IntText(r.value.id)], h, now)]
  {
    if userId.None? || userId.value == 0 {
      return Failure(400, "User ID is required");
    }
    var uid := userId.value;
    var user := db.GetUser(uid);
    if user.None? {
      return Failure(404, "User not found");
    }
    if user.value.role != Regular {
      return Failure(400, "User already has elevated privileges");
    }
    assert user.value in db.users;
    r := FileAdminRequest(db, uid, h, now);
  }

  // ---- /api/products ----

  /**
   * `POST /api/products`: a body the schema refuses gets 500; otherwise the
   * product is inserted and `PRODUCT_CREATED` logged under the body's `userId`.
   */
  method CreateProductRoute(db: Database, body: Option<NewProduct>, actor: Option<int>, h: Headers, now: nat)
    returns (r: Response<Product>)
    requires db.Valid()
    modifies db`products, db`productSeq, db`activityLogs, db`logSeq
    ensures db.Valid()
    ensures body.None? ==>
      && r == Failure(500, "Failed to create product")
      && db.products == old(db.products) && db.productSeq == old(db.productSeq)
      && db.activityLogs == old(db.activityLogs) && db.logSeq == old(db.logSeq)
    ensures body.Some? ==>
      && r == Success(201, ProductRow(old(db.productSeq), body.value, now))
      && db.products == old(db.products) + [r.value]
      && db.productSeq == old(db.productSeq) + 1 && db.logSeq == old(db.logSeq) + 1
      && db.activityLogs == Logged(old(db.activityLogs), db.users, old(db.logSeq), actor, "PRODUCT_CREATED",
                                   map["productId" := IntText(r.value.id), "name" := r.value.name], h, now)
  {
    if body.None? {
      return Failure(500, "Failed to create product");
    }
    var product := db.CreateProduct(body.value, now);
    LogActivity(db, actor, "PRODUCT_CREATED", map["productId" := IntText(product.id), "name" := product.name], h, now);
    r := Success(201, product);
  }

  /**
   * `PUT /api/products/:id`: an unknown id gets 404; otherwise the patched
   * product is stored and returned and `PRODUCT_UPDATED` logged.
   */
  method UpdateProductRoute(db: Database, id: int, patch: ProductPatch, actor: Option<int>, h: Headers, now: nat)
    returns (r: Response<Product>)
    requires db.Valid()
    modifies db`products, db`activityLogs, db`logSeq
    ensures db.Valid()
    ensures old(db.ProductIndex(id)).None? ==>
      && r == Failure(404, "Product not found") && db.products == old(db.products)
      && db.activityLogs == old(db.activityLogs) && db.logSeq == old(db.logSeq)
    ensures old(db.ProductIndex(id)).Some? ==>
      var k := old(db.ProductIndex(id)).value;
      && r == Success(200, PatchProduct(old(db.products[k]), patch, now))
      && db.products == old(db.products)[k := r.value]
      && db.logSeq == old(db.logSeq) + 1
      && db.activityLogs == Logged(old(db.activityLogs), db.users, old(db.logSeq), actor, "PRODUCT_UPDATED",
                                   map["productId" := IntText(id), "name" := r.value.name], h, now)
  {
    var product := db.UpdateProduct(id, patch, now);
    if product.None? {
      return Failure(404, "Product not found");
    }
    ghost var patched := db.products;
    LogActivity(db, actor, "PRODUCT_UPDATED", map["productId" := IntText(id), "name" := product.value.name], h, now);
    assert db.products == patched;
    r := Success(200, product.value);
  }

  /**
   * The deletion once the product was found: a product that a payment
   * references cannot be deleted (500); otherwise it is removed and
   * `PRODUCT_DELETED` logged with its name.
   */
  method DeleteFoundProduct(db: Database, product: Product, actor: Option<int>, h: Headers, now: nat) returns (r: Response<bool>)
    requires db.Valid() && db.GetProduct(product.id) == Some(product)
    modifies db`products, db`activityLogs, db`logSeq
    ensures db.Valid()
    ensures old(db.ProductReferenced(product.id)) ==>
      && r == Failure(500, "Failed to delete product") && db.products == old(db.products)
      && db.activityLogs == old(db.activityLogs) && db.logSeq == old(db.logSeq)
    ensures !old(db.ProductReferenced(product.id)) ==>
      && r == Success(200, true)
      && db.products == Filter(old(db.products), OtherProduct(product.id)) && db.GetProduct(product.id).None?
      && db.logSeq == old(db.logSeq) + 1
      && db.activityLogs == Logged(old(db.activityLogs), db.users, old(db.logSeq), actor, "PRODUCT_DELETED",
                                   map["productId" := IntText(product.id), "name" := product.name], h, now)
  {
    ghost var referenced := db.ProductReferenced(product.id);
    ghost var kept := Filter(db.products, OtherProduct(product.id));
    var deleted := db.DeleteProduct(product.id);
    if deleted.Failed? {
      return Failure(500, "Failed to delete product");
    }
    assert !referenced && db.products == kept && db.GetProduct(product.id).None?;
    LogActivity(db, actor, "PRODUCT_DELETED", map["productId" := IntText(product.id), "name" := product.name], h, now);
    assert db.products == kept;
    r := Success(200, true);
  }

  /** `DELETE /api/products/:id`: an unknown id gets 404; otherwise `DeleteFoundProduct` decides. */
  method DeleteProductRoute(db: Database, id: int, actor: Option<int>, h: Headers, now: nat) returns (r: Response<bool>)
    requires db.Valid()
    modifies db`products, db`activityLogs, db`logSeq
    ensures db.Valid()
    ensures old(db.GetProduct(id)).None? ==>
      && r == Failure(404, "Product not found") && db.products == old(db.products)
      && db.activityLogs == old(db.activityLogs) && db.logSeq == old(db.logSeq)
    ensures r.Success? <==> old(db.GetProduct(id)).Some? && !old(db.ProductReferenced(id))
    ensures r.Failure? ==>
      && r.status in {404, 500}
      && db.products == old(db.products) && db.activityLogs == old(db.activityLogs) && db.logSeq == old(db.logSeq)
    ensures old(db.GetProduct(id)).Some? && old(db.ProductReferenced(id)) ==> r == Failure(500, "Failed to delete product")
    ensures r.Success? ==>
      && r == Success(200, true)
      && db.GetProduct(id).None? && db.products == Filter(old(db.products), OtherProduct(id))
      && db.logSeq == old(db.logSeq) + 1
      && db.activityLogs == Logged(old(db.activityLogs), db.users, old(db.logSeq), actor, "PRODUCT_DELETED",
                                   map["productId" := IntText(id), "name" := old(db.GetProduct(id)).value.name], h, now)
  {
    var product := db.GetProduct(id);
    if product.None? {
      return Failure(404, "Product not found");
    }
    r := DeleteFoundProduct(db, product.value, actor, h, now);
  }

  // ---- /api/payments ----

  /**
   * `POST /api/payments`: a body the schema refuses, or one naming a missing
   * user, product or approver, gets 500; otherwise the payment is inserted
   * and `PAYMENT_CREATED` logged under its user.
   */
  method CreatePaymentRoute(db: Database, body: Option<NewPayment>, h: Headers, now: nat) returns (r: Response<Payment>)
    requires db.Valid()
    modifies db`payments, db`paymentSeq, db`activityLogs, db`logSeq
    ensures db.Valid()
    ensures r.Failure? ==>
      && r == Failure(500, "Failed to create payment") && db.payments == old(db.payments)
      && db.activityLogs == old(db.activityLogs) && db.logSeq == old(db.logSeq)
    ensures r.Success? <==>
      body.Some? && body.value.userId in UserIds(db.users) && body.value.productId in ProductIds(db.products)
      && IsRef(body.value.approvedBy, UserIds(db.users))
    ensures r.Success? ==>
      && r == Success(201, PaymentRow(old(db.paymentSeq), body.value, now))
      && db.payments == old(db.payments) + [r.value]
      && db.activityLogs == old(db.activityLogs)
         + [LogRow(old(db.logSeq), Some(r.value.userId), "PAYMENT_CREATED",
                   map["paymentId" := IntText(r.value.id), "productId" := IntText(r.value.productId), "amount" := r.value.amount],
                   h, now)]
  {
    if body.None? {
      return Failure(500, "Failed to create payment");
    }
    var created := db.CreatePayment(body.value, now);
    if created.Failed? {
      return Failure(500, "Failed to create payment");
    }
    var payment := created.value;
    ghost var payments := db.payments;
    LogActivity(db, Some(payment.userId), "PAYMENT_CREATED",
                map["paymentId" := IntText(payment.id), "productId" := IntText(payment.productId), "amount" := payment.amount],
                h, now);
    assert db.payments == payments;
    r := Success(201, payment);
  }

  /** The file multer hands over: the client's name and type, its size and the random name it is stored under. */
  datatype Upload = Upload(originalName: string, mimeType: string, size: nat, storedName: string)

  const InvalidFileType: string := "Invalid file type. Only JPEG, PNG, and PDF files are allowed."

  /** The upload-proof reply: the payment as updated and the URL of the stored file. */
  datatype ProofReceipt = ProofReceipt(payment: Payment, proofImageUrl: string)

  /**
   * The multer middleware before the handler: a refused type or a file over
   * the size limit ends the request with an error (500) and the handler
   * does not run.
   */
  function UploadError(file: Option<Upload>): (r: Option<string>)
    ensures r.Some? <==> file.Some? && (!AcceptsFile(file.value.originalName, file.value.mimeType) || file.value.size > MaxUploadBytes)
    ensures file.Some? && !AcceptsFile(file.value.originalName, file.value.mimeType) ==> r == Some(InvalidFileType)
  {
    if file.None? then None
    else if !AcceptsFile(file.value.originalName, file.value.mimeType) then Some(InvalidFileType)
    else if file.value.size > MaxUploadBytes then Some("File too large")
    else None
  }

  /** `x || undefined` for an id: 0 is falsy. */
  function IdOrUndefined(x: Option<int>): (r: Option<int>)
    ensures r.Some? ==> r == x && x.value != 0
  {
    if x == Some(0) then None else x
  }

  /** `x || undefined` for a text: the empty text is falsy. */
  function TextOrUndefined(x: Option<string>): (r: Option<string>)
    ensures r.Some? ==> r == x && x.value != ""
  {
    if x == Some("") then None else x
  }

  /** The payment that proof upload stores: only the processing time changes. */
  function Reprocessed(p: Payment, now: nat): Payment
  {
    p.(processedAt := Some(now))
  }

  /**
   * `updatePaymentStatus` with the payment's own status, approver and
   * reason (each passed as `x || undefined`) only re-stamps `processedAt`:
   * the status, the approver, the reason and the proof URL stay as they were.
   */
  lemma ResubmitKeepsPayment(p: Payment, now: nat)
    ensures PaymentWithStatus(p, p.status, IdOrUndefined(p.approvedBy), TextOrUndefined(p.rejectionReason), now)
      == Reprocessed(p, now)
    ensures var q := Reprocessed(p, now);
      q.status == p.status && q.approvedBy == p.approvedBy && q.rejectionReason == p.rejectionReason
      && q.proofImageUrl == p.proofImageUrl && q.processedAt == Some(now)
  {
  }

  /**
   * The upload-proof handler once its payment was found: the payment is
   * re-stamped (the proof's URL is returned but never stored) and
   * `PAYMENT_PROOF_UPLOADED` logged under the payment's user.
   */
  method ResubmitPayment(db: Database, k: nat, file: Upload, h: Headers, now: nat) returns (r: Response<ProofReceipt>)
    requires db.Valid() && k < |db.payments|
    modifies db`payments, db`activityLogs, db`logSeq
    ensures db.Valid()
    ensures var p := old(db.payments[k]);
      && r == Success(200, ProofReceipt(Reprocessed(p, now), "/uploads/" + file.storedName))
      && db.payments == old(db.payments)[k := Reprocessed(p, now)]
      && db.logSeq == old(db.logSeq) + 1
      && db.activityLogs == old(db.activityLogs)
         + [LogRow(old(db.logSeq), Some(p.userId), "PAYMENT_PROOF_UPLOADED",
                   map["paymentId" := IntText(p.id), "filename" := file.originalName], h, now)]
  {
    var p := db.payments[k];
    assert p in db.payments;
    SerialUnique(db.payments, PaymentId, db.paymentSeq, k, db.PaymentIndex(p.id).value);
    ResubmitKeepsPayment(p, now);
    var updated := db.UpdatePaymentStatus(p.id, p.status, IdOrUndefined(p.approvedBy), TextOrUndefined(p.rejectionReason), now);
    ghost var payments := db.payments;
    LogActivity(db, Some(p.userId), "PAYMENT_PROOF_UPLOADED",
                map["paymentId" := IntText(p.id), "filename" := file.originalName], h, now);
    assert db.payments == payments;
    r := Success(200, ProofReceipt(updated.value.value, "/uploads/" + file.storedName));
  }

  /**
   * `POST /api/payments/:id/upload-proof`: a file the upload filter or the
   * size limit refuses ends the request (500); a request without a file gets
   * 400; an unknown payment 404; otherwise `ResubmitPayment`.
   */
  method UploadProof(db: Database, id: int, file: Option<Upload>, h: Headers, now: nat) returns (r: Response<ProofReceipt>)
    requires db.Valid()
    modifies db`payments, db`activityLogs, db`logSeq
    ensures db.Valid()
    ensures r.Failure? ==>
      db.payments == old(db.payments) && db.activityLogs == old(db.activityLogs) && db.logSeq == old(db.logSeq)
    ensures UploadError(file).Some? ==> r == Failure(500, UploadError(file).value)
    ensures file.None? ==> r == Failure(400, "No file uploaded")
    ensures UploadError(file).None? && file.Some? && old(db.PaymentIndex(id)).None? ==>
      r == Failure(404, "Payment not found")
    ensures UploadError(file).None? && file.Some? && old(db.PaymentIndex(id)).Some? ==>
      var k := old(db.PaymentIndex(id)).value;
      && r == Success(200, ProofReceipt(Reprocessed(old(db.payments[k]), now), "/uploads/" + file.value.storedName))
      && db.payments == old(db.payments)[k := r.value.payment]
      && db.logSeq == old(db.logSeq) + 1
      && db.activityLogs == old(db.activityLogs)
         + [LogRow(old(db.logSeq), Some(old(db.payments[k]).userId), "PAYMENT_PROOF_UPLOADED",
                   map["paymentId" := IntText(id), "filename" := file.value.originalName], h, now)]
    ensures r.Success? ==> r.value.payment.status == old(db.GetPayment(id)).value.status
    ensures r.Success? ==> r.value.payment.proofImageUrl == old(db.GetPayment(id)).value.proofImageUrl
  {
    var error := UploadError(file);
    if error.Some? {
      return Failure(500, error.value);
    }
    if file.None? {
      return Failure(400, "No file uploaded");
    }
    var k := db.PaymentIndex(id);
    if k.None? {
      return Failure(404, "Payment not found");
    }
    r := ResubmitPayment(db, k.value, file.value, h, now);
  }

  /** The `PAYMENT_REJECTED` details: the reason is left out when none was sent. */
  function RejectionDetails(id: int, reason: Option<string>): (r: Details)
    ensures "paymentId" in r && r["paymentId"] == IntText(id)
    ensures "reason" in r <==> reason.Some?
    ensures reason.Some? ==> r["reason"] == reason.value
  {
    if reason.Some? then map["paymentId" := IntText(id), "reason" := reason.value] else map["paymentId" := IntText(id)]
  }

  /** The log action of settling a payment. */
  function SettleAction(status: Status): string
  {
    if status == Approved then "PAYMENT_APPROVED" else "PAYMENT_REJECTED"
  }

  function SettleDetails(id: int, status: Status, reason: Option<string>): Details
  {
    if status == Approved then map["paymentId" := IntText(id)] else RejectionDetails(id, reason)
  }

  /** The 500 message when the update fails. */
  function SettleError(status: Status): string
  {
    if status == Approved then "Failed to approve payment" else "Failed to reject payment"
  }

  /**
   * The reply to settling payment `id`: 404 when there is none, 500 when the
   * approver is not a user, else the payment with its new status, whatever
   * its status was.
   */
  function SettleReply(db: Database, id: int, status: Status, approvedBy: Option<int>, rejectionReason: Option<string>, now: nat)
    : (r: Response<Payment>)
    reads db`payments, db`users
    ensures r.Success? <==> db.PaymentIndex(id).Some? && IsRef(approvedBy, UserIds(db.users))
    ensures db.PaymentIndex(id).None? ==> r == Failure(404, "Payment not found")
    ensures db.PaymentIndex(id).Some? && !IsRef(approvedBy, UserIds(db.users)) ==> r == Failure(500, SettleError(status))
    ensures r.Success? ==> r.status == 200 && r.value.id == id && r.value.status == status && r.value.processedAt == Some(now)
    ensures r.Success? && rejectionReason.None? ==> r.value.rejectionReason == db.GetPayment(id).value.rejectionReason
  {
    match db.PaymentIndex(id)
    case None => Failure(404, "Payment not found")
    case Some(k) =>
      if !IsRef(approvedBy, UserIds(db.users)) then Failure(500, SettleError(status))
      else Success(200, PaymentWithStatus(db.payments[k], status, approvedBy, rejectionReason, now))
  }

  /**
   * `PUT /api/admin/payments/:id/approve` and `.../reject`: the reply is
   * `SettleReply`; on success the payment is stored and the action logged
   * under the approver, otherwise nothing changes.
   */
  method SettlePayment(db: Database, id: int, status: Status, approvedBy: Option<int>, rejectionReason: Option<string>,
                       h: Headers, now: nat) returns (r: Response<Payment>)
    requires db.Valid()
    modifies db`payments, db`activityLogs, db`logSeq
    ensures db.Valid()
    ensures r == old(SettleReply(db, id, status, approvedBy, rejectionReason, now))
    ensures r.Failure? ==>
      db.payments == old(db.payments) && db.activityLogs == old(db.activityLogs) && db.logSeq == old(db.logSeq)
    ensures r.Success? ==>
      && db.payments == old(db.payments)[old(db.PaymentIndex(id)).value := r.value]
      && db.logSeq == old(db.logSeq) + 1
      && db.activityLogs == old(db.activityLogs)
         + [LogRow(old(db.logSeq), approvedBy, SettleAction(status), SettleDetails(id, status, rejectionReason), h, now)]
  {
    ghost var reply := SettleReply(db, id, status, approvedBy, rejectionReason, now);
    ghost var index := db.PaymentIndex(id);
    ghost var payments0 := db.payments;
    var updated := db.UpdatePaymentStatus(id, status, approvedBy, rejectionReason, now);
    if updated.Failed? {
      assert reply == Failure(500, SettleError(status));
      return Failure(500, SettleError(status));
    }
    if updated.value.None? {
      assert reply == Failure(404, "Payment not found");
      return Failure(404, "Payment not found");
    }
    assert reply == Success(200, updated.value.value);
    ghost var payments := db.payments;
    assert payments == payments0[index.value := updated.value.value];
    LogActivity(db, approvedBy, SettleAction(status), SettleDetails(id, status, rejectionReason), h, now);
    assert db.payments == payments;
    r := Success(200, updated.value.value);
  }

  /** `PUT /api/admin/payments/:id/approve`: no reason is passed. */
  method ApprovePayment(db: Database, id: int, approvedBy: Option<int>, h: Headers, now: nat) returns (r: Response<Payment>)
    requires db.Valid()
    modifies db`payments, db`activityLogs, db`logSeq
    ensures db.Valid()
    ensures r == old(SettleReply(db, id, Approved, approvedBy, None, now))
    ensures r.Success? ==> r.value.status == Approved
    ensures r.Failure? ==>
      db.payments == old(db.payments) && db.activityLogs == old(db.activityLogs) && db.logSeq == old(db.logSeq)
    ensures r.Success? ==>
      && db.payments == old(db.payments)[old(db.PaymentIndex(id)).value := r.value]
      && db.logSeq == old(db.logSeq) + 1
      && db.activityLogs == old(db.activityLogs)
         + [LogRow(old(db.logSeq), approvedBy, "PAYMENT_APPROVED", map["paymentId" := IntText(id)], h, now)]
  {
    r := SettlePayment(db, id, Approved, approvedBy, None, h, now);
  }

  /** `PUT /api/admin/payments/:id/reject`: the reason, when sent, is stored and logged. */
  method RejectPayment(db: Database, id: int, approvedBy: Option<int>, rejectionReason: Option<string>, h: Headers, now: nat)
    returns (r: Response<Payment>)
    requires db.Valid()
    modifies db`payments, db`activityLogs, db`logSeq
    ensures db.Valid()
    ensures r == old(SettleReply(db, id, Rejected, approvedBy, rejectionReason, now))
    ensures r.Success? ==> r.value.status == Rejected
    ensures r.Failure? ==>
      db.payments == old(db.payments) && db.activityLogs == old(db.activityLogs) && db.logSeq == old(db.logSeq)
    ensures r.Success? ==>
      && db.payments == old(db.payments)[old(db.PaymentIndex(id)).value := r.value]
      && db.logSeq == old(db.logSeq) + 1
      && db.activityLogs == old(db.activityLogs)
         + [LogRow(old(db.logSeq), approvedBy, "PAYMENT_REJECTED", RejectionDetails(id, rejectionReason), h, now)]
  {
    r := SettlePayment(db, id, Rejected, approvedBy, rejectionReason, h, now);
  }

  // ---- settling admin requests ----

  /** The 500 message when settling an admin request fails. */
  function RequestError(status: Status): string
  {
    if status == Approved then "Failed to approve admin request" else "Failed to reject admin request"
  }

  /**
   * The reply to settling admin request `id`: 404 when there is none, 500
   * when the approver is not a user, else the request with its new status,
   * whatever its status was.
   */
  function RequestReply(db: Database, id: int, status: Status, approvedBy: Option<int>, now: nat)
    : (r: Response<AdminRequest>)
    reads db`adminRequests, db`users
    ensures r.Success? <==> db.RequestIndex(id).Some? && IsRef(approvedBy, UserIds(db.users))
    ensures db.RequestIndex(id).None? ==> r == Failure(404, "Request not found")
    ensures db.RequestIndex(id).Some? && !IsRef(approvedBy, UserIds(db.users)) ==> r == Failure(500, RequestError(status))
    ensures r.Success? ==>
      && r.status == 200 && r.value.id == id && r.value.status == status && r.value.processedAt == Some(now)
      && r.value.userId == db.adminRequests[db.RequestIndex(id).value].userId
  {
    match db.RequestIndex(id)
    case None => Failure(404, "Request not found")
    case Some(k) =>
      if !IsRef(approvedBy, UserIds(db.users)) then Failure(500, RequestError(status))
      else Success(200, RequestWithStatus(db.adminRequests[k], status, approvedBy, now))
  }

  /** The patch that makes a user an admin. */
  const PromoteToAdmin := UserPatch(Some(Admin), None, None, None)

  /**
   * The second half of an approval: the requester becomes an admin and the
   * approval is logged under the approver.
   */
  method PromoteRequester(db: Database, q: AdminRequest, approvedBy: Option<int>, h: Headers, now: nat)
    requires db.Valid() && q.userId in UserIds(db.users)
    modifies db`users, db`activityLogs, db`logSeq
    ensures db.Valid()
    ensures old(db.UserIndex(q.userId)).Some?
    ensures
      var k := old(db.UserIndex(q.userId)).value;
      db.users == old(db.users)[k := PatchUser(old(db.users[k]), PromoteToAdmin)]
    ensures db.GetUser(q.userId).Some? && db.GetUser(q.userId).value.role == Admin
    ensures db.logSeq == old(db.logSeq) + 1
    ensures db.activityLogs == Logged(old(db.activityLogs), db.users, old(db.logSeq), approvedBy, "ADMIN_REQUEST_APPROVED",
                                      map["requestId" := IntText(q.id), "newAdminUserId" := IntText(q.userId)], h, now)
  {
    ghost var k := db.UserIndex(q.userId).value;
    var promoted := db.UpdateUser(q.userId, PromoteToAdmin);
    assert db.users[k].role == Admin && db.users[k].id == q.userId;
    SerialUnique(db.users, UserId, db.userSeq, k, db.UserIndex(q.userId).value);
    ghost var users := db.users;
    LogActivity(db, approvedBy, "ADMIN_REQUEST_APPROVED",
                map["requestId" := IntText(q.id), "newAdminUserId" := IntText(q.userId)], h, now);
    assert db.users == users;
  }

  /**
   * `PUT /api/admin/requests/:id/approve`: the reply is `RequestReply`; on
   * success the request is stored as approved, its user becomes an admin and
   * the approval is logged; otherwise nothing changes.
   */
  method ApproveAdminRequest(db: Database, id: int, approvedBy: Option<int>, h: Headers, now: nat)
    returns (r: Response<AdminRequest>)
    requires db.Valid()
    modifies db`adminRequests, db`users, db`activityLogs, db`logSeq
    ensures db.Valid()
    ensures r == old(RequestReply(db, id, Approved, approvedBy, now))
    ensures r.Failure? ==>
      && db.adminRequests == old(db.adminRequests) && db.users == old(db.users)
      && db.activityLogs == old(db.activityLogs) && db.logSeq == old(db.logSeq)
    ensures r.Success? ==>
      && db.adminRequests == old(db.adminRequests)[old(db.RequestIndex(id)).value := r.value]
      && db.GetUser(r.value.userId).Some? && db.GetUser(r.value.userId).value.role == Admin
      && old(db.UserIndex(r.value.userId)).Some?
      && db.logSeq == old(db.logSeq) + 1
    ensures r.Success? ==>
      var k := old(db.UserIndex(r.value.userId)).value;
      && db.users == old(db.users)[k := PatchUser(old(db.users[k]), PromoteToAdmin)]
      && db.activityLogs == old(db.activityLogs)
         + [LogRow(old(db.logSeq), approvedBy, "ADMIN_REQUEST_APPROVED",
                   map["requestId" := IntText(id), "newAdminUserId" := IntText(r.value.userId)], h, now)]
  {
    ghost var reply := RequestReply(db, id, Approved, approvedBy, now);
    ghost var index := db.RequestIndex(id);
    ghost var requests0 := db.adminRequests;
    var updated := db.UpdateAdminRequestStatus(id, Approved, approvedBy, now);
    if updated.Failed? {
      return Failure(500, RequestError(Approved));
    }
    if updated.value.None? {
      return Failure(404, "Request not found");
    }
    var q := updated.value.value;
    assert reply == Success(200, q);
    ghost var requests := db.adminRequests;
    assert requests == requests0[index.value := q];
    assert requests[index.value] in requests;
    PromoteRequester(db, q, approvedBy, h, now);
    assert db.adminRequests == requests;
    r := Success(200, q);
  }

  /**
   * `PUT /api/admin/requests/:id/reject`: the reply is `RequestReply`; on
   * success the request is stored as rejected and the rejection logged; the
   * users are never touched.
   */
  method RejectAdminRequest(db: Database, id: int, approvedBy: Option<int>, h: Headers, now: nat)
    returns (r: Response<AdminRequest>)
    requires db.Valid()
    modifies db`adminRequests, db`activityLogs, db`logSeq
    ensures db.Valid()
    ensures r == old(RequestReply(db, id, Rejected, approvedBy, now))
    ensures r.Failure? ==>
      db.adminRequests == old(db.adminRequests) && db.activityLogs == old(db.activityLogs) && db.logSeq == old(db.logSeq)
    ensures r.Success? ==>
      && db.adminRequests == old(db.adminRequests)[old(db.RequestIndex(id)).value := r.value]
      && db.logSeq == old(db.logSeq) + 1
      && db.activityLogs == old(db.activityLogs)
         + [LogRow(old(db.logSeq), approvedBy, "ADMIN_REQUEST_REJECTED", map["requestId" := IntText(id)], h, now)]
  {
    ghost var reply := RequestReply(db, id, Rejected, approvedBy, now);
    var updated := db.UpdateAdminRequestStatus(id, Rejected, approvedBy, now);
    if updated.Failed? {
      return Failure(500, RequestError(Rejected));
    }
    if updated.value.None? {
      return Failure(404, "Request not found");
    }
    assert reply == Success(200, updated.value.value);
    ghost var requests := db.adminRequests;
    LogActivity(db, approvedBy, "ADMIN_REQUEST_REJECTED", map["requestId" := IntText(id)], h, now);
    assert db.adminRequests == requests;
    r := Success(200, updated.value.value);
  }

  // ---- administration reads and settings ----

  /**
   * `GET /api/admin/users`: every user without the password, newest first;
   * one entry per user.
   */
  function PublicUsers(db: Database): (r: seq<PublicUser>)
    reads db`users
    ensures |r| == |db.users|
    ensures forall u | u in db.users :: WithoutPassword(u) in r
    ensures forall i | 0 <= i < |r| :: exists u | u in db.users :: r[i] == WithoutPassword(u)
    ensures forall i, j | 0 <= i < j < |r| :: r[j].createdAt <= r[i].createdAt
  {
    var all := db.AllUsers();
    PublishedMembers(all, db.users);
    Publish(all)
  }

  /** Each user without the password, in the same order. */
  function Publish(us: seq<User>): (r: seq<PublicUser>)
    ensures |r| == |us| && forall i | 0 <= i < |us| :: r[i] == WithoutPassword(us[i])
  {
    seq(|us|, i requires 0 <= i < |us| => WithoutPassword(us[i]))
  }

  /** Publishing a sorted copy of `us` keeps its members and its order. */
  lemma {:induction false} PublishedMembers(all: seq<User>, us: seq<User>)
    requires multiset(all) == multiset(us)
    requires SortedDesc(all, UserCreatedKey)
    ensures forall u | u in us :: WithoutPassword(u) in Publish(all)
    ensures forall i | 0 <= i < |all| :: exists u | u in us :: Publish(all)[i] == WithoutPassword(u)
    ensures forall i, j | 0 <= i < j < |all| :: Publish(all)[j].createdAt <= Publish(all)[i].createdAt
  {
    var r := Publish(all);
    forall u | u in us ensures WithoutPassword(u) in r {
      assert u in multiset(all);
      var i :| 0 <= i < |all| && all[i] == u;
      assert r[i] == WithoutPassword(u);
    }
    forall i | 0 <= i < |all| ensures exists u | u in us :: r[i] == WithoutPassword(all[i]) && r[i] == WithoutPassword(u) {
      assert all[i] in multiset(us);
    }
    forall i, j | 0 <= i < j < |all| ensures r[j].createdAt <= r[i].createdAt {
      assert KeyLe(UserCreatedKey(all[j]), UserCreatedKey(all[i]));
    }
  }

  /** The default page size of the log listing. */
  const DefaultLogLimit := 100

  /**
   * `parseInt(req.query.limit) || 100`: a missing or unparsable limit, and a
   * limit of zero, mean the default; any other number is taken as it is.
   */
  function LogLimit(query: Option<string>): (r: int)
    ensures query.None? ==> r == DefaultLogLimit
    ensures query.Some? && ParseInt(query.value).None? ==> r == DefaultLogLimit
    ensures query.Some? && ParseInt(query.value).Some? ==>
      r == if ParseInt(query.value).value == 0 then DefaultLogLimit else ParseInt(query.value).value
    ensures r != 0
  {
    match query
    case None => DefaultLogLimit
    case Some(q) =>
      match ParseInt(q)
      case None => DefaultLogLimit
      case Some(n) => if n == 0 then DefaultLogLimit else n
  }

  /**
   * `GET /api/admin/logs`: the newest `LogLimit(query)` entries, newest
   * first, each once and with its user; a negative limit, or one beyond
   * the `bigint` range, makes the query fail, which is answered with a 500.
   */
  function Logs(db: Database, query: Option<string>): (r: Response<seq<LogView>>)
    reads db`activityLogs, db`users
    ensures r.Failure? <==> LogLimit(query) < 0 || LogLimit(query) > MaxBigint
    ensures r.Failure? ==> r == Failure(500, "Failed to fetch logs")
    ensures r.Success? ==> r.status == 200
    ensures r.Success? ==> NewestPageOf(db.activityLogs, db.users, LogLimit(query), r.value)
  {
    var page := db.ActivityLogs(LogLimit(query));
    if page.Failed? then Failure(500, "Failed to fetch logs") else Success(200, page.value)
  }

  /**
   * Without a `limit` the listing holds the 100 newest entries, and all of
   * them when there are fewer: no entry left out is newer than one listed.
   */
  lemma DefaultLogPage(db: Database)
    ensures Logs(db, None).Success?
    ensures |Logs(db, None).value| == if |db.activityLogs| < 100 then |db.activityLogs| else 100
    ensures var page := Logs(db, None).value;
      forall l, i | l in multiset(db.activityLogs) - multiset(LogsOf(page)) && 0 <= i < |page| ::
        l.createdAt <= page[i].log.createdAt
  {
  }

  /** A decimal limit beyond the largest `bigint` (2^63 or more) is answered with a 500. */
  lemma HugeLimitFails(db: Database, n: nat)
    requires n > MaxBigint
    ensures Logs(db, Some(NatToString(n))) == Failure(500, "Failed to fetch logs")
  {
    ParseIntNatToString(n);
    assert LogLimit(Some(NatToString(n))) == n;
  }

  /** A negative decimal limit is answered with a 500, however large. */
  lemma NegativeLimitFails(db: Database, n: nat)
    requires n > 0
    ensures Logs(db, Some("-" + NatToString(n))) == Failure(500, "Failed to fetch logs")
  {
    NegativeRead(n);
    assert LogLimit(Some("-" + NatToString(n))) == -(n as int);
  }

  /** The body of `POST /api/settings`; JSON fields may be missing. */
  datatype SettingBody = SettingBody(key: Option<string>, value: Option<string>, updatedBy: Option<int>)

  /** The `SETTING_UPDATED` details `{ key, value }`: an undefined value is left out of the JSON. */
  function SettingDetails(key: string, value: Option<string>): (r: Details)
    ensures "key" in r && r["key"] == key
    ensures "value" in r <==> value.Some?
    ensures value.Some? ==> r["value"] == value.value
  {
    if value.Some? then map["key" := key, "value" := value.value] else map["key" := key]
  }

  /**
   * `POST /api/settings` once the body has a key: stores the setting, logs
   * `SETTING_UPDATED` under the updater and answers with the stored row. A
   * body without `value` keeps the old value of an existing key and stores
   * NULL for a new one. An updater that is not a user makes the store fail:
   * 500, no setting changed and nothing logged.
   */
  method StoreSetting(db: Database, key: string, body: SettingBody, h: Headers, now: nat) returns (r: Response<SystemSetting>)
    requires db.Valid()
    modifies db`systemSettings, db`settingSeq, db`activityLogs, db`logSeq
    ensures db.Valid()
    ensures r.Success? <==> IsRef(body.updatedBy, UserIds(db.users))
    ensures r.Failure? ==> r == Failure(500, "Failed to update setting")
    ensures r.Failure? ==>
      db.systemSettings == old(db.systemSettings) && db.activityLogs == old(db.activityLogs) && db.logSeq == old(db.logSeq)
    ensures r.Failure? ==> db.settingSeq == old(db.settingSeq) + (if old(db.SettingIndex(key)).None? then 1 else 0)
    ensures r.Success? ==>
      && r.status == 200 && r.value.key == key && r.value.updatedAt == now
      && db.GetSetting(key) == Some(r.value)
      && db.logSeq == old(db.logSeq) + 1
      && db.activityLogs == old(db.activityLogs)
         + [LogRow(old(db.logSeq), body.updatedBy, "SETTING_UPDATED", SettingDetails(key, body.value), h, now)]
    ensures r.Success? && body.value.Some? ==> r.value.value == body.value
    ensures r.Success? && body.value.None? && old(db.GetSetting(key)).Some? ==>
      r.value.value == old(db.GetSetting(key)).value.value
    ensures r.Success? && body.value.None? && old(db.GetSetting(key)).None? ==> r.value.value.None?
    ensures r.Success? && old(db.SettingIndex(key)).Some? ==>
      var k := old(db.SettingIndex(key)).value;
      && r.value == SettingWithValue(old(db.systemSettings[k]), body.value, body.updatedBy, now)
      && db.systemSettings == old(db.systemSettings)[k := r.value]
      && db.settingSeq == old(db.settingSeq)
    ensures r.Success? && old(db.SettingIndex(key)).None? ==>
      && r.value == SystemSetting(old(db.settingSeq), key, body.value, now, body.updatedBy)
      && db.systemSettings == old(db.systemSettings) + [r.value]
      && db.settingSeq == old(db.settingSeq) + 1
  {
    var stored := db.SetSetting(key, body.value, body.updatedBy, now);
    if stored.Failed? {
      return Failure(500, "Failed to update setting");
    }
    r := AnswerStoredSetting(db, key, body, stored.value, h, now);
  }

  /** The answer to a setting stored by an existing updater (or none): `SETTING_UPDATED` is logged and the row sent back. */
  method AnswerStoredSetting(db: Database, key: string, body: SettingBody, stored: SystemSetting, h: Headers, now: nat)
    returns (r: Response<SystemSetting>)
    requires db.Valid() && db.GetSetting(key) == Some(stored)
    requires IsRef(body.updatedBy, UserIds(db.users))
    modifies db`activityLogs, db`logSeq
    ensures db.Valid() && db.GetSetting(key) == Some(stored)
    ensures r == Success(200, stored)
    ensures db.logSeq == old(db.logSeq) + 1
    ensures db.activityLogs == old(db.activityLogs)
      + [LogRow(old(db.logSeq), body.updatedBy, "SETTING_UPDATED", SettingDetails(key, body.value), h, now)]
  {
    LogActivity(db, body.updatedBy, "SETTING_UPDATED", SettingDetails(key, body.value), h, now);
    r := Success(200, stored);
  }

  /**
   * `POST /api/settings`: stores the setting, logs `SETTING_UPDATED` under
   * the updater and answers with the stored row. A body without `value`
   * keeps the old value of an existing key and stores NULL for a new one.
   * A missing key, or an updater that is not a user, makes the store fail:
   * 500, no setting changed and nothing logged; the insert that a missing
   * key leads to still draws a serial id.
   */
  method SetSettingRoute(db: Database, body: SettingBody, h: Headers, now: nat) returns (r: Response<SystemSetting>)
    requires db.Valid()
    modifies db`systemSettings, db`settingSeq, db`activityLogs, db`logSeq
    ensures db.Valid()
    ensures r.Success? <==> body.key.Some? && IsRef(body.updatedBy, UserIds(db.users))
    ensures r.Failure? ==> r == Failure(500, "Failed to update setting")
    ensures r.Failure? ==>
      db.systemSettings == old(db.systemSettings) && db.activityLogs == old(db.activityLogs) && db.logSeq == old(db.logSeq)
    ensures r.Failure? ==>
      db.settingSeq == old(db.settingSeq) + (if body.key.None? || old(db.SettingIndex(body.key.value)).None? then 1 else 0)
    ensures r.Success? ==>
      && r.status == 200 && r.value.key == body.key.value && r.value.updatedAt == now
      && db.GetSetting(body.key.value) == Some(r.value)
      && db.logSeq == old(db.logSeq) + 1
      && db.activityLogs == old(db.activityLogs)
         + [LogRow(old(db.logSeq), body.updatedBy, "SETTING_UPDATED", SettingDetails(body.key.value, body.value), h, now)]
    ensures r.Success? && body.value.Some? ==> r.value.value == body.value
    ensures r.Success? && body.value.None? && old(db.GetSetting(body.key.value)).Some? ==>
      r.value.value == old(db.GetSetting(body.key.value)).value.value
    ensures r.Success? && body.value.None? && old(db.GetSetting(body.key.value)).None? ==> r.value.value.None?
    ensures r.Success? && old(db.SettingIndex(body.key.value)).Some? ==>
      var k := old(db.SettingIndex(body.key.value)).value;
      && r.value == SettingWithValue(old(db.systemSettings[k]), body.value, body.updatedBy, now)
      && db.systemSettings == old(db.systemSettings)[k := r.value]
      && db.settingSeq == old(db.settingSeq)
    ensures r.Success? && old(db.SettingIndex(body.key.value)).None? ==>
      && r.value == SystemSetting(old(db.settingSeq), body.key.value, body.value, now, body.updatedBy)
      && db.systemSettings == old(db.systemSettings) + [r.value]
      && db.settingSeq == old(db.settingSeq) + 1
  {
    if body.key.None? {
      var refused := db.InsertSettingWithoutKey();
      return Failure(500, "Failed to update setting");
    }
    r := StoreSetting(db, body.key.value, body, h, now);
  }
}

=== FILE: schema.dfy ===
/**
 * The tables of the store's database, their enumerations and the defaults an
 * insert fills in. Timestamps are natural numbers read from the caller's
 * clock; ids are the serial column values.
 */
module Schema {
  import opened Wrappers

  /** The `role` column: "owner", "admin" or "user" ("user" is `Regular`). */
  datatype Role = Owner | Admin | Regular

  function RoleName(r: Role): string
  {
    match r
    case Owner => "owner"
    case Admin => "admin"
    case Regular => "user"
  }

  /** Reads a role column value; anything outside the enumeration is refused. */
  function ParseRole(s: string): (r: Option<Role>)
    ensures r.Some? <==> s == "owner" || s == "admin" || s == "user"
    ensures r.Some? ==> RoleName(r.value) == s
  {
    if s == "owner" then Some(Owner)
    else if s == "admin" then Some(Admin)
    else if s == "user" then Some(Regular)
    else None
  }

  /** Every role is stored as a text the enumeration accepts, and reads back as itself. */
  lemma RoleRoundTrip(r: Role)
    ensures ParseRole(RoleName(r)) == Some(r)
  {
  }

  /** The `status` column of payments and admin requests. */
  datatype Status = Pending | Approved | Rejected

  function StatusName(s: Status): string
  {
    match s
    case Pending => "pending"
    case Approved => "approved"
    case Rejected => "rejected"
  }

  function ParseStatus(s: string): (r: Option<Status>)
    ensures r.Some? <==> s == "pending" || s == "approved" || s == "rejected"
    ensures r.Some? ==> StatusName(r.value) == s
  {
    if s == "pending" then Some(Pending)
    else if s == "approved" then Some(Approved)
    else if s == "rejected" then Some(Rejected)
    else None
  }

  lemma StatusRoundTrip(s: Status)
    ensures ParseStatus(StatusName(s)) == Some(s)
  {
  }

  /**
   * A stored password. bcrypt is idealised: the hash of a password records
   * it, and a password matches a hash exactly when it is the hashed one.
   */
  datatype Credential = Hashed(secret: string)

  function Hash(password: string): Credential
  {
    Hashed(password)
  }

  predicate Matches(password: string, c: Credential)
  {
    c.secret == password
  }

  datatype User = User(
    id: int,
    username: string,
    password: Credential,
    role: Role,
    isActive: bool,
    createdAt: nat,
    lastLoginAt: Option<nat>,
    ipAddress: Option<string>)

  /** The fields an insert into `users` may give (insertUserSchema). */
  datatype NewUser = NewUser(
    username: string,
    password: Credential,
    role: Option<Role>,
    isActive: Option<bool>)

  /** The row an insert creates: a regular, active user unless told otherwise. */
  function UserRow(id: int, u: NewUser, now: nat): (r: User)
    ensures r.id == id && r.username == u.username && r.password == u.password
    ensures r.role == u.role.GetOr(Regular) && r.isActive == u.isActive.GetOr(true)
    ensures u.role.None? ==> r.role == Regular
    ensures u.isActive.None? ==> r.isActive
    ensures r.createdAt == now && r.lastLoginAt.None? && r.ipAddress.None?
  {
    User(id, u.username, u.password, u.role.GetOr(Regular), u.isActive.GetOr(true), now, None, None)
  }

  /** The columns an `updateUser` call may set; None leaves a column as it is. */
  datatype UserPatch = UserPatch(
    role: Option<Role>,
    isActive: Option<bool>,
    lastLoginAt: Option<nat>,
    ipAddress: Option<string>)

  function PatchUser(u: User, p: UserPatch): (r: User)
    ensures r.id == u.id && r.username == u.username && r.password == u.password
    ensures r.createdAt == u.createdAt
    ensures r.role == p.role.GetOr(u.role) && r.isActive == p.isActive.GetOr(u.isActive)
    ensures r.lastLoginAt == (if p.lastLoginAt.Some? then p.lastLoginAt else u.lastLoginAt)
    ensures r.ipAddress == (if p.ipAddress.Some? then p.ipAddress else u.ipAddress)
  {
    u.(role := p.role.GetOr(u.role),
       isActive := p.isActive.GetOr(u.isActive),
       lastLoginAt := if p.lastLoginAt.Some? then p.lastLoginAt else u.lastLoginAt,
       ipAddress := if p.ipAddress.Some? then p.ipAddress else u.ipAddress)
  }

  /** A user as the API returns it: every column except the password. */
  datatype PublicUser = PublicUser(
    id: int,
    username: string,
    role: Role,
    isActive: bool,
    createdAt: nat,
    lastLoginAt: Option<nat>,
    ipAddress: Option<string>)

  function WithoutPassword(u: User): (r: PublicUser)
    ensures r.id == u.id && r.username == u.username && r.role == u.role
    ensures r.isActive == u.isActive && r.createdAt == u.createdAt
    ensures r.lastLoginAt == u.lastLoginAt && r.ipAddress == u.ipAddress
  {
    PublicUser(u.id, u.username, u.role, u.isActive, u.createdAt, u.lastLoginAt, u.ipAddress)
  }

  /** Prices are decimal texts; their arithmetic is not modelled. */
  datatype Product = Product(
    id: int,
    name: string,
    description: string,
    price: string,
    oldPrice: Option<string>,
    imageUrl: Option<string>,
    isActive: bool,
    isFeatured: bool,
    tags: seq<string>,
    createdAt: nat,
    updatedAt: nat)

  datatype NewProduct = NewProduct(
    name: string,
    description: string,
    price: string,
    oldPrice: Option<string>,
    imageUrl: Option<string>,
    isActive: Option<bool>,
    isFeatured: Option<bool>,
    tags: Option<seq<string>>)

  /** A new product is active, not featured and untagged unless told otherwise. */
  function ProductRow(id: int, p: NewProduct, now: nat): (r: Product)
    ensures r.id == id && r.name == p.name && r.description == p.description && r.price == p.price
    ensures r.oldPrice == p.oldPrice && r.imageUrl == p.imageUrl
    ensures p.isActive.None? ==> r.isActive
    ensures p.isFeatured.None? ==> !r.isFeatured
    ensures p.tags.None? ==> r.tags == []
    ensures p.isActive.Some? ==> r.isActive == p.isActive.value
    ensures p.isFeatured.Some? ==> r.isFeatured == p.isFeatured.value
    ensures p.tags.Some? ==> r.tags == p.tags.value
    ensures r.createdAt == now && r.updatedAt == now
  {
    Product(id, p.name, p.description, p.price, p.oldPrice, p.imageUrl,
            p.isActive.GetOr(true), p.isFeatured.GetOr(false), p.tags.GetOr([]), now, now)
  }

  /** A price in a JSON request body: a number, or the decimal's text. */
  datatype PriceValue = PriceNumber(digits: string) | PriceText(text: string)

  /** A product-creation request body as JSON carries it, before validation. */
  datatype ProductRequest = ProductRequest(
    name: string,
    description: string,
    price: PriceValue,
    oldPrice: Option<PriceValue>,
    imageUrl: Option<string>,
    isActive: Option<bool>,
    isFeatured: Option<bool>,
    tags: Option<seq<string>>)

  /**
   * `insertProductSchema.parse` on the price columns: both are `decimal`,
   * which the generated schema takes as text only, so a number is refused.
   */
  function ParseNewProduct(b: ProductRequest): (r: Option<NewProduct>)
    ensures r.Some? <==> b.price.PriceText? && (b.oldPrice.None? || b.oldPrice.value.PriceText?)
    ensures r.Some? ==> r.value.price == b.price.text
    ensures r.Some? ==> r.value.oldPrice == (if b.oldPrice.Some? then Some(b.oldPrice.value.text) else None)
    ensures r.Some? ==> r.value.name == b.name && r.value.description == b.description && r.value.tags == b.tags
    ensures r.Some? ==> r.value.imageUrl == b.imageUrl && r.value.isActive == b.isActive
    ensures r.Some? ==> r.value.isFeatured == b.isFeatured
  {
    if b.price.PriceNumber? then None
    else if b.oldPrice.Some? && b.oldPrice.value.PriceNumber? then None
    else
      var prior := if b.oldPrice.Some? then Some(b.oldPrice.value.text) else None;
      Some(NewProduct(b.name, b.description, b.price.text, prior, b.imageUrl, b.isActive, b.isFeatured, b.tags))
  }

  /** The request that sends a new product's prices as their texts. */
  function ProductRequestOf(p: NewProduct): (r: ProductRequest)
    ensures r.price == PriceText(p.price)
    ensures r.oldPrice.None? <==> p.oldPrice.None?
    ensures r.oldPrice.Some? ==> r.oldPrice.value == PriceText(p.oldPrice.value)
  {
    ProductRequest(p.name, p.description, PriceText(p.price),
                   if p.oldPrice.Some? then Some(PriceText(p.oldPrice.value)) else None,
                   p.imageUrl, p.isActive, p.isFeatured, p.tags)
  }

  /** Every new product sent with text prices passes validation unchanged. */
  lemma TextPricesAccepted(p: NewProduct)
    ensures ParseNewProduct(ProductRequestOf(p)) == Some(p)
  {
  }

  /** The columns an `updateProduct` call may set; None leaves a column as it is. */
  datatype ProductPatch = ProductPatch(
    name: Option<string>,
    description: Option<string>,
    price: Option<string>,
    oldPrice: Option<string>,
    imageUrl: Option<string>,
    isActive: Option<bool>,
    isFeatured: Option<bool>,
    tags: Option<seq<string>>)

  function PatchProduct(p: Product, q: ProductPatch, now: nat): (r: Product)
    ensures r.id == p.id && r.createdAt == p.createdAt && r.updatedAt == now
    ensures r.name == q.name.GetOr(p.name) && r.description == q.description.GetOr(p.description)
    ensures r.price == q.price.GetOr(p.price)
    ensures r.isActive == q.isActive.GetOr(p.isActive) && r.isFeatured == q.isFeatured.GetOr(p.isFeatured)
    ensures r.tags == q.tags.GetOr(p.tags)
    ensures q.oldPrice.Some? ==> r.oldPrice == q.oldPrice
    ensures q.oldPrice.None? ==> r.oldPrice == p.oldPrice
    ensures q.imageUrl.Some? ==> r.imageUrl == q.imageUrl
    ensures q.imageUrl.None? ==> r.imageUrl == p.imageUrl
  {
    p.(name := q.name.GetOr(p.name),
       description := q.description.GetOr(p.description),
       price := q.price.GetOr(p.price),
       oldPrice := if q.oldPrice.Some? then q.oldPrice else p.oldPrice,
       imageUrl := if q.imageUrl.Some? then q.imageUrl else p.imageUrl,
       isActive := q.isActive.GetOr(p.isActive),
       isFeatured := q.isFeatured.GetOr(p.isFeatured),
       tags := q.tags.GetOr(p.tags),
       updatedAt := now)
  }

  datatype Payment = Payment(
    id: int,
    userId: int,
    productId: int,
    amount: string,
    status: Status,
    proofImageUrl: Option<string>,
    rejectionReason: Option<string>,
    approvedBy: Option<int>,
    createdAt: nat,
    processedAt: Option<nat>)

  /** The fields an insert into `payments` may give (insertPaymentSchema). */
  datatype NewPayment = NewPayment(
    userId: int,
    productId: int,
    amount: string,
    status: Option<Status>,
    proofImageUrl: Option<string>,
    rejectionReason: Option<string>,
    approvedBy: Option<int>)

  /** A new payment is pending unless the insert names a status; it is unprocessed. */
  function PaymentRow(id: int, p: NewPayment, now: nat): (r: Payment)
    ensures r.id == id && r.userId == p.userId && r.productId == p.productId && r.amount == p.amount
    ensures p.status.None? ==> r.status == Pending
    ensures p.status.Some? ==> r.status == p.status.value
    ensures r.proofImageUrl == p.proofImageUrl && r.rejectionReason == p.rejectionReason
    ensures r.approvedBy == p.approvedBy
    ensures r.createdAt == now && r.processedAt.None?
  {
    Payment(id, p.userId, p.productId, p.amount, p.status.GetOr(Pending),
            p.proofImageUrl, p.rejectionReason, p.approvedBy, now, None)
  }

  datatype AdminRequest = AdminRequest(
    id: int,
    userId: int,
    requestedRole: Role,
    status: Status,
    approvedBy: Option<int>,
    createdAt: nat,
    processedAt: Option<nat>)

  /**
   * A new admin request asks for the admin role, the only value the
   * `requested_role` column's enumeration admits; it is pending and
   * unprocessed.
   */
  function AdminRequestRow(id: int, userId: int, now: nat): (r: AdminRequest)
    ensures r.id == id && r.userId == userId && r.requestedRole == Admin
    ensures r.status == Pending && r.approvedBy.None? && r.processedAt.None? && r.createdAt == now
  {
    AdminRequest(id, userId, Admin, Pending, None, now, None)
  }

  /** Free-form JSON details, as field name to text. */
  type Details = map<string, string>

  datatype ActivityLog = ActivityLog(
    id: int,
    userId: Option<int>,
    action: string,
    details: Details,
    ipAddress: Option<string>,
    userAgent: Option<string>,
    createdAt: nat)

  datatype NewActivityLog = NewActivityLog(
    userId: Option<int>,
    action: string,
    details: Details,
    ipAddress: Option<string>,
    userAgent: Option<string>)

  function ActivityLogRow(id: int, l: NewActivityLog, now: nat): (r: ActivityLog)
    ensures r.id == id && r.userId == l.userId && r.action == l.action && r.details == l.details
    ensures r.ipAddress == l.ipAddress && r.userAgent == l.userAgent && r.createdAt == now
  {
    ActivityLog(id, l.userId, l.action, l.details, l.ipAddress, l.userAgent, now)
  }

  /** The nullable JSON `value` column is kept as its text; None is NULL. */
  datatype SystemSetting = SystemSetting(
    id: int,
    key: string,
    value: Option<string>,
    updatedAt: nat,
    updatedBy: Option<int>)
}

=== FILE: seqs.dfy ===
/**
 * Sequence operations shared by the model: the `filter`, `find` and stable
 * `sort` of JavaScript arrays and the WHERE / ORDER BY ... DESC / LIMIT of the
 * SQL queries, over plain sequences.
 */
module Seqs {
  import opened Wrappers

  /** `a` is obtained from `b` by deleting elements (order is kept). */
  ghost predicate IsSubseq<T>(a: seq<T>, b: seq<T>)
    decreases |b|
  {
    if a == [] then true
    else if b == [] then false
    else if a[0] == b[0] then IsSubseq(a[1..], b[1..])
    else IsSubseq(a, b[1..])
  }

  /** Keeps, in their order, the elements that satisfy `p`. */
  function Filter<T>(s: seq<T>, p: T -> bool): (r: seq<T>)
    ensures |r| <= |s|
    ensures forall x | x in r :: x in s && p(x)
    ensures forall x | x in s && p(x) :: x in r
    ensures multiset(r) <= multiset(s)
    ensures IsSubseq(r, s)
    decreases |s|
  {
    if s == [] then []
    else
      var rest := Filter(s[1..], p);
      assert s == [s[0]] + s[1..];
      if p(s[0]) then [s[0]] + rest else rest
  }

  lemma {:induction false} FilterAll<T>(s: seq<T>, p: T -> bool)
    requires forall x :: x in s ==> p(x)
    ensures Filter(s, p) == s
    decreases |s|
  {
    if s != [] {
      FilterAll(s[1..], p);
    }
  }

  lemma {:induction false} FilterNone<T>(s: seq<T>, p: T -> bool)
    requires forall x :: x in s ==> !p(x)
    ensures Filter(s, p) == []
    decreases |s|
  {
    if s != [] {
      FilterNone(s[1..], p);
    }
  }

  lemma {:induction false} FilterAppend<T>(a: seq<T>, b: seq<T>, p: T -> bool)
    ensures Filter(a + b, p) == Filter(a, p) + Filter(b, p)
    decreases |a|
  {
    if a == [] {
      assert a + b == b;
    } else {
      assert (a + b)[1..] == a[1..] + b;
      FilterAppend(a[1..], b, p);
    }
  }

  /** Filtering keeps every passing element as often as it occurs and drops the rest. */
  lemma {:induction false} FilterCount<T>(s: seq<T>, p: T -> bool, x: T)
    ensures multiset(Filter(s, p))[x] == if p(x) then multiset(s)[x] else 0
    decreases |s|
  {
    if s != [] {
      FilterCount(s[1..], p, x);
      FilterCons(s[0], s[1..], p);
      assert s == [s[0]] + s[1..];
    }
  }

  /** Index of the first element that satisfies `p`. */
  function IndexOf<T>(s: seq<T>, p: T -> bool): (r: Option<nat>)
    ensures r.Some? ==> r.value < |s| && p(s[r.value])
    ensures r.Some? ==> forall j :: 0 <= j < r.value ==> !p(s[j])
    ensures r.None? <==> forall x :: x in s ==> !p(x)
    decreases |s|
  {
    if s == [] then None
    else if p(s[0]) then Some(0)
    else
      match IndexOf(s[1..], p)
      case None => None
      case Some(i) => Some(i + 1)
  }

  /** The first element that satisfies `p` (SQL's `const [row] = select ... where`). */
  function Find<T>(s: seq<T>, p: T -> bool): (r: Option<T>)
    ensures r.Some? ==> r.value in s && p(r.value)
    ensures r.None? <==> forall x :: x in s ==> !p(x)
  {
    match IndexOf(s, p)
    case None => None
    case Some(i) => Some(s[i])
  }

  /** What `Find` returns is the first row of the filtered sequence. */
  lemma FindIsFilterHead<T>(s: seq<T>, p: T -> bool)
    ensures Find(s, p).Some? ==> Filter(s, p) != [] && Find(s, p).value == Filter(s, p)[0]
  {
    if IndexOf(s, p).Some? {
      FirstIsFilterHead(s, p, IndexOf(s, p).value);
    }
  }

  lemma {:induction false} FirstIsFilterHead<T>(s: seq<T>, p: T -> bool, i: nat)
    requires i < |s| && p(s[i])
    requires forall j :: 0 <= j < i ==> !p(s[j])
    ensures Filter(s, p) != [] && Filter(s, p)[0] == s[i]
    decreases i
  {
    if i > 0 {
      FirstIsFilterHead(s[1..], p, i - 1);
    }
  }

  /** The first `n` elements, or all of them when there are fewer (SQL's LIMIT). */
  function Take<T>(s: seq<T>, n: nat): (r: seq<T>)
    ensures |r| == if n < |s| then n else |s|
    ensures r <= s
  {
    if n < |s| then s[..n] else s
  }

  /** Sort keys, ordered lexicographically: ORDER BY first DESC, second DESC. */
  type Key = (int, int)

  predicate KeyLe(a: Key, b: Key)
  {
    a.0 < b.0 || (a.0 == b.0 && a.1 <= b.1)
  }

  /** Every element's key is at least that of every later element. */
  ghost predicate SortedDesc<T>(s: seq<T>, key: T -> Key)
  {
    forall i, j :: 0 <= i < j < |s| ==> KeyLe(key(s[j]), key(s[i]))
  }

  /** Inserts `x` before the first element whose key is not greater than its own. */
  function Insert<T>(x: T, s: seq<T>, key: T -> Key): seq<T>
    decreases |s|
  {
    if s == [] || KeyLe(key(s[0]), key(x)) then [x] + s
    else [s[0]] + Insert(x, s[1..], key)
  }

  lemma {:induction false} InsertSorted<T>(x: T, s: seq<T>, key: T -> Key)
    requires SortedDesc(s, key)
    ensures multiset(Insert(x, s, key)) == multiset(s) + multiset{x}
    ensures SortedDesc(Insert(x, s, key), key)
    decreases |s|
  {
    if s == [] || KeyLe(key(s[0]), key(x)) {
    } else {
      var t := Insert(x, s[1..], key);
      InsertSorted(x, s[1..], key);
      assert s == [s[0]] + s[1..];
      forall y | y in t ensures KeyLe(key(y), key(s[0])) {
        assert y in multiset(t);
        if y != x {
          assert y in multiset(s[1..]);
        }
      }
      var r := [s[0]] + t;
      forall i, j | 0 <= i < j < |r| ensures KeyLe(key(r[j]), key(r[i])) {
        if i == 0 {
          assert r[j] in t;
        }
      }
    }
  }

  /** The elements whose key is `k`. */
  function HasKey<T>(key: T -> Key, k: Key): T -> bool
  {
    x => key(x) == k
  }

  lemma FilterCons<T>(x: T, s: seq<T>, p: T -> bool)
    ensures Filter([x] + s, p) == (if p(x) then [x] else []) + Filter(s, p)
  {
    assert ([x] + s)[1..] == s;
  }

  /**
   * Inserting `x` keeps the relative order of every group of equal keys, `x`
   * coming before the elements whose key equals its own.
   */
  lemma {:induction false} InsertStable<T>(x: T, s: seq<T>, key: T -> Key, k: Key)
    ensures Filter(Insert(x, s, key), HasKey(key, k)) == Filter([x] + s, HasKey(key, k))
    decreases |s|
  {
    var p := HasKey(key, k);
    if s == [] || KeyLe(key(s[0]), key(x)) {
    } else {
      var rest := s[1..];
      assert s == [s[0]] + rest;
      InsertStable(x, rest, key, k);
      FilterCons(s[0], Insert(x, rest, key), p);
      FilterCons(x, rest, p);
      FilterCons(s[0], rest, p);
      FilterCons(x, s, p);
    }
  }

  /** One step of the insertion sort keeps every group of equal keys in order. */
  lemma SortStep<T>(x: T, rest: seq<T>, t: seq<T>, key: T -> Key)
    requires forall k :: Filter(t, HasKey(key, k)) == Filter(rest, HasKey(key, k))
    ensures forall k :: Filter(Insert(x, t, key), HasKey(key, k)) == Filter([x] + rest, HasKey(key, k))
  {
    forall k ensures Filter(Insert(x, t, key), HasKey(key, k)) == Filter([x] + rest, HasKey(key, k)) {
      InsertStable(x, t, key, k);
      FilterCons(x, t, HasKey(key, k));
      FilterCons(x, rest, HasKey(key, k));
    }
  }

  /**
   * Sorts by descending key. Elements with equal keys keep their relative
   * order, as in JavaScript's (stable) Array.prototype.sort.
   */
  function SortDesc<T>(s: seq<T>, key: T -> Key): (r: seq<T>)
    ensures SortedDesc(r, key)
    ensures multiset(r) == multiset(s)
    ensures forall k :: Filter(r, HasKey(key, k)) == Filter(s, HasKey(key, k))
    decreases |s|
  {
    if s == [] then []
    else
      var t := SortDesc(s[1..], key);
      InsertSorted(s[0], t, key);
      SortStep(s[0], s[1..], t, key);
      assert s == [s[0]] + s[1..];
      Insert(s[0], t, key)
  }

  /** Sorting keeps the length and the members. */
  lemma SortDescMembers<T>(s: seq<T>, key: T -> Key)
    ensures |SortDesc(s, key)| == |s|
    ensures forall x | x in s :: x in SortDesc(s, key)
    ensures forall x | x in SortDesc(s, key) :: x in s
  {
    var r := SortDesc(s, key);
    assert |multiset(r)| == |multiset(s)|;
    forall x | x in s ensures x in r {
      assert x in multiset(s);
    }
    forall x | x in r ensures x in s {
      assert x in multiset(r);
    }
  }

  /**
   * LIMIT after ORDER BY ... DESC: the first `n` rows are taken, each as
   * often as it is stored, and no row left out has a greater key than a
   * row taken.
   */
  lemma TakeNewest<T>(s: seq<T>, n: nat, key: T -> Key)
    requires SortedDesc(s, key)
    ensures multiset(Take(s, n)) <= multiset(s)
    ensures forall x, i | x in multiset(s) - multiset(Take(s, n)) && 0 <= i < |Take(s, n)| ::
      KeyLe(key(x), key(Take(s, n)[i]))
  {
    var t := Take(s, n);
    var rest := s[|t|..];
    assert s == t + rest;
    assert multiset(s) - multiset(t) == multiset(rest);
    forall x, i | x in multiset(s) - multiset(t) && 0 <= i < |t| ensures KeyLe(key(x), key(t[i])) {
      assert x in rest;
      var j :| 0 <= j < |rest| && rest[j] == x;
      assert s[|t| + j] == x && s[i] == t[i];
    }
  }

  lemma {:induction false} InsertAfterGreater<T>(x: T, a: seq<T>, b: seq<T>, key: T -> Key)
    requires forall y :: y in a ==> !KeyLe(key(y), key(x))
    requires b == [] || KeyLe(key(b[0]), key(x))
    ensures Insert(x, a + b, key) == a + [x] + b
    decreases |a|
  {
    if a == [] {
      assert a + b == b;
    } else {
      var s := a + b;
      assert s[0] == a[0] && s[1..] == a[1..] + b;
      assert a[0] in a;
      assert Insert(x, s, key) == [a[0]] + Insert(x, a[1..] + b, key);
      forall y | y in a[1..] ensures !KeyLe(key(y), key(x)) {
        assert y in a;
      }
      InsertAfterGreater(x, a[1..], b, key);
      assert a + [x] + b == [a[0]] + (a[1..] + [x] + b);
    }
  }

  lemma {:induction false} SubseqMembers<T>(a: seq<T>, b: seq<T>)
    requires IsSubseq(a, b)
    ensures forall x | x in a :: x in b
    decreases |b|
  {
    if a != [] && b != [] {
      if a[0] == b[0] {
        SubseqMembers(a[1..], b[1..]);
        assert a == [a[0]] + a[1..];
      } else {
        SubseqMembers(a, b[1..]);
      }
    }
  }

  /** A subsequence holds no element more often than the sequence it was taken from. */
  lemma {:induction false} SubseqMultiset<T>(a: seq<T>, b: seq<T>)
    requires IsSubseq(a, b)
    ensures multiset(a) <= multiset(b)
    decreases |b|
  {
    if a != [] && b != [] {
      assert b == [b[0]] + b[1..];
      if a[0] == b[0] {
        SubseqMultiset(a[1..], b[1..]);
        assert a == [a[0]] + a[1..];
      } else {
        SubseqMultiset(a, b[1..]);
      }
    }
  }

  /** A subsequence of a sorted sequence is sorted. */
  lemma {:induction false} SubseqSorted<T>(a: seq<T>, b: seq<T>, key: T -> Key)
    requires IsSubseq(a, b) && SortedDesc(b, key)
    ensures SortedDesc(a, key)
    decreases |b|
  {
    if a != [] && b != [] {
      assert SortedDesc(b[1..], key) by {
        forall i, j | 0 <= i < j < |b[1..]| ensures KeyLe(key(b[1..][j]), key(b[1..][i])) {
          assert b[1..][j] == b[j + 1] && b[1..][i] == b[i + 1];
        }
      }
      if a[0] == b[0] {
        SubseqSorted(a[1..], b[1..], key);
        SubseqMembers(a[1..], b[1..]);
        forall i, j | 0 <= i < j < |a| ensures KeyLe(key(a[j]), key(a[i])) {
          assert a[j] == a[1..][j - 1];
          if i == 0 {
            assert a[j] in b[1..];
            var m :| 0 <= m < |b[1..]| && b[1..][m] == a[j];
            assert b[m + 1] == a[j];
          } else {
            assert a[i] == a[1..][i - 1];
          }
        }
      } else {
        SubseqSorted(a, b[1..], key);
      }
    }
  }

}

=== FILE: static_server.dfy ===
/**
 * The static site server (`server.js`): which file a request path names,
 * the MIME type of a file from its extension, the caching policy for a MIME
 * type, and the reply sent for each request. The file system is a map from
 * paths relative to the site directory to entries.
 */
module StaticServer {
  import opened Wrappers
  import opened Text
  import opened Paths

  /** The `mimeTypes` table: extension to MIME type. */
  const MimeTypes: seq<(string, string)> := [
    (".html", "text/html"),
    (".css", "text/css"),
    (".js", "application/javascript"),
    (".png", "image/png"),
    (".jpg", "image/jpeg"),
    (".jpeg", "image/jpeg"),
    (".gif", "image/gif"),
    (".svg", "image/svg+xml"),
    (".ico", "image/x-icon"),
    (".json", "application/json"),
    (".woff", "font/woff"),
    (".woff2", "font/woff2"),
    (".ttf", "font/ttf"),
    (".eot", "application/vnd.ms-fontobject")
  ]

  const Fallback: string := "text/plain"

  /** The value of the first entry for `key`, as a property lookup on the table object. */
  function PropertyOf(table: seq<(string, string)>, key: string): (r: Option<string>)
    ensures r.Some? ==> (key, r.value) in table
    ensures r.None? <==> forall e | e in table :: e.0 != key
  {
    if table == [] then None
    else if table[0].0 == key then Some(table[0].1)
    else
      assert table == [table[0]] + table[1..];
      PropertyOf(table[1..], key)
  }

  /** The first entry with the key decides the lookup. */
  lemma {:induction false} PropertyOfFirst(table: seq<(string, string)>, i: nat, key: string)
    requires i < |table| && table[i].0 == key
    requires forall j | 0 <= j < i :: table[j].0 != key
    ensures PropertyOf(table, key) == Some(table[i].1)
    decreases i
  {
    if i > 0 {
      assert table[0].0 != key;
      PropertyOfFirst(table[1..], i - 1, key);
    }
  }

  /** text/plain is not a value of the table, so it only ever comes from the fallback. */
  lemma FallbackNotInTable()
    ensures forall e | e in MimeTypes :: e.1 != Fallback
  {
  }

  /** `getMimeType`: the table entry of the lower-cased extension, else text/plain. */
  function MimeType(filePath: string): (r: string)
    ensures r == Fallback <==> PropertyOf(MimeTypes, ToLower(Extname(filePath))).None?
    ensures r != Fallback ==> (ToLower(Extname(filePath)), r) in MimeTypes
  {
    FallbackNotInTable();
    PropertyOf(MimeTypes, ToLower(Extname(filePath))).GetOr(Fallback)
  }

  const NoCache: string := "no-cache"
  const OneDay: string := "public, max-age=86400"

  /** Text types are never cached; everything else is cached for a day. */
  function CacheControl(mimeType: string): (r: string)
    ensures r == NoCache <==> StartsWith(mimeType, "text/")
    ensures r == OneDay <==> !StartsWith(mimeType, "text/")
  {
    if StartsWith(mimeType, "text/") then NoCache else OneDay
  }

  datatype Entry = File(content: seq<bv8>) | Directory

  type FileSystem = map<string, Entry>

  predicate Readable(fs: FileSystem, path: string)
  {
    path in fs && fs[path].File?
  }

  /** The two 404 pages: one for a file that cannot be read, one for a path that does not exist. */
  datatype Page = FileNotFound | PageNotFound

  datatype Body = Bytes(content: seq<bv8>) | ErrorPage(page: Page) | Empty

  datatype Reply = Reply(status: nat, contentType: Option<string>, cacheControl: Option<string>, body: Body)

  /**
   * `serveFile`: the file's bytes with its MIME type and caching policy, or
   * the uncached 404 page when it cannot be read.
   */
  function ServeFile(fs: FileSystem, path: string): (r: Reply)
    ensures r.status == 200 <==> Readable(fs, path)
    ensures Readable(fs, path) ==>
      r.body == Bytes(fs[path].content) && r.contentType == Some(MimeType(path))
      && r.cacheControl == Some(CacheControl(MimeType(path)))
    ensures !Readable(fs, path) ==>
      r.status == 404 && r.contentType == Some("text/html") && r.cacheControl == Some(NoCache)
      && r.body == ErrorPage(FileNotFound)
  {
    if Readable(fs, path) then
      var mime := MimeType(path);
      Reply(200, Some(mime), Some(CacheControl(mime)), Bytes(fs[path].content))
    else
      Reply(404, Some("text/html"), Some(NoCache), ErrorPage(FileNotFound))
  }

  /** The file a request path is answered from: a named page, or a path to look up. */
  datatype Target = Named(file: string) | Lookup(file: string)

  const AssetsPrefix: string := "/assets/"

  /** The path relative to the site directory that a request path names. */
  function Relative(pathname: string): (r: string)
    ensures StartsWith(pathname, "/") ==> "/" + r == pathname
    ensures !StartsWith(pathname, "/") ==> r == pathname
  {
    if StartsWith(pathname, "/") then pathname[1..] else pathname
  }

  /** The routing chain of the request callback. */
  function Route(pathname: string): (r: Target)
    ensures pathname == "/" || pathname == "/index.html" ==> r == Named("index.html")
    ensures pathname == "/admin" || pathname == "/admin.html" ==> r == Named("admin.html")
    ensures pathname == "/styles.css" ==> r == Named("styles.css")
    ensures pathname == "/admin-styles.css" ==> r == Named("admin-styles.css")
    ensures pathname == "/script.js" ==> r == Named("script.js")
    ensures pathname == "/admin-script.js" ==> r == Named("admin-script.js")
    ensures pathname !in NamedPaths && StartsWith(pathname, AssetsPrefix) ==>
      r == Named("assets/" + pathname[|AssetsPrefix|..])
    ensures r.Lookup? <==> pathname !in NamedPaths && !StartsWith(pathname, AssetsPrefix)
    ensures r.Lookup? ==> r.file == Relative(pathname)
  {
    if pathname == "/" || pathname == "/index.html" then Named("index.html")
    else if pathname == "/admin" || pathname == "/admin.html" then Named("admin.html")
    else if pathname == "/styles.css" then Named("styles.css")
    else if pathname == "/admin-styles.css" then Named("admin-styles.css")
    else if pathname == "/script.js" then Named("script.js")
    else if pathname == "/admin-script.js" then Named("admin-script.js")
    else if StartsWith(pathname, AssetsPrefix) then Named("assets/" + pathname[|AssetsPrefix|..])
    else Lookup(Relative(pathname))
  }

  const NamedPaths: set<string> := {
    "/", "/index.html", "/admin", "/admin.html", "/styles.css",
    "/admin-styles.css", "/script.js", "/admin-script.js"
  }

  /**
   * The reply to a request: OPTIONS is answered before any routing; a path
   * that does not exist gets the 404 page without a caching header.
   */
  function Respond(verb: string, pathname: string, fs: FileSystem): (r: Reply)
    ensures verb == "OPTIONS" ==> r == Reply(200, None, None, Empty)
    ensures verb != "OPTIONS" && Route(pathname).Named? ==> r == ServeFile(fs, Route(pathname).file)
    ensures verb != "OPTIONS" && Route(pathname).Lookup? ==>
      r == if Route(pathname).file in fs then ServeFile(fs, Route(pathname).file)
           else Reply(404, Some("text/html"), None, ErrorPage(PageNotFound))
  {
    if verb == "OPTIONS" then Reply(200, None, None, Empty)
    else match Route(pathname)
      case Named(file) => ServeFile(fs, file)
      case Lookup(file) =>
        if file in fs then ServeFile(fs, file)
        else Reply(404, Some("text/html"), None, ErrorPage(PageNotFound))
  }

  /** A 200 reply is the OPTIONS answer or the full content of a readable file. */
  lemma SuccessServesAFile(verb: string, pathname: string, fs: FileSystem)
    ensures var r := Respond(verb, pathname, fs);
      r.status == 200 ==>
        verb == "OPTIONS" ||
        exists f | Readable(fs, f) :: r.body == Bytes(fs[f].content) && r.contentType == Some(MimeType(f))
  {
    var r := Respond(verb, pathname, fs);
    if r.status == 200 && verb != "OPTIONS" {
      var f := Route(pathname).file;
      assert Readable(fs, f);
    }
  }

  /** Every other status is 404. */
  lemma StatusIs200Or404(verb: string, pathname: string, fs: FileSystem)
    ensures Respond(verb, pathname, fs).status in {200, 404}
  {
  }

  /** The extension is looked up lower-cased, so its case never matters. */
  lemma MimeTypeIgnoresCase(stem: string, ext: string)
    requires stem != [] && '/' !in stem && '.' !in stem
    requires ext != [] && ext[0] == '.' && '/' !in ext && '.' !in ext[1..]
    ensures MimeType(stem + ext) == MimeType(stem + ToLower(ext))
  {
    var low := ToLower(ext);
    assert '/' !in low && '.' !in low[1..] by {
      forall i | 0 <= i < |low| ensures low[i] != '/' && (i > 0 ==> low[i] != '.') {
        if i > 0 {
          assert ext[i] == ext[1..][i - 1];
        }
      }
    }
    assert (stem + ext)[0] == stem[0] == (stem + low)[0];
    ExtnameOfFileName(stem, ext);
    ExtnameOfFileName(stem, low);
    ToLowerIdempotent(ext);
  }

  /** A slash-free stem without a '.' and a lower-case extension: the file name `stem + ext`. */
  ghost predicate PlainFileName(stem: string, ext: string)
  {
    stem != [] && '/' !in stem && '.' !in stem
    && ext != [] && ext[0] == '.' && '/' !in ext && '.' !in ext[1..] && IsLower(ext)
  }

  /** A file whose lower-case extension is the key of the `i`th entry, and of no earlier one, gets that entry's type. */
  lemma MimeTypeOfEntry(stem: string, ext: string, i: nat)
    requires PlainFileName(stem, ext)
    requires i < |MimeTypes| && MimeTypes[i].0 == ext
    requires forall j | 0 <= j < i :: MimeTypes[j].0 != ext
    ensures MimeType(stem + ext) == MimeTypes[i].1
  {
    assert (stem + ext)[0] == stem[0];
    ExtnameOfFileName(stem, ext);
    ToLowerOfLower(ext);
    PropertyOfFirst(MimeTypes, i, ext);
  }

  lemma PngEntry(stem: string)
    requires stem != [] && '/' !in stem && '.' !in stem
    ensures PlainFileName(stem, ".png") && MimeTypes[3] == (".png", "image/png")
    ensures forall j | 0 <= j < 3 :: MimeTypes[j].0 != ".png"
  {
  }

  /** A ".png" file is image/png. */
  lemma PngIsImage(stem: string)
    requires stem != [] && '/' !in stem && '.' !in stem
    ensures MimeType(stem + ".png") == "image/png"
  {
    PngEntry(stem);
    MimeTypeOfEntry(stem, ".png", 3);
  }

  /** So is a ".PNG" file: the case of the extension does not matter. */
  lemma UpperPngIsImage(stem: string)
    requires stem != [] && '/' !in stem && '.' !in stem
    ensures MimeType(stem + ".PNG") == "image/png"
  {
    PngIsImage(stem);
    UpperPngName();
    MimeTypeIgnoresCase(stem, ".PNG");
    LowerPng();
  }

  lemma UpperPngName()
    ensures ".PNG" != [] && ".PNG"[0] == '.' && '/' !in ".PNG" && '.' !in ".PNG"[1..]
  {
  }

  lemma LowerPng()
    ensures ToLower(".PNG") == ".png"
  {
    var low := ToLower(".PNG");
    assert |low| == 4;
    assert low[0] == '.' && low[1] == 'p' && low[2] == 'n' && low[3] == 'g';
  }

  /** A name without an extension is text/plain. */
  lemma MimeTypeFallback(name: string)
    requires '/' !in name && '.' !in name
    ensures MimeType(name) == Fallback
  {
    ExtnameWithoutDot(name);
    assert ToLower("") == "";
  }

  /** HTML pages are sent uncached. */
  lemma PagesUncached(stem: string)
    requires stem != [] && '/' !in stem && '.' !in stem
    ensures CacheControl(MimeType(stem + ".html")) == NoCache
  {
    HtmlEntry(stem);
    MimeTypeOfEntry(stem, ".html", 0);
  }

  lemma HtmlEntry(stem: string)
    requires stem != [] && '/' !in stem && '.' !in stem
    ensures PlainFileName(stem, ".html") && MimeTypes[0] == (".html", "text/html")
    ensures CacheControl("text/html") == NoCache
  {
    assert "text/html"[..5] == "text/";
  }

  /** Scripts are cached for a day. */
  lemma ScriptsCached(stem: string)
    requires stem != [] && '/' !in stem && '.' !in stem
    ensures CacheControl(MimeType(stem + ".js")) == OneDay
  {
    ScriptEntry(stem);
    MimeTypeOfEntry(stem, ".js", 2);
  }

  lemma ScriptEntry(stem: string)
    requires stem != [] && '/' !in stem && '.' !in stem
    ensures PlainFileName(stem, ".js") && MimeTypes[2] == (".js", "application/javascript")
    ensures forall j | 0 <= j < 2 :: MimeTypes[j].0 != ".js"
    ensures CacheControl("application/javascript") == OneDay
  {
    assert "application/javascript"[..5][0] != "text/"[0];
  }
}

=== FILE: storage.dfy ===
/**
 * The storage layer (`DatabaseStorage`): six tables held in memory, the
 * serial sequences that number their rows, and the queries and updates the
 * route handlers call. The database's own guarantees are modelled as the
 * outcome of each statement: a unique or foreign-key constraint that a
 * statement would break makes it fail and change nothing, and a serial
 * sequence advances on every insert attempt, successful or not.
 */
module Storage {
  import opened Wrappers
  import opened Seqs
  import opened Schema

  /**
   * Why a statement was refused by the database: a constraint, or a `LIMIT`
   * that is negative or beyond the range of a PostgreSQL `bigint`.
   */
  datatype Violation = UniqueViolation | ForeignKeyViolation | NotNullViolation | NegativeLimit | LimitOutOfRange

  /** The largest PostgreSQL `bigint`, 2^63 - 1. */
  const MaxBigint := 0x7FFF_FFFF_FFFF_FFFF

  datatype Outcome<T> = Ok(value: T) | Failed(violation: Violation)

  function UserId(u: User): int { u.id }
  function ProductId(p: Product): int { p.id }
  function PaymentId(p: Payment): int { p.id }
  function RequestId(r: AdminRequest): int { r.id }
  function LogId(l: ActivityLog): int { l.id }
  function SettingId(s: SystemSetting): int { s.id }

  /**
   * Row ids come from a serial sequence whose next value is `next`: they are
   * positive, below `next` and increasing in insertion order (hence
   * distinct). Stated row by row from the last one back: see `Ascending`
   * for the same invariant element by element.
   */
  ghost predicate Serial<T>(rows: seq<T>, id: T -> int, next: int)
  {
    SerialUpTo(rows, |rows|, id, next)
  }

  /** The first `n` rows are serial below `next`. */
  ghost predicate SerialUpTo<T>(rows: seq<T>, n: nat, id: T -> int, next: int)
    requires n <= |rows|
    decreases n
  {
    n == 0 || (0 < id(rows[n - 1]) < next && SerialUpTo(rows, n - 1, id, id(rows[n - 1])))
  }

  /** The serial invariant element by element. */
  ghost predicate Ascending<T>(rows: seq<T>, n: nat, id: T -> int, next: int)
    requires n <= |rows|
  {
    && (forall i :: 0 <= i < n ==> 0 < id(rows[i]) < next)
    && (forall i, j :: 0 <= i < j < n ==> id(rows[i]) < id(rows[j]))
  }

  lemma {:induction false} SerialAscending<T>(rows: seq<T>, n: nat, id: T -> int, next: int)
    requires n <= |rows|
    ensures SerialUpTo(rows, n, id, next) <==> Ascending(rows, n, id, next)
    decreases n
  {
    if n > 0 {
      SerialAscending(rows, n - 1, id, id(rows[n - 1]));
    }
  }

  /** Whether the first `n` rows are serial depends on those rows only. */
  lemma {:induction false} SerialUpToSame<T>(a: seq<T>, b: seq<T>, n: nat, id: T -> int, next: int)
    requires n <= |a| && n <= |b| && a[..n] == b[..n]
    ensures SerialUpTo(a, n, id, next) == SerialUpTo(b, n, id, next)
    decreases n
  {
    if n > 0 {
      assert a[n - 1] == a[..n][n - 1] == b[..n][n - 1] == b[n - 1];
      assert a[..n - 1] == a[..n][..n - 1];
      assert b[..n - 1] == b[..n][..n - 1];
      SerialUpToSame(a, b, n - 1, id, id(a[n - 1]));
    }
  }

  lemma SerialAppend<T>(rows: seq<T>, x: T, id: T -> int, next: int)
    requires Serial(rows, id, next) && id(x) == next && 0 < next
    ensures Serial(rows + [x], id, next + 1)
  {
    var n := |rows|;
    assert (rows + [x])[n] == x;
    SerialUpToSame(rows, rows + [x], n, id, next);
  }

  lemma SerialGrow<T>(rows: seq<T>, id: T -> int, next: int)
    requires Serial(rows, id, next)
    ensures Serial(rows, id, next + 1)
  {
  }

  lemma SerialSameIds<T>(a: seq<T>, b: seq<T>, id: T -> int, next: int)
    requires Serial(a, id, next) && |a| == |b|
    requires forall i :: 0 <= i < |a| ==> id(b[i]) == id(a[i])
    ensures Serial(b, id, next)
  {
    SerialAscending(a, |a|, id, next);
    SerialAscending(b, |b|, id, next);
  }

  lemma {:induction false} AscendingSubseq<T>(a: seq<T>, b: seq<T>, id: T -> int, next: int)
    requires IsSubseq(a, b) && Ascending(b, |b|, id, next)
    ensures Ascending(a, |a|, id, next)
    decreases |b|
  {
    if a != [] && b != [] {
      assert Ascending(b[1..], |b| - 1, id, next);
      if a[0] == b[0] {
        AscendingSubseq(a[1..], b[1..], id, next);
        SubseqMembers(a[1..], b[1..]);
        forall i, j | 0 <= i < j < |a| ensures id(a[i]) < id(a[j]) {
          assert a[j] == a[1..][j - 1];
          if i == 0 {
            assert a[j] in b[1..];
            var m :| 0 <= m < |b[1..]| && b[1..][m] == a[j];
            assert b[m + 1] == a[j];
          } else {
            assert a[i] == a[1..][i - 1];
          }
        }
        forall i | 0 <= i < |a| ensures 0 < id(a[i]) < next {
          if i > 0 {
            assert a[i] == a[1..][i - 1];
          }
        }
      } else {
        AscendingSubseq(a, b[1..], id, next);
      }
    }
  }

  lemma SerialSubseq<T>(a: seq<T>, b: seq<T>, id: T -> int, next: int)
    requires IsSubseq(a, b) && Serial(b, id, next)
    ensures Serial(a, id, next)
  {
    SerialAscending(b, |b|, id, next);
    AscendingSubseq(a, b, id, next);
    SerialAscending(a, |a|, id, next);
  }

  /** In a serial table, two rows with the same id are the same row. */
  lemma SerialUnique<T>(rows: seq<T>, id: T -> int, next: int, i: int, j: int)
    requires Serial(rows, id, next) && 0 <= i < |rows| && 0 <= j < |rows|
    requires id(rows[i]) == id(rows[j])
    ensures i == j
  {
    SerialAscending(rows, |rows|, id, next);
  }

  /** In a serial table every id is below the sequence's next value. */
  lemma SerialBelow<T>(rows: seq<T>, id: T -> int, next: int)
    requires Serial(rows, id, next)
    ensures forall x | x in rows :: 0 < id(x) < next
  {
    SerialAscending(rows, |rows|, id, next);
  }

  function UserIds(us: seq<User>): set<int>
  {
    set u | u in us :: u.id
  }

  function ProductIds(ps: seq<Product>): set<int>
  {
    set p | p in ps :: p.id
  }

  lemma UserIdsAppend(us: seq<User>, u: User)
    ensures UserIds(us + [u]) == UserIds(us) + {u.id}
  {
    assert u in us + [u];
    forall x | x in us ensures x in us + [x] + [u] && x in us + [u] {
    }
  }

  lemma UserIdsUpdate(us: seq<User>, k: nat, u: User)
    requires k < |us| && u.id == us[k].id
    ensures UserIds(us[k := u]) == UserIds(us)
  {
    var vs := us[k := u];
    forall x | x in vs ensures x.id in UserIds(us) {
      var i :| 0 <= i < |vs| && vs[i] == x;
      assert us[i] in us;
    }
    forall x | x in us ensures x.id in UserIds(vs) {
      var i :| 0 <= i < |us| && us[i] == x;
      assert vs[i] in vs;
    }
  }

  lemma ProductIdsAppend(ps: seq<Product>, p: Product)
    ensures ProductIds(ps + [p]) == ProductIds(ps) + {p.id}
  {
    assert p in ps + [p];
    forall x | x in ps ensures x in ps + [p] {
    }
  }

  lemma ProductIdsUpdate(ps: seq<Product>, k: nat, p: Product)
    requires k < |ps| && p.id == ps[k].id
    ensures ProductIds(ps[k := p]) == ProductIds(ps)
  {
    var qs := ps[k := p];
    forall x | x in qs ensures x.id in ProductIds(ps) {
      var i :| 0 <= i < |qs| && qs[i] == x;
      assert ps[i] in ps;
    }
    forall x | x in ps ensures x.id in ProductIds(qs) {
      var i :| 0 <= i < |ps| && ps[i] == x;
      assert qs[i] in qs;
    }
  }

  /** An element of an updated sequence is the new element or an old one. */
  lemma InUpdate<T>(s: seq<T>, k: nat, v: T, x: T)
    requires k < |s| && x in s[k := v]
    ensures x == v || x in s
  {
    var i :| 0 <= i < |s| && s[k := v][i] == x;
    if i != k {
      assert s[i] == x;
    }
  }

  predicate IsRef(ref: Option<int>, ids: set<int>)
  {
    ref.None? || ref.value in ids
  }

  /** Foreign keys of `payments`: user, product and approver exist. */
  ghost predicate PaymentRefs(pays: seq<Payment>, us: set<int>, ps: set<int>)
  {
    forall p | p in pays :: p.userId in us && p.productId in ps && IsRef(p.approvedBy, us)
  }

  ghost predicate RequestRefs(rs: seq<AdminRequest>, us: set<int>)
  {
    forall r | r in rs :: r.userId in us && IsRef(r.approvedBy, us)
  }

  /** Every request asks for the admin role, the only one `requested_role` admits. */
  ghost predicate AdminOnly(rs: seq<AdminRequest>)
  {
    forall r | r in rs :: r.requestedRole == Admin
  }

  ghost predicate LogRefs(ls: seq<ActivityLog>, us: set<int>)
  {
    forall l | l in ls :: IsRef(l.userId, us)
  }

  ghost predicate SettingRefs(ss: seq<SystemSetting>, us: set<int>)
  {
    forall s | s in ss :: IsRef(s.updatedBy, us)
  }

  /** No two rows share a key. */
  ghost predicate Distinct<T, K>(rows: seq<T>, key: T -> K)
  {
    DistinctUpTo(rows, |rows|, key)
  }

  /** No two of the first `n` rows share a key: each differs from those before it. */
  ghost predicate DistinctUpTo<T, K>(rows: seq<T>, n: nat, key: T -> K)
    requires n <= |rows|
    decreases n
  {
    n == 0 || (DistinctUpTo(rows, n - 1, key) && forall i :: 0 <= i < n - 1 ==> key(rows[i]) != key(rows[n - 1]))
  }

  lemma {:induction false} DistinctPairs<T, K>(rows: seq<T>, n: nat, key: T -> K)
    requires n <= |rows|
    ensures DistinctUpTo(rows, n, key) <==> forall i, j :: 0 <= i < j < n ==> key(rows[i]) != key(rows[j])
    decreases n
  {
    if n > 0 {
      DistinctPairs(rows, n - 1, key);
    }
  }

  lemma {:induction false} DistinctUpToSame<T, K>(a: seq<T>, b: seq<T>, n: nat, key: T -> K)
    requires n <= |a| && n <= |b| && a[..n] == b[..n]
    ensures DistinctUpTo(a, n, key) == DistinctUpTo(b, n, key)
    decreases n
  {
    if n > 0 {
      assert forall i :: 0 <= i < n ==> a[i] == a[..n][i] == b[..n][i] == b[i];
      assert a[..n - 1] == a[..n][..n - 1];
      assert b[..n - 1] == b[..n][..n - 1];
      DistinctUpToSame(a, b, n - 1, key);
    }
  }

  /** Two rows of a table with distinct keys that share a key are the same row. */
  lemma SameKey<T, K>(rows: seq<T>, key: T -> K, x: T, y: T)
    requires Distinct(rows, key) && x in rows && y in rows && key(x) == key(y)
    ensures x == y
  {
    DistinctPairs(rows, |rows|, key);
    var i :| 0 <= i < |rows| && rows[i] == x;
    var j :| 0 <= j < |rows| && rows[j] == y;
  }

  lemma DistinctAppend<T, K>(rows: seq<T>, key: T -> K, x: T)
    requires Distinct(rows, key) && forall y | y in rows :: key(y) != key(x)
    ensures Distinct(rows + [x], key)
  {
    var n := |rows|;
    DistinctUpToSame(rows, rows + [x], n, key);
    forall i | 0 <= i < n ensures key((rows + [x])[i]) != key((rows + [x])[n]) {
      assert rows[i] in rows;
    }
  }

  lemma DistinctUpdate<T, K>(rows: seq<T>, key: T -> K, k: nat, x: T)
    requires Distinct(rows, key) && k < |rows| && key(x) == key(rows[k])
    ensures Distinct(rows[k := x], key)
  {
    DistinctPairs(rows, |rows|, key);
    DistinctPairs(rows[k := x], |rows|, key);
  }

  function Username(u: User): string { u.username }
  function SettingKey(s: SystemSetting): string { s.key }

  /** The `unique()` constraint on `users.username`. */
  ghost predicate UniqueUsernames(us: seq<User>)
  {
    Distinct(us, Username)
  }

  /** The `unique()` constraint on `system_settings.key`. */
  ghost predicate UniqueKeys(ss: seq<SystemSetting>)
  {
    Distinct(ss, SettingKey)
  }

  lemma UsernamesAppend(us: seq<User>, u: User)
    requires UniqueUsernames(us) && forall x | x in us :: x.username != u.username
    ensures UniqueUsernames(us + [u])
  {
    DistinctAppend(us, Username, u);
  }

  /** Usernames identify users. */
  lemma SameUsername(us: seq<User>, x: User, y: User)
    requires UniqueUsernames(us) && x in us && y in us && x.username == y.username
    ensures x == y
  {
    SameKey(us, Username, x, y);
  }

  lemma UsernamesUpdate(us: seq<User>, k: nat, u: User)
    requires UniqueUsernames(us) && k < |us| && u.username == us[k].username
    ensures UniqueUsernames(us[k := u])
  {
    DistinctUpdate(us, Username, k, u);
  }

  lemma KeysAppend(ss: seq<SystemSetting>, s: SystemSetting)
    requires UniqueKeys(ss) && forall x | x in ss :: x.key != s.key
    ensures UniqueKeys(ss + [s])
  {
    DistinctAppend(ss, SettingKey, s);
  }

  lemma KeysUpdate(ss: seq<SystemSetting>, k: nat, s: SystemSetting)
    requires UniqueKeys(ss) && k < |ss| && s.key == ss[k].key
    ensures UniqueKeys(ss[k := s])
  {
    DistinctUpdate(ss, SettingKey, k, s);
  }

  /** References to users stay valid when the set of user ids grows. */
  lemma RefsGrow(pays: seq<Payment>, rs: seq<AdminRequest>, ls: seq<ActivityLog>, ss: seq<SystemSetting>,
                 a: set<int>, b: set<int>, ps: set<int>)
    requires a <= b
    requires PaymentRefs(pays, a, ps) && RequestRefs(rs, a) && LogRefs(ls, a) && SettingRefs(ss, a)
    ensures PaymentRefs(pays, b, ps) && RequestRefs(rs, b) && LogRefs(ls, b) && SettingRefs(ss, b)
  {
  }

  function IsPendingPayment(p: Payment): bool { p.status == Pending }
  function IsProcessedPayment(p: Payment): bool { p.status == Approved || p.status == Rejected }
  function IsPendingRequest(r: AdminRequest): bool { r.status == Pending }
  function IsActiveProduct(p: Product): bool { p.isActive }
  /** The products that survive deleting the one with that id. */
  function OtherProduct(id: int): Product -> bool { (p: Product) => p.id != id }

  function UserCreatedKey(u: User): Key { (u.createdAt, 0) }
  function ProductCreatedKey(p: Product): Key { (p.createdAt, 0) }
  /** ORDER BY is_featured DESC, created_at DESC. */
  function ActiveProductKey(p: Product): Key { (if p.isFeatured then 1 else 0, p.createdAt) }
  function PaymentCreatedKey(p: Payment): Key { (p.createdAt, 0) }
  /** ORDER BY processed_at DESC, where PostgreSQL puts NULL first. */
  function PaymentProcessedKey(p: Payment): Key
  {
    match p.processedAt
    case None => (1, 0)
    case Some(t) => (0, t)
  }
  function RequestCreatedKey(r: AdminRequest): Key { (r.createdAt, 0) }
  function LogCreatedKey(l: ActivityLog): Key { (l.createdAt, 0) }

  /**
   * A payment after `updatePaymentStatus`: new status and processing time;
   * approver and reason change only when given.
   */
  function PaymentWithStatus(p: Payment, status: Status, approvedBy: Option<int>, rejectionReason: Option<string>, now: nat): (r: Payment)
    ensures r.id == p.id && r.userId == p.userId && r.productId == p.productId && r.amount == p.amount
    ensures r.proofImageUrl == p.proofImageUrl && r.createdAt == p.createdAt
    ensures r.status == status && r.processedAt == Some(now)
    ensures r.approvedBy == (if approvedBy.Some? then approvedBy else p.approvedBy)
    ensures r.rejectionReason == (if rejectionReason.Some? then rejectionReason else p.rejectionReason)
  {
    p.(status := status,
       approvedBy := if approvedBy.Some? then approvedBy else p.approvedBy,
       rejectionReason := if rejectionReason.Some? then rejectionReason else p.rejectionReason,
       processedAt := Some(now))
  }

  /** An admin request after `updateAdminRequestStatus`. */
  function RequestWithStatus(q: AdminRequest, status: Status, approvedBy: Option<int>, now: nat): (r: AdminRequest)
    ensures r.id == q.id && r.userId == q.userId && r.requestedRole == q.requestedRole && r.createdAt == q.createdAt
    ensures r.status == status && r.processedAt == Some(now)
    ensures r.approvedBy == (if approvedBy.Some? then approvedBy else q.approvedBy)
  {
    q.(status := status, approvedBy := if approvedBy.Some? then approvedBy else q.approvedBy, processedAt := Some(now))
  }

  /**
   * A setting after `setSetting` updates it: the time is re-stamped; the
   * value and the updater change only when given (an undefined field is
   * skipped by the update).
   */
  function SettingWithValue(s: SystemSetting, value: Option<string>, updatedBy: Option<int>, now: nat): (r: SystemSetting)
    ensures r.id == s.id && r.key == s.key && r.updatedAt == now
    ensures r.value == (if value.Some? then value else s.value)
    ensures r.updatedBy == (if updatedBy.Some? then updatedBy else s.updatedBy)
  {
    s.(value := if value.Some? then value else s.value,
       updatedAt := now,
       updatedBy := if updatedBy.Some? then updatedBy else s.updatedBy)
  }

  /** The setting with that key, if any. */
  function SettingByKey(ss: seq<SystemSetting>, key: string): (r: Option<SystemSetting>)
    ensures r.Some? ==> r.value in ss && r.value.key == key
    ensures r.None? <==> forall s | s in ss :: s.key != key
  {
    Find(ss, (s: SystemSetting) => s.key == key)
  }

  /** With unique keys, the lookup of a row's key finds that row. */
  lemma KeyedRow(ss: seq<SystemSetting>, i: nat)
    requires UniqueKeys(ss) && i < |ss|
    ensures SettingByKey(ss, ss[i].key) == Some(ss[i])
  {
    assert ss[i] in ss;
    SameKey(ss, SettingKey, SettingByKey(ss, ss[i].key).value, ss[i]);
  }

  /** A payment with the user and the product it references (an inner join row). */
  datatype PaymentView = PaymentView(payment: Payment, user: User, product: Product)

  function PaymentsOf(vs: seq<PaymentView>): (r: seq<Payment>)
    ensures |r| == |vs|
    ensures forall i :: 0 <= i < |vs| ==> r[i] == vs[i].payment
  {
    seq(|vs|, i requires 0 <= i < |vs| => vs[i].payment)
  }

  lemma PaymentsOfCons(v: PaymentView, rest: seq<PaymentView>)
    ensures PaymentsOf([v] + rest) == [v.payment] + PaymentsOf(rest)
  {
    var vs := [v] + rest;
    var a, b := PaymentsOf(vs), [v.payment] + PaymentsOf(rest);
    forall i | 0 <= i < |a| ensures a[i] == b[i] {
      if i > 0 {
        assert vs[i] == rest[i - 1];
      }
    }
  }

  /**
   * `payments INNER JOIN users INNER JOIN products`: the payments whose user
   * and product both exist, in their order, each with that user and product.
   */
  function JoinPayments(pays: seq<Payment>, us: seq<User>, ps: seq<Product>): (r: seq<PaymentView>)
    ensures IsSubseq(PaymentsOf(r), pays)
    ensures forall v | v in r :: v.user in us && v.user.id == v.payment.userId
    ensures forall v | v in r :: v.product in ps && v.product.id == v.payment.productId
    ensures forall p | p in pays && p.userId in UserIds(us) && p.productId in ProductIds(ps) :: p in PaymentsOf(r)
    ensures (forall p | p in pays :: p.userId in UserIds(us) && p.productId in ProductIds(ps)) ==> PaymentsOf(r) == pays
    decreases |pays|
  {
    if pays == [] then []
    else
      var p := pays[0];
      var rest := JoinPayments(pays[1..], us, ps);
      assert pays == [p] + pays[1..];
      var user := Find(us, (u: User) => u.id == p.userId);
      var product := Find(ps, (q: Product) => q.id == p.productId);
      if user.Some? && product.Some? then
        var r := [PaymentView(p, user.value, product.value)] + rest;
        PaymentsOfCons(PaymentView(p, user.value, product.value), rest);
        r
      else
        rest
  }

  /** An admin request with the user who made it. */
  datatype RequestView = RequestView(request: AdminRequest, user: User)

  function RequestsOf(vs: seq<RequestView>): (r: seq<AdminRequest>)
    ensures |r| == |vs|
    ensures forall i :: 0 <= i < |vs| ==> r[i] == vs[i].request
  {
    seq(|vs|, i requires 0 <= i < |vs| => vs[i].request)
  }

  lemma RequestsOfCons(v: RequestView, rest: seq<RequestView>)
    ensures RequestsOf([v] + rest) == [v.request] + RequestsOf(rest)
  {
    var vs := [v] + rest;
    var a, b := RequestsOf(vs), [v.request] + RequestsOf(rest);
    forall i | 0 <= i < |a| ensures a[i] == b[i] {
      if i > 0 {
        assert vs[i] == rest[i - 1];
      }
    }
  }

  /** `admin_requests INNER JOIN users`. */
  function JoinRequests(rs: seq<AdminRequest>, us: seq<User>): (r: seq<RequestView>)
    ensures IsSubseq(RequestsOf(r), rs)
    ensures forall v | v in r :: v.user in us && v.user.id == v.request.userId
    ensures forall q | q in rs && q.userId in UserIds(us) :: q in RequestsOf(r)
    ensures (forall q | q in rs :: q.userId in UserIds(us)) ==> RequestsOf(r) == rs
    decreases |rs|
  {
    if rs == [] then []
    else
      var q := rs[0];
      var rest := JoinRequests(rs[1..], us);
      assert rs == [q] + rs[1..];
      match Find(us, (u: User) => u.id == q.userId)
      case Some(u) =>
        var r := [RequestView(q, u)] + rest;
        RequestsOfCons(RequestView(q, u), rest);
        r
      case None => rest
  }

  /** An activity log with its user, if that user exists (a left join row). */
  datatype LogView = LogView(log: ActivityLog, user: Option<User>)

  function LogsOf(vs: seq<LogView>): (r: seq<ActivityLog>)
    ensures |r| == |vs|
    ensures forall i :: 0 <= i < |vs| ==> r[i] == vs[i].log
  {
    seq(|vs|, i requires 0 <= i < |vs| => vs[i].log)
  }

  /** `activity_logs LEFT JOIN users`: every log is kept. */
  function JoinLogs(ls: seq<ActivityLog>, us: seq<User>): (r: seq<LogView>)
    ensures LogsOf(r) == ls
    ensures |r| == |ls|
    ensures forall i :: 0 <= i < |ls| ==> r[i].log == ls[i]
    ensures forall i :: 0 <= i < |ls| ==> r[i].user.Some? ==>
      r[i].user.value in us && ls[i].userId == Some(r[i].user.value.id)
    ensures forall i :: 0 <= i < |ls| ==> r[i].user.None? ==>
      ls[i].userId.None? || ls[i].userId.value !in UserIds(us)
  {
    seq(|ls|, i requires 0 <= i < |ls| =>
      LogView(ls[i], if ls[i].userId.None? then None
                     else Find(us, (u: User) => Some(u.id) == ls[i].userId)))
  }

  /**
   * The first `limit` logs by descending creation time: each as often as it
   * is stored, none left out newer than one kept, newest first.
   */
  lemma NewestPage(ls: seq<ActivityLog>, limit: nat)
    ensures var page := Take(SortDesc(ls, LogCreatedKey), limit);
      && multiset(page) <= multiset(ls)
      && (forall l, i | l in multiset(ls) - multiset(page) && 0 <= i < |page| :: l.createdAt <= page[i].createdAt)
      && (forall i, j :: 0 <= i < j < |page| ==> page[j].createdAt <= page[i].createdAt)
  {
    var sorted := SortDesc(ls, LogCreatedKey);
    var page := Take(sorted, limit);
    TakeNewest(sorted, limit, LogCreatedKey);
    assert multiset(sorted) == multiset(ls);
    forall l, i | l in multiset(ls) - multiset(page) && 0 <= i < |page| ensures l.createdAt <= page[i].createdAt {
      assert l in multiset(sorted) - multiset(page);
      assert KeyLe(LogCreatedKey(l), LogCreatedKey(page[i]));
    }
    forall i, j | 0 <= i < j < |page| ensures page[j].createdAt <= page[i].createdAt {
      assert page[i] == sorted[i] && page[j] == sorted[j];
      assert KeyLe(LogCreatedKey(sorted[j]), LogCreatedKey(sorted[i]));
    }
  }

  /**
   * `page` is a page of the `limit` newest logs of `ls` (all of them when
   * there are fewer), left-joined with the users `us`: no log more often
   * than stored, none left out newer than one on the page, newest first,
   * and each with its user exactly when that user exists.
   */
  predicate NewestPageOf(ls: seq<ActivityLog>, us: seq<User>, limit: int, page: seq<LogView>)
  {
    && |page| == (if limit < |ls| then limit else |ls|)
    && multiset(LogsOf(page)) <= multiset(ls)
    && (forall l, i | l in multiset(ls) - multiset(LogsOf(page)) && 0 <= i < |page| ::
          l.createdAt <= page[i].log.createdAt)
    && (forall i, j :: 0 <= i < j < |page| ==> page[j].log.createdAt <= page[i].log.createdAt)
    && (forall i :: 0 <= i < |page| ==> page[i].user.Some? ==>
          page[i].user.value in us && page[i].log.userId == Some(page[i].user.value.id))
    && (forall i :: 0 <= i < |page| ==> page[i].user.None? ==>
          page[i].log.userId.None? || page[i].log.userId.value !in UserIds(us))
  }

  /** `ORDER BY created_at DESC LIMIT limit` over `activity_logs LEFT JOIN users`. */
  function NewestLogs(ls: seq<ActivityLog>, us: seq<User>, limit: nat): (r: seq<LogView>)
    ensures NewestPageOf(ls, us, limit, r)
  {
    var page := Take(SortDesc(ls, LogCreatedKey), limit);
    NewestPage(ls, limit);
    var r := JoinLogs(page, us);
    assert LogsOf(r) == page;
    r
  }

  class Database {
    var users: seq<User>
    var products: seq<Product>
    var payments: seq<Payment>
    var adminRequests: seq<AdminRequest>
    var activityLogs: seq<ActivityLog>
    var systemSettings: seq<SystemSetting>
    /** The next value of each table's serial sequence. */
    var userSeq: int
    var productSeq: int
    var paymentSeq: int
    var requestSeq: int
    var logSeq: int
    var settingSeq: int

    ghost predicate Valid()
      reads this
    {
      UsersValid() && ProductsValid() && PaymentsValid() && RequestsValid() && LogsValid() && SettingsValid()
    }

    ghost predicate UsersValid()
      reads this`users, this`userSeq
    {
      0 < userSeq && Serial(users, UserId, userSeq) && UniqueUsernames(users)
    }

    ghost predicate ProductsValid()
      reads this`products, this`productSeq
    {
      0 < productSeq && Serial(products, ProductId, productSeq)
    }

    ghost predicate PaymentsValid()
      reads this`payments, this`paymentSeq, this`users, this`products
    {
      0 < paymentSeq && Serial(payments, PaymentId, paymentSeq)
      && PaymentRefs(payments, UserIds(users), ProductIds(products))
    }

    ghost predicate RequestsValid()
      reads this`adminRequests, this`requestSeq, this`users
    {
      0 < requestSeq && Serial(adminRequests, RequestId, requestSeq)
      && RequestRefs(adminRequests, UserIds(users)) && AdminOnly(adminRequests)
    }

    ghost predicate LogsValid()
      reads this`activityLogs, this`logSeq, this`users
    {
      0 < logSeq && Serial(activityLogs, LogId, logSeq) && LogRefs(activityLogs, UserIds(users))
    }

    ghost predicate SettingsValid()
      reads this`systemSettings, this`settingSeq, this`users
    {
      0 < settingSeq && Serial(systemSettings, SettingId, settingSeq)
      && UniqueKeys(systemSettings) && SettingRefs(systemSettings, UserIds(users))
    }

    /** An empty database whose sequences start at 1. */
    constructor ()
      ensures Valid()
      ensures users == [] && products == [] && payments == []
      ensures adminRequests == [] && activityLogs == [] && systemSettings == []
    {
      users, products, payments := [], [], [];
      adminRequests, activityLogs, systemSettings := [], [], [];
      userSeq, productSeq, paymentSeq := 1, 1, 1;
      requestSeq, logSeq, settingSeq := 1, 1, 1;
    }

    // ---- users ----

    /** `getUser`: the user with that id, if any. */
    function GetUser(id: int): (r: Option<User>)
      reads this`users
      ensures r.Some? ==> r.value in users && r.value.id == id
      ensures r.None? <==> id !in UserIds(users)
    {
      match UserIndex(id)
      case None => None
      case Some(k) => Some(users[k])
    }

    /** `getUserByUsername`: the user with exactly that username, if any. */
    function GetUserByUsername(name: string): (r: Option<User>)
      reads this`users
      ensures r.Some? ==> r.value in users && r.value.username == name
      ensures r.None? <==> forall u | u in users :: u.username != name
    {
      match UsernameIndex(name)
      case None => None
      case Some(k) => Some(users[k])
    }

    /** The position of the user with that username, if any. */
    function UsernameIndex(name: string): (r: Option<nat>)
      reads this`users
      ensures r.Some? ==> r.value < |users| && users[r.value].username == name
      ensures r.None? <==> forall u | u in users :: u.username != name
    {
      IndexOf(users, (u: User) => u.username == name)
    }

    function UserIndex(id: int): (r: Option<nat>)
      reads this`users
      ensures r.Some? ==> r.value < |users| && users[r.value].id == id
      ensures r.None? <==> id !in UserIds(users)
    {
      IndexOf(users, (u: User) => u.id == id)
    }

    /**
     * `createUser`: inserts the row, unless a user already has that username
     * (the unique constraint); the sequence advances either way.
     */
    method CreateUser(u: NewUser, now: nat) returns (r: Outcome<User>)
      requires Valid()
      modifies this`users, this`userSeq
      ensures Valid()
      ensures userSeq == old(userSeq) + 1
      ensures old(GetUserByUsername(u.username)).Some? ==>
        r == Failed(UniqueViolation) && users == old(users)
      ensures old(GetUserByUsername(u.username)).None? ==>
        r == Ok(UserRow(old(userSeq), u, now)) && users == old(users) + [r.value]
    {
      var id := userSeq;
      if GetUserByUsername(u.username).Some? {
        SerialGrow(users, UserId, id);
        userSeq := id + 1;
        return Failed(UniqueViolation);
      }
      var row := UserRow(id, u, now);
      SerialAppend(users, row, UserId, id);
      UserIdsAppend(users, row);
      UsernamesAppend(users, row);
      RefsGrow(payments, adminRequests, activityLogs, systemSettings, UserIds(users), UserIds(users + [row]), ProductIds(products));
      users, userSeq := users + [row], id + 1;
      r := Ok(row);
    }

    /** `updateUser`: sets the patched columns of the user with that id, if any. */
    method UpdateUser(id: int, patch: UserPatch) returns (r: Option<User>)
      requires Valid()
      modifies this`users
      ensures Valid()
      ensures old(UserIndex(id)).None? ==> r.None? && users == old(users)
      ensures old(UserIndex(id)).Some? ==>
        var k := old(UserIndex(id)).value;
        r == Some(PatchUser(old(users[k]), patch)) && users == old(users)[k := r.value]
    {
      match UserIndex(id)
      case None =>
        return None;
      case Some(k) =>
        var row := PatchUser(users[k], patch);
        SerialSameIds(users, users[k := row], UserId, userSeq);
        UserIdsUpdate(users, k, row);
        UsernamesUpdate(users, k, row);
        users := users[k := row];
        r := Some(row);
    }

    /** `getAllUsers`: every user, newest first. */
    function AllUsers(): (r: seq<User>)
      reads this`users
      ensures SortedDesc(r, UserCreatedKey)
      ensures multiset(r) == multiset(users)
    {
      SortDesc(users, UserCreatedKey)
    }

    // ---- products ----

    /** `getAllProducts`: every product, newest first. */
    function AllProducts(): (r: seq<Product>)
      reads this`products
      ensures SortedDesc(r, ProductCreatedKey)
      ensures multiset(r) == multiset(products)
    {
      SortDesc(products, ProductCreatedKey)
    }

    /**
     * `getActiveProducts`: exactly the active products, featured ones first and
     * newer ones first within each group.
     */
    function ActiveProducts(): (r: seq<Product>)
      reads this`products
      ensures forall p | p in r :: p in products && p.isActive
      ensures forall p | p in products && p.isActive :: p in r
      ensures multiset(r) == multiset(Filter(products, IsActiveProduct))
      ensures SortedDesc(r, ActiveProductKey)
    {
      var r := SortDesc(Filter(products, IsActiveProduct), ActiveProductKey);
      SortDescMembers(Filter(products, IsActiveProduct), ActiveProductKey);
      r
    }

    function GetProduct(id: int): (r: Option<Product>)
      reads this`products
      ensures r.Some? ==> r.value in products && r.value.id == id
      ensures r.None? <==> id !in ProductIds(products)
    {
      match ProductIndex(id)
      case None => None
      case Some(k) => Some(products[k])
    }

    function ProductIndex(id: int): (r: Option<nat>)
      reads this`products
      ensures r.Some? ==> r.value < |products| && products[r.value].id == id
      ensures r.None? <==> id !in ProductIds(products)
    {
      IndexOf(products, (p: Product) => p.id == id)
    }

    /** `createProduct`: appends the row, stamped with `now`. */
    method CreateProduct(p: NewProduct, now: nat) returns (r: Product)
      requires Valid()
      modifies this`products, this`productSeq
      ensures Valid()
      ensures productSeq == old(productSeq) + 1
      ensures r == ProductRow(old(productSeq), p, now) && products == old(products) + [r]
    {
      r := ProductRow(productSeq, p, now);
      SerialAppend(products, r, ProductId, productSeq);
      ProductIdsAppend(products, r);
      products := products + [r];
      productSeq := productSeq + 1;
    }

    /** `updateProduct`: sets the patched columns and `updatedAt` of that product, if any. */
    method UpdateProduct(id: int, patch: ProductPatch, now: nat) returns (r: Option<Product>)
      requires Valid()
      modifies this`products
      ensures Valid()
      ensures old(ProductIndex(id)).None? ==> r.None? && products == old(products)
      ensures old(ProductIndex(id)).Some? ==>
        var k := old(ProductIndex(id)).value;
        r == Some(PatchProduct(old(products[k]), patch, now)) && products == old(products)[k := r.value]
    {
      match ProductIndex(id)
      case None =>
        return None;
      case Some(k) =>
        var row := PatchProduct(products[k], patch, now);
        SerialSameIds(products, products[k := row], ProductId, productSeq);
        ProductIdsUpdate(products, k, row);
        products := products[k := row];
        r := Some(row);
    }

    /** Some payment references the product (its foreign key would dangle). */
    predicate ProductReferenced(id: int)
      reads this`payments
    {
      exists p | p in payments :: p.productId == id
    }

    /**
     * `deleteProduct`: removes the product and reports whether a row was
     * deleted; a product that a payment references cannot be deleted.
     */
    method DeleteProduct(id: int) returns (r: Outcome<bool>)
      requires Valid()
      modifies this`products
      ensures Valid()
      ensures old(GetProduct(id)).Some? && old(ProductReferenced(id)) ==>
        r == Failed(ForeignKeyViolation) && products == old(products)
      ensures !(old(GetProduct(id)).Some? && old(ProductReferenced(id))) ==>
        r == Ok(old(GetProduct(id)).Some?)
        && products == Filter(old(products), OtherProduct(id))
        && GetProduct(id).None?
    {
      var existed := GetProduct(id).Some?;
      if existed && ProductReferenced(id) {
        return Failed(ForeignKeyViolation);
      }
      var kept := Filter(products, OtherProduct(id));
      SerialSubseq(kept, products, ProductId, productSeq);
      forall x | x in payments ensures x.productId in ProductIds(kept) {
        var q :| q in products && q.id == x.productId;
        assert q in kept;
      }
      products := kept;
      r := Ok(existed);
    }

    // ---- payments ----

    function GetPayment(id: int): (r: Option<Payment>)
      reads this`payments
      ensures r.Some? ==> r.value in payments && r.value.id == id
      ensures r.None? <==> forall p | p in payments :: p.id != id
    {
      match PaymentIndex(id)
      case None => None
      case Some(k) => Some(payments[k])
    }

    function PaymentIndex(id: int): (r: Option<nat>)
      reads this`payments
      ensures r.Some? ==> r.value < |payments| && payments[r.value].id == id
      ensures r.None? <==> forall p | p in payments :: p.id != id
    {
      IndexOf(payments, (p: Payment) => p.id == id)
    }

    /** `createPayment`: inserts the row unless a user, product or approver it names is missing. */
    method CreatePayment(p: NewPayment, now: nat) returns (r: Outcome<Payment>)
      requires Valid()
      modifies this`payments, this`paymentSeq
      ensures Valid()
      ensures paymentSeq == old(paymentSeq) + 1
      ensures !(p.userId in UserIds(users) && p.productId in ProductIds(products) && IsRef(p.approvedBy, UserIds(users))) ==>
        r == Failed(ForeignKeyViolation) && payments == old(payments)
      ensures p.userId in UserIds(users) && p.productId in ProductIds(products) && IsRef(p.approvedBy, UserIds(users)) ==>
        r == Ok(PaymentRow(old(paymentSeq), p, now)) && payments == old(payments) + [r.value]
    {
      var id := paymentSeq;
      paymentSeq := paymentSeq + 1;
      if !(p.userId in UserIds(users) && p.productId in ProductIds(products) && IsRef(p.approvedBy, UserIds(users))) {
        SerialGrow(payments, PaymentId, id);
        return Failed(ForeignKeyViolation);
      }
      var row := PaymentRow(id, p, now);
      SerialAppend(payments, row, PaymentId, id);
      payments := payments + [row];
      r := Ok(row);
    }

    /**
     * `getPendingPayments`: the pending payments whose user and product exist,
     * newest first, each joined with that user and product.
     */
    function PendingPayments(): (r: seq<PaymentView>)
      reads this`payments, this`users, this`products
      ensures forall p | p in PaymentsOf(r) :: p in payments && p.status == Pending
      ensures forall p | p in payments && p.status == Pending && p.userId in UserIds(users) && p.productId in ProductIds(products) ::
        p in PaymentsOf(r)
      ensures forall v | v in r :: v.user in users && v.user.id == v.payment.userId
      ensures forall v | v in r :: v.product in products && v.product.id == v.payment.productId
      ensures SortedDesc(PaymentsOf(r), PaymentCreatedKey)
      ensures multiset(PaymentsOf(r)) <= multiset(payments)
    {
      var sorted := SortDesc(Filter(payments, IsPendingPayment), PaymentCreatedKey);
      SortDescMembers(Filter(payments, IsPendingPayment), PaymentCreatedKey);
      var r := JoinPayments(sorted, users, products);
      SubseqSorted(PaymentsOf(r), sorted, PaymentCreatedKey);
      SubseqMembers(PaymentsOf(r), sorted);
      SubseqMultiset(PaymentsOf(r), sorted);
      r
    }

    /**
     * `getPaymentHistory`: the approved or rejected payments whose user and
     * product exist, most recently processed first.
     */
    function PaymentHistory(): (r: seq<PaymentView>)
      reads this`payments, this`users, this`products
      ensures forall p | p in PaymentsOf(r) :: p in payments && (p.status == Approved || p.status == Rejected)
      ensures forall p | p in payments && p.status != Pending && p.userId in UserIds(users) && p.productId in ProductIds(products) ::
        p in PaymentsOf(r)
      ensures forall v | v in r :: v.user in users && v.user.id == v.payment.userId
      ensures forall v | v in r :: v.product in products && v.product.id == v.payment.productId
      ensures SortedDesc(PaymentsOf(r), PaymentProcessedKey)
      ensures multiset(PaymentsOf(r)) <= multiset(payments)
    {
      var sorted := SortDesc(Filter(payments, IsProcessedPayment), PaymentProcessedKey);
      SortDescMembers(Filter(payments, IsProcessedPayment), PaymentProcessedKey);
      var r := JoinPayments(sorted, users, products);
      SubseqSorted(PaymentsOf(r), sorted, PaymentProcessedKey);
      SubseqMembers(PaymentsOf(r), sorted);
      SubseqMultiset(PaymentsOf(r), sorted);
      r
    }

    /**
     * `updatePaymentStatus`: on the payment with that id, if any, sets the
     * status and `processedAt` whatever the previous status was, and the
     * approver and reason only when they are given. An approver that is not
     * a user makes the update fail.
     */
    method UpdatePaymentStatus(id: int, status: Status, approvedBy: Option<int>, rejectionReason: Option<string>, now: nat)
      returns (r: Outcome<Option<Payment>>)
      requires Valid()
      modifies this`payments
      ensures Valid()
      ensures old(PaymentIndex(id)).None? ==> r == Ok(None) && payments == old(payments)
      ensures old(PaymentIndex(id)).Some? && !IsRef(approvedBy, UserIds(users)) ==>
        r == Failed(ForeignKeyViolation) && payments == old(payments)
      ensures old(PaymentIndex(id)).Some? && IsRef(approvedBy, UserIds(users)) ==>
        var k := old(PaymentIndex(id)).value;
        && r == Ok(Some(PaymentWithStatus(old(payments[k]), status, approvedBy, rejectionReason, now)))
        && payments == old(payments)[k := r.value.value]
    {
      match PaymentIndex(id)
      case None =>
        return Ok(None);
      case Some(k) =>
        if !IsRef(approvedBy, UserIds(users)) {
          return Failed(ForeignKeyViolation);
        }
        var row := PaymentWithStatus(payments[k], status, approvedBy, rejectionReason, now);
        SerialSameIds(payments, payments[k := row], PaymentId, paymentSeq);
        forall x | x in payments[k := row]
          ensures x.userId in UserIds(users) && x.productId in ProductIds(products) && IsRef(x.approvedBy, UserIds(users))
        {
          InUpdate(payments, k, row, x);
        }
        payments := payments[k := row];
        r := Ok(Some(row));
    }

    // ---- admin requests ----

    function RequestIndex(id: int): (r: Option<nat>)
      reads this`adminRequests
      ensures r.Some? ==> r.value < |adminRequests| && adminRequests[r.value].id == id
      ensures r.None? <==> forall q | q in adminRequests :: q.id != id
    {
      IndexOf(adminRequests, (q: AdminRequest) => q.id == id)
    }

    /**
     * `createAdminRequest`: inserts a pending request for the admin role
     * unless its user is missing.
     */
    method CreateAdminRequest(userId: int, now: nat) returns (r: Outcome<AdminRequest>)
      requires Valid()
      modifies this`adminRequests, this`requestSeq
      ensures Valid()
      ensures requestSeq == old(requestSeq) + 1
      ensures userId !in UserIds(users) ==> r == Failed(ForeignKeyViolation) && adminRequests == old(adminRequests)
      ensures userId in UserIds(users) ==>
        r == Ok(AdminRequestRow(old(requestSeq), userId, now))
        && adminRequests == old(adminRequests) + [r.value]
    {
      var id := requestSeq;
      requestSeq := requestSeq + 1;
      if userId !in UserIds(users) {
        SerialGrow(adminRequests, RequestId, id);
        return Failed(ForeignKeyViolation);
      }
      var row := AdminRequestRow(id, userId, now);
      SerialAppend(adminRequests, row, RequestId, id);
      adminRequests := adminRequests + [row];
      r := Ok(row);
    }

    /** `getPendingAdminRequests`: pending requests of existing users, newest first. */
    function PendingAdminRequests(): (r: seq<RequestView>)
      reads this`adminRequests, this`users
      ensures forall q | q in RequestsOf(r) :: q in adminRequests && q.status == Pending
      ensures forall q | q in adminRequests && q.status == Pending && q.userId in UserIds(users) :: q in RequestsOf(r)
      ensures forall v | v in r :: v.user in users && v.user.id == v.request.userId
      ensures SortedDesc(RequestsOf(r), RequestCreatedKey)
      ensures multiset(RequestsOf(r)) <= multiset(adminRequests)
    {
      var sorted := SortDesc(Filter(adminRequests, IsPendingRequest), RequestCreatedKey);
      SortDescMembers(Filter(adminRequests, IsPendingRequest), RequestCreatedKey);
      var r := JoinRequests(sorted, users);
      SubseqSorted(RequestsOf(r), sorted, RequestCreatedKey);
      SubseqMembers(RequestsOf(r), sorted);
      SubseqMultiset(RequestsOf(r), sorted);
      r
    }

    /** `updateAdminRequestStatus`: like `updatePaymentStatus`, without a reason. */
    method UpdateAdminRequestStatus(id: int, status: Status, approvedBy: Option<int>, now: nat)
      returns (r: Outcome<Option<AdminRequest>>)
      requires Valid()
      modifies this`adminRequests
      ensures Valid()
      ensures old(RequestIndex(id)).None? ==> r == Ok(None) && adminRequests == old(adminRequests)
      ensures old(RequestIndex(id)).Some? && !IsRef(approvedBy, UserIds(users)) ==>
        r == Failed(ForeignKeyViolation) && adminRequests == old(adminRequests)
      ensures old(RequestIndex(id)).Some? && IsRef(approvedBy, UserIds(users)) ==>
        var k := old(RequestIndex(id)).value;
        && r == Ok(Some(RequestWithStatus(old(adminRequests[k]), status, approvedBy, now)))
        && adminRequests == old(adminRequests)[k := r.value.value]
    {
      match RequestIndex(id)
      case None =>
        return Ok(None);
      case Some(k) =>
        if !IsRef(approvedBy, UserIds(users)) {
          return Failed(ForeignKeyViolation);
        }
        var row := RequestWithStatus(adminRequests[k], status, approvedBy, now);
        SerialSameIds(adminRequests, adminRequests[k := row], RequestId, requestSeq);
        forall x | x in adminRequests[k := row]
          ensures x.userId in UserIds(users) && IsRef(x.approvedBy, UserIds(users)) && x.requestedRole == Admin
        {
          InUpdate(adminRequests, k, row, x);
        }
        adminRequests := adminRequests[k := row];
        r := Ok(Some(row));
    }

    // ---- activity logs ----

    /** `createActivityLog`: appends the entry unless the user it names is missing. */
    method CreateActivityLog(l: NewActivityLog, now: nat) returns (r: Outcome<ActivityLog>)
      requires Valid()
      modifies this`activityLogs, this`logSeq
      ensures Valid()
      ensures logSeq == old(logSeq) + 1
      ensures !IsRef(l.userId, UserIds(users)) ==> r == Failed(ForeignKeyViolation) && activityLogs == old(activityLogs)
      ensures IsRef(l.userId, UserIds(users)) ==>
        r == Ok(ActivityLogRow(old(logSeq), l, now)) && activityLogs == old(activityLogs) + [r.value]
    {
      var id := logSeq;
      logSeq := logSeq + 1;
      if !IsRef(l.userId, UserIds(users)) {
        SerialGrow(activityLogs, LogId, id);
        return Failed(ForeignKeyViolation);
      }
      var row := ActivityLogRow(id, l, now);
      SerialAppend(activityLogs, row, LogId, id);
      activityLogs := activityLogs + [row];
      r := Ok(row);
    }

    /**
     * `getActivityLogs(limit)`: the `limit` newest entries (all of them when
     * there are fewer), newest first, each once and with its user when there
     * is one; a negative limit, or one that is not a `bigint`, is an error.
     */
    function ActivityLogs(limit: int): (r: Outcome<seq<LogView>>)
      reads this`activityLogs, this`users
      ensures limit < 0 <==> r == Failed(NegativeLimit)
      ensures limit > MaxBigint <==> r == Failed(LimitOutOfRange)
      ensures r.Ok? <==> 0 <= limit <= MaxBigint
      ensures r.Ok? ==> NewestPageOf(activityLogs, users, limit, r.value)
    {
      if limit < 0 then Failed(NegativeLimit)
      else if limit > MaxBigint then Failed(LimitOutOfRange)
      else Ok(NewestLogs(activityLogs, users, limit))
    }

    // ---- settings ----

    /** `getSetting`: the setting with that key, if any. */
    function GetSetting(key: string): (r: Option<SystemSetting>)
      reads this`systemSettings
      ensures r.Some? ==> r.value in systemSettings && r.value.key == key
      ensures r.None? <==> forall s | s in systemSettings :: s.key != key
    {
      SettingByKey(systemSettings, key)
    }

    function SettingIndex(key: string): (r: Option<nat>)
      reads this`systemSettings
      ensures r.Some? ==> r.value < |systemSettings| && systemSettings[r.value].key == key
      ensures r.None? <==> forall s | s in systemSettings :: s.key != key
    {
      IndexOf(systemSettings, (s: SystemSetting) => s.key == key)
    }

    /**
     * `setSetting`: updates the time and, when given, the value and the
     * updater of the setting with that key, or inserts it when there is
     * none (an absent value is stored as NULL).
     */
    method SetSetting(key: string, value: Option<string>, updatedBy: Option<int>, now: nat) returns (r: Outcome<SystemSetting>)
      requires Valid()
      modifies this`systemSettings, this`settingSeq
      ensures Valid()
      ensures !IsRef(updatedBy, UserIds(users)) ==> r == Failed(ForeignKeyViolation) && systemSettings == old(systemSettings)
      ensures r.Ok? ==> GetSetting(key) == Some(r.value)
      ensures IsRef(updatedBy, UserIds(users)) && old(SettingIndex(key)).Some? ==>
        var k := old(SettingIndex(key)).value;
        && r == Ok(SettingWithValue(old(systemSettings[k]), value, updatedBy, now))
        && systemSettings == old(systemSettings)[k := r.value]
        && settingSeq == old(settingSeq)
      ensures old(SettingIndex(key)).None? ==> settingSeq == old(settingSeq) + 1
      ensures old(SettingIndex(key)).Some? ==> settingSeq == old(settingSeq)
      ensures IsRef(updatedBy, UserIds(users)) && old(SettingIndex(key)).None? ==>
        && r == Ok(SystemSetting(old(settingSeq), key, value, now, updatedBy))
        && systemSettings == old(systemSettings) + [r.value]
      ensures r.Ok? && value.Some? ==> r.value.value == value
      ensures r.Ok? && value.None? && old(GetSetting(key)).Some? ==> r.value.value == old(GetSetting(key)).value.value
      ensures r.Ok? && value.None? && old(GetSetting(key)).None? ==> r.value.value.None?
    {
      match SettingIndex(key)
      case Some(k) =>
        KeyedRow(systemSettings, k);
        r := UpdateSetting(k, value, updatedBy, now);
      case None =>
        r := InsertSetting(key, value, updatedBy, now);
    }

    /** The update branch of `setSetting`, on the row at index `k`. */
    method UpdateSetting(k: nat, value: Option<string>, updatedBy: Option<int>, now: nat) returns (r: Outcome<SystemSetting>)
      requires Valid() && k < |systemSettings|
      modifies this`systemSettings
      ensures Valid()
      ensures !IsRef(updatedBy, UserIds(users)) ==> r == Failed(ForeignKeyViolation) && systemSettings == old(systemSettings)
      ensures IsRef(updatedBy, UserIds(users)) ==>
        && r == Ok(SettingWithValue(old(systemSettings[k]), value, updatedBy, now))
        && systemSettings == old(systemSettings)[k := r.value]
        && GetSetting(r.value.key) == Some(r.value)
    {
      if !IsRef(updatedBy, UserIds(users)) {
        return Failed(ForeignKeyViolation);
      }
      var row := SettingWithValue(systemSettings[k], value, updatedBy, now);
      SerialSameIds(systemSettings, systemSettings[k := row], SettingId, settingSeq);
      KeysUpdate(systemSettings, k, row);
      forall x | x in systemSettings[k := row] ensures IsRef(x.updatedBy, UserIds(users)) {
        InUpdate(systemSettings, k, row, x);
      }
      systemSettings := systemSettings[k := row];
      KeyedRow(systemSettings, k);
      r := Ok(row);
    }

    /** The insert branch of `setSetting`, for a key no setting has. */
    method InsertSetting(key: string, value: Option<string>, updatedBy: Option<int>, now: nat) returns (r: Outcome<SystemSetting>)
      requires Valid() && GetSetting(key).None?
      modifies this`systemSettings, this`settingSeq
      ensures Valid()
      ensures settingSeq == old(settingSeq) + 1
      ensures !IsRef(updatedBy, UserIds(users)) ==> r == Failed(ForeignKeyViolation) && systemSettings == old(systemSettings)
      ensures IsRef(updatedBy, UserIds(users)) ==>
        && r == Ok(SystemSetting(old(settingSeq), key, value, now, updatedBy))
        && systemSettings == old(systemSettings) + [r.value]
        && GetSetting(key) == Some(r.value)
    {
      var id := settingSeq;
      if !IsRef(updatedBy, UserIds(users)) {
        SerialGrow(systemSettings, SettingId, id);
        settingSeq := id + 1;
        return Failed(ForeignKeyViolation);
      }
      var row := SystemSetting(id, key, value, now, updatedBy);
      SerialAppend(systemSettings, row, SettingId, id);
      KeysAppend(systemSettings, row);
      var rows := systemSettings + [row];
      KeyedRow(rows, |rows| - 1);
      assert rows[|rows| - 1] == row;
      systemSettings, settingSeq := rows, id + 1;
      r := Ok(row);
    }

    /**
     * `setSetting` with an undefined key: no row has it, so the insert
     * branch runs; it draws the next id and then breaks the NOT NULL
     * constraint on `key`.
     */
    method InsertSettingWithoutKey() returns (r: Outcome<SystemSetting>)
      requires Valid()
      modifies this`settingSeq
      ensures Valid()
      ensures settingSeq == old(settingSeq) + 1
      ensures r == Failed(NotNullViolation)
    {
      SerialGrow(systemSettings, SettingId, settingSeq);
      settingSeq := settingSeq + 1;
      r := Failed(NotNullViolation);
    }
  }
}

=== FILE: store_page.dfy ===
/**
 * The store page (`client/src/pages/store.tsx`): who sees the admin
 * controls, the search-then-sort chain over the fetched products, and the
 * guard of the discount badge. The page works on the products the server
 * sent, as values.
 */
module StorePage {
  import opened Wrappers
  import opened Seqs
  import opened Text
  import opened Schema

  /** `user?.role === "admin" || user?.role === "owner"`. */
  function IsAdmin(user: Option<PublicUser>): (r: bool)
    ensures r <==> user.Some? && user.value.role != Regular
  {
    match user
    case None => false
    case Some(u) => u.role == Admin || u.role == Owner
  }

  /** The search test: the lower-cased name or description contains the lower-cased term. */
  predicate MatchesTerm(p: Product, term: string)
  {
    Contains(ToLower(p.name), ToLower(term)) || Contains(ToLower(p.description), ToLower(term))
  }

  function SearchHit(term: string): Product -> bool
  {
    (p: Product) => MatchesTerm(p, term)
  }

  /**
   * The `filter` step: exactly the matching products, in the order they were
   * fetched; nothing is added.
   */
  function Search(products: seq<Product>, term: string): (r: seq<Product>)
    ensures forall p :: p in r <==> p in products && MatchesTerm(p, term)
    ensures IsSubseq(r, products) && multiset(r) <= multiset(products)
  {
    Filter(products, SearchHit(term))
  }

  /** An empty search term keeps every product. */
  lemma EmptySearchKeepsAll(products: seq<Product>)
    ensures Search(products, "") == products
  {
    forall p | p in products ensures SearchHit("")(p) {
      ContainsEmpty(ToLower(p.name));
    }
    FilterAll(products, SearchHit(""));
  }

  /**
   * The orderings modelled: "newest", and the default ("featured"), which
   * the page uses for any value other than the price orderings.
   */
  datatype SortChoice = Newest | Featured

  function NewestKey(p: Product): Key { (p.createdAt, 0) }

  function FeaturedKey(p: Product): Key { (if p.isFeatured then 1 else 0, 0) }

  function SortKey(sortBy: SortChoice): Product -> Key
  {
    if sortBy == Newest then NewestKey else FeaturedKey
  }

  /**
   * `filteredProducts`: the search hits, sorted (stably) newest first or
   * featured first; the result holds the hits and only them, each as often.
   */
  function FilteredProducts(products: seq<Product>, term: string, sortBy: SortChoice): (r: seq<Product>)
    ensures multiset(r) == multiset(Search(products, term))
    ensures forall p :: p in r <==> p in products && MatchesTerm(p, term)
    ensures sortBy == Newest ==> forall i, j | 0 <= i < j < |r| :: r[j].createdAt <= r[i].createdAt
    ensures sortBy == Featured ==> forall i, j | 0 <= i < j < |r| :: r[j].isFeatured ==> r[i].isFeatured
  {
    var hits := Search(products, term);
    var r := SortDesc(hits, SortKey(sortBy));
    SortDescMembers(hits, SortKey(sortBy));
    assert forall i, j | 0 <= i < j < |r| :: KeyLe(SortKey(sortBy)(r[j]), SortKey(sortBy)(r[i]));
    r
  }

  function IsFeatured(p: Product): bool { p.isFeatured }

  function NotFeatured(p: Product): bool { !p.isFeatured }

  /**
   * The featured ordering is stable: the featured products in their fetched
   * order, then the others in theirs.
   */
  lemma {:induction false} FeaturedFirstStable(s: seq<Product>)
    ensures SortDesc(s, FeaturedKey) == Filter(s, IsFeatured) + Filter(s, NotFeatured)
    decreases |s|
  {
    if s != [] {
      FeaturedFirstStable(s[1..]);
      SortDescCons(s, FeaturedKey);
      FilterCons(s, IsFeatured);
      FilterCons(s, NotFeatured);
      var b := Filter(s[1..], NotFeatured);
      assert b == [] || b[0] in b;
      InsertFeaturedSplit(s[0], Filter(s[1..], IsFeatured), b);
    }
  }

  /** Inserting into "featured, then the rest" puts a product at the head of its group. */
  lemma InsertFeaturedSplit(x: Product, a: seq<Product>, b: seq<Product>)
    requires forall y | y in a :: y.isFeatured
    requires b == [] || !b[0].isFeatured
    ensures x.isFeatured ==> Insert(x, a + b, FeaturedKey) == ([x] + a) + b
    ensures !x.isFeatured ==> Insert(x, a + b, FeaturedKey) == a + ([x] + b)
  {
    if x.isFeatured {
      InsertFeatured(x, a + b);
      assert [x] + (a + b) == ([x] + a) + b;
    } else {
      InsertNotFeatured(x, a, b);
    }
  }

  lemma FilterCons(s: seq<Product>, p: Product -> bool)
    requires s != []
    ensures Filter(s, p) == if p(s[0]) then [s[0]] + Filter(s[1..], p) else Filter(s[1..], p)
  {
  }

  lemma SortDescCons(s: seq<Product>, key: Product -> Key)
    requires s != []
    ensures SortDesc(s, key) == Insert(s[0], SortDesc(s[1..], key), key)
  {
  }

  lemma InsertFeatured(x: Product, t: seq<Product>)
    requires x.isFeatured
    ensures Insert(x, t, FeaturedKey) == [x] + t
  {
  }

  lemma InsertNotFeatured(x: Product, a: seq<Product>, b: seq<Product>)
    requires !x.isFeatured
    requires forall y | y in a :: y.isFeatured
    requires b == [] || !b[0].isFeatured
    ensures Insert(x, a + b, FeaturedKey) == a + ([x] + b)
  {
    InsertAfterGreater(x, a, b, FeaturedKey);
    assert a + [x] + b == a + ([x] + b);
  }

  /** `calculateDiscount`'s guard: no badge unless both prices are non-empty. */
  function Discount(oldPrice: Option<string>, newPrice: Option<string>, percent: (string, string) -> int)
    : (r: Option<int>)
    ensures r.None? <==> oldPrice.None? || oldPrice.value == "" || newPrice.None? || newPrice.value == ""
    ensures r.Some? ==> r.value == percent(oldPrice.value, newPrice.value)
  {
    if oldPrice.None? || oldPrice.value == "" || newPrice.None? || newPrice.value == "" then None
    else Some(percent(oldPrice.value, newPrice.value))
  }
}

=== FILE: text.dfy ===
/**
 * The JavaScript string operations the application relies on: toLowerCase,
 * toUpperCase, includes, startsWith, trim, split(","), Number#toString and
 * parseInt. Case mapping is restricted to ASCII letters.
 */
module Text {
  import opened Wrappers

  function LowerChar(c: char): char
  {
    if 'A' <= c <= 'Z' then (c as int + 32) as char else c
  }

  function UpperChar(c: char): char
  {
    if 'a' <= c <= 'z' then (c as int - 32) as char else c
  }

  /** `s.toLowerCase()`. */
  function ToLower(s: string): (r: string)
    ensures |r| == |s|
    ensures forall i :: 0 <= i < |s| ==> r[i] == LowerChar(s[i])
  {
    seq(|s|, i requires 0 <= i < |s| => LowerChar(s[i]))
  }

  ghost predicate IsLower(s: string)
  {
    forall i :: 0 <= i < |s| ==> !('A' <= s[i] <= 'Z')
  }

  /** Lower-casing leaves no upper-case letter and is idempotent. */
  lemma ToLowerIdempotent(s: string)
    ensures IsLower(ToLower(s))
    ensures ToLower(ToLower(s)) == ToLower(s)
  {
  }

  /** A string without upper-case letters is its own lower-case form. */
  lemma ToLowerOfLower(s: string)
    requires IsLower(s)
    ensures ToLower(s) == s
  {
  }

  /** `s.startsWith(prefix)`. */
  predicate StartsWith(s: string, prefix: string)
  {
    |prefix| <= |s| && s[..|prefix|] == prefix
  }

  /** `s.includes(t)`: `t` occurs somewhere in `s`. */
  predicate Contains(s: string, t: string)
    decreases |s|
  {
    StartsWith(s, t) || (s != [] && Contains(s[1..], t))
  }

  /** `t` occurs in `s` starting at index `i`. */
  predicate OccursAt(s: string, t: string, i: int)
  {
    0 <= i <= |s| - |t| && s[i..i + |t|] == t
  }

  /** `Contains` agrees with the positional definition of an occurrence. */
  lemma {:induction false} ContainsIffOccurs(s: string, t: string)
    ensures Contains(s, t) <==> exists i :: OccursAt(s, t, i)
    decreases |s|
  {
    if StartsWith(s, t) {
      assert OccursAt(s, t, 0);
    } else if s == [] {
    } else {
      ContainsIffOccurs(s[1..], t);
      if exists i :: OccursAt(s, t, i) {
        var i :| OccursAt(s, t, i);
        assert i != 0;
        assert s[1..][i - 1..i - 1 + |t|] == s[i..i + |t|];
        assert OccursAt(s[1..], t, i - 1);
      }
      if Contains(s[1..], t) {
        var i :| OccursAt(s[1..], t, i);
        assert s[i + 1..i + 1 + |t|] == s[1..][i..i + |t|];
        assert OccursAt(s, t, i + 1);
      }
    }
  }

  /** The empty string occurs in every string. */
  lemma ContainsEmpty(s: string)
    ensures Contains(s, "")
  {
  }

  /**
   * The characters String.prototype.trim removes: ECMAScript WhiteSpace
   * (tab, vertical tab, form feed, space, no-break space, zero-width no-break
   * space and the Unicode space separators) and LineTerminator.
   */
  predicate IsSpace(c: char)
  {
    var n := c as int;
    n == 0x09 || n == 0x0A || n == 0x0B || n == 0x0C || n == 0x0D || n == 0x20
    || n == 0xA0 || n == 0x1680 || (0x2000 <= n <= 0x200A) || n == 0x2028 || n == 0x2029
    || n == 0x202F || n == 0x205F || n == 0x3000 || n == 0xFEFF
  }

  predicate AllSpace(s: string)
  {
    forall i :: 0 <= i < |s| ==> IsSpace(s[i])
  }

  /** Drops leading white space. */
  function TrimStart(s: string): (r: string)
    ensures |r| <= |s| && r == s[|s| - |r|..]
    ensures AllSpace(s[..|s| - |r|])
    ensures r == [] || !IsSpace(r[0])
    decreases |s|
  {
    if s != [] && IsSpace(s[0]) then
      var r := TrimStart(s[1..]);
      assert s[..|s| - |r|] == [s[0]] + s[1..][..|s[1..]| - |r|];
      r
    else s
  }

  /** Drops trailing white space. */
  function TrimEnd(s: string): (r: string)
    ensures |r| <= |s| && r == s[..|r|]
    ensures AllSpace(s[|r|..])
    ensures r == [] || !IsSpace(r[|r| - 1])
    decreases |s|
  {
    if s != [] && IsSpace(s[|s| - 1]) then
      var r := TrimEnd(s[..|s| - 1]);
      assert s[|r|..] == s[..|s| - 1][|r|..] + [s[|s| - 1]];
      r
    else s
  }

  /** `r` is `s` with the white space `s[..i]` and `s[i + |r|..]` cut off. */
  predicate TrimmedAt(s: string, r: string, i: int)
  {
    0 <= i <= |s| - |r| && r == s[i..i + |r|] && AllSpace(s[..i]) && AllSpace(s[i + |r|..])
  }

  /** `s.trim()`: the longest slice of `s` without white space at either end. */
  function Trim(s: string): (r: string)
    ensures exists i :: TrimmedAt(s, r, i)
    ensures r == [] || (!IsSpace(r[0]) && !IsSpace(r[|r| - 1]))
    ensures AllSpace(s) <==> r == []
  {
    TrimSlice(s);
    TrimEnd(TrimStart(s))
  }

  lemma TrimSlice(s: string)
    ensures TrimmedAt(s, TrimEnd(TrimStart(s)), |s| - |TrimStart(s)|)
    ensures AllSpace(s) <==> TrimEnd(TrimStart(s)) == []
  {
    var a := TrimStart(s);
    var r := TrimEnd(a);
    var i := |s| - |a|;
    SliceOfSuffix(s, a, r, i);
    TrimEmptyIffSpace(s, a, r, i);
  }

  lemma TrimEmptyIffSpace(s: string, a: string, r: string, i: nat)
    requires a == TrimStart(s) && r == TrimEnd(a) && i == |s| - |a|
    ensures AllSpace(s) <==> r == []
  {
    if r == [] {
      assert a[|r|..] == a;
      AllSpaceJoin(s, a, i);
    } else {
      NotAllSpace(s, i, r[0]);
    }
  }

  lemma NotAllSpace(s: string, i: nat, c: char)
    requires i < |s| && s[i] == c && !IsSpace(c)
    ensures !AllSpace(s)
  {
  }

  lemma SliceOfSuffix(s: string, a: string, r: string, i: nat)
    requires i <= |s| && a == s[i..] && |r| <= |a| && r == a[..|r|]
    requires AllSpace(s[..i]) && AllSpace(a[|r|..])
    ensures TrimmedAt(s, r, i)
  {
    assert s[i..i + |r|] == r;
    assert s[i + |r|..] == a[|r|..];
  }

  lemma AllSpaceJoin(s: string, a: string, i: nat)
    requires i <= |s| && a == s[i..] && AllSpace(s[..i]) && AllSpace(a)
    ensures AllSpace(s)
  {
    forall k | 0 <= k < |s| ensures IsSpace(s[k]) {
      if k < i {
        assert s[k] == s[..i][k];
      } else {
        assert s[k] == a[k - i];
      }
    }
  }

  /** Trimming twice is trimming once. */
  lemma TrimIdempotent(s: string)
    ensures Trim(Trim(s)) == Trim(s)
  {
    var t := Trim(s);
    if t != [] {
      assert TrimStart(t) == t;
      assert TrimEnd(t) == t;
    }
  }

  /** `s.split(sep)` for a one-character separator: the pieces between separators. */
  function Split(s: string, sep: char): (r: seq<string>)
    ensures |r| >= 1
    ensures forall k :: 0 <= k < |r| ==> sep !in r[k]
    decreases |s|
  {
    if s == [] then [[]]
    else if s[0] == sep then [[]] + Split(s[1..], sep)
    else
      var rest := Split(s[1..], sep);
      [[s[0]] + rest[0]] + rest[1..]
  }

  /** `pieces.join(sep)`. */
  function Join(pieces: seq<string>, sep: char): string
    decreases |pieces|
  {
    if pieces == [] then []
    else if |pieces| == 1 then pieces[0]
    else pieces[0] + [sep] + Join(pieces[1..], sep)
  }

  /** Joining the pieces of a split gives the original string back. */
  lemma {:induction false} JoinSplit(s: string, sep: char)
    ensures Join(Split(s, sep), sep) == s
    decreases |s|
  {
    if s == [] {
    } else if s[0] == sep {
      JoinSplit(s[1..], sep);
      var rest := Split(s[1..], sep);
      assert Split(s, sep) == [[]] + rest;
      assert (([[]] + rest)[1..]) == rest;
    } else {
      JoinSplit(s[1..], sep);
      var rest := Split(s[1..], sep);
      var r := [[s[0]] + rest[0]] + rest[1..];
      assert Split(s, sep) == r;
      if |rest| == 1 {
        assert Join(rest, sep) == rest[0];
      } else {
        assert Join(rest, sep) == rest[0] + [sep] + Join(rest[1..], sep);
        assert r[1..] == rest[1..];
      }
    }
  }

  /** Splitting a join of separator-free pieces gives the pieces back. */
  lemma {:induction false} SplitJoin(pieces: seq<string>, sep: char)
    requires |pieces| >= 1
    requires forall k :: 0 <= k < |pieces| ==> sep !in pieces[k]
    ensures Split(Join(pieces, sep), sep) == pieces
    decreases |pieces|, |pieces[0]|
  {
    var p := pieces[0];
    if |pieces| == 1 {
      SplitNoSep(p, sep);
    } else if p == [] {
      SplitJoin(pieces[1..], sep);
      assert Join(pieces, sep) == [sep] + Join(pieces[1..], sep);
      assert ([sep] + Join(pieces[1..], sep))[1..] == Join(pieces[1..], sep);
    } else {
      var q := [p[1..]] + pieces[1..];
      assert q[0] == p[1..] && q[1..] == pieces[1..];
      SplitJoin(q, sep);
      var j := Join(pieces, sep);
      assert j == [p[0]] + Join(q, sep);
      assert j[1..] == Join(q, sep);
      assert [p[0]] + p[1..] == p;
    }
  }

  lemma {:induction false} SplitNoSep(s: string, sep: char)
    requires sep !in s
    ensures Split(s, sep) == [s]
    decreases |s|
  {
    if s != [] {
      SplitNoSep(s[1..], sep);
      assert [s[0]] + s[1..] == s;
    }
  }

  predicate IsDigit(c: char)
  {
    '0' <= c <= '9'
  }

  function DigitChar(d: nat): char
    requires d < 10
  {
    ('0' as int + d) as char
  }

  function DigitValue(c: char): nat
    requires IsDigit(c)
  {
    c as int - '0' as int
  }

  /** `n.toString()` for a non-negative integer: its decimal digits. */
  function NatToString(n: nat): (r: string)
    ensures |r| >= 1
    ensures forall i :: 0 <= i < |r| ==> IsDigit(r[i])
    decreases n
  {
    if n < 10 then [DigitChar(n)] else NatToString(n / 10) + [DigitChar(n % 10)]
  }

  /** The value of a string of decimal digits. */
  function DigitsValue(ds: string): nat
    requires forall i :: 0 <= i < |ds| ==> IsDigit(ds[i])
    decreases |ds|
  {
    if ds == [] then 0 else DigitsValue(ds[..|ds| - 1]) * 10 + DigitValue(ds[|ds| - 1])
  }

  /** The longest prefix of `s` made of decimal digits. */
  function DigitPrefix(s: string): (r: string)
    ensures r <= s
    ensures forall i :: 0 <= i < |r| ==> IsDigit(r[i])
    ensures |r| == |s| || !IsDigit(s[|r|])
    decreases |s|
  {
    if s != [] && IsDigit(s[0]) then [s[0]] + DigitPrefix(s[1..]) else []
  }

  predicate IsHexDigit(c: char)
  {
    IsDigit(c) || 'a' <= c <= 'f' || 'A' <= c <= 'F'
  }

  function HexDigitValue(c: char): (r: nat)
    requires IsHexDigit(c)
    ensures r < 16
  {
    if IsDigit(c) then DigitValue(c)
    else if 'a' <= c <= 'f' then c as int - 'a' as int + 10
    else c as int - 'A' as int + 10
  }

  /** The value of a string of hexadecimal digits. */
  function HexValue(ds: string): nat
    requires forall i :: 0 <= i < |ds| ==> IsHexDigit(ds[i])
    decreases |ds|
  {
    if ds == [] then 0 else HexValue(ds[..|ds| - 1]) * 16 + HexDigitValue(ds[|ds| - 1])
  }

  /** The longest prefix of `s` made of hexadecimal digits. */
  function HexDigitPrefix(s: string): (r: string)
    ensures r <= s
    ensures forall i :: 0 <= i < |r| ==> IsHexDigit(r[i])
    ensures |r| == |s| || !IsHexDigit(s[|r|])
    decreases |s|
  {
    if s != [] && IsHexDigit(s[0]) then [s[0]] + HexDigitPrefix(s[1..]) else []
  }

  /** What `parseInt` reads digits from: `s` without leading white space and one sign. */
  function Unsigned(s: string): (r: string)
    ensures |r| <= |s|
  {
    var t := TrimStart(s);
    if t != [] && t[0] in "+-" then t[1..] else t
  }

  /** Without a radix, `parseInt` reads "0x" or "0X" as the prefix of a hexadecimal number. */
  predicate HasHexPrefix(u: string)
  {
    |u| >= 2 && u[0] == '0' && (u[1] == 'x' || u[1] == 'X')
  }

  /**
   * `parseInt(s)` without a radix: leading white space and one sign are
   * skipped; after a "0x" or "0X" prefix the longest run of hexadecimal
   * digits is read, otherwise the longest run of decimal digits. None stands
   * for NaN (no digit).
   */
  function ParseInt(s: string): (r: Option<int>)
    ensures HasHexPrefix(Unsigned(s)) ==> (r.None? <==> HexDigitPrefix(Unsigned(s)[2..]) == [])
    ensures !HasHexPrefix(Unsigned(s)) ==> (r.None? <==> DigitPrefix(Unsigned(s)) == [])
    ensures r.Some? && TrimStart(s)[0] == '-' ==> r.value <= 0
    ensures r.Some? && TrimStart(s)[0] != '-' ==> r.value >= 0
  {
    var t := TrimStart(s);
    var negative := t != [] && t[0] == '-';
    var body := Unsigned(s);
    var hex := HasHexPrefix(body);
    var ds := if hex then HexDigitPrefix(body[2..]) else DigitPrefix(body);
    if ds == [] then None
    else
      var v: int := if hex then HexValue(ds) else DigitsValue(ds);
      if negative then Some(-v) else Some(v)
  }

  /** Without a radix, "0x10" is read in base 16. */
  lemma HexPrefixRead()
    ensures ParseInt("0x10") == Some(16)
  {
    assert TrimStart("0x10") == "0x10";
    assert Unsigned("0x10")[2..] == "10";
    assert HexDigitPrefix("10") == "10" by {
      assert "10"[1..] == "0";
      assert HexDigitPrefix("0") == "0";
    }
    assert HexValue("10") == 16 by {
      assert "10"[..1] == "1";
      assert HexValue("1") == 1 by {
        assert "1"[..0] == "";
      }
    }
  }

  /** The sign comes before the hexadecimal prefix: "-0x5" is -5. */
  lemma NegativeHexRead()
    ensures ParseInt("-0x5") == Some(-5)
  {
    assert !IsSpace('-');
    assert TrimStart("-0x5") == "-0x5";
    assert "-0x5"[1..] == "0x5";
    assert Unsigned("-0x5") == "0x5";
    assert HasHexPrefix("0x5");
    assert "0x5"[2..] == "5";
    assert HexDigitPrefix("5") == "5" by {
      assert "5"[1..] == "";
    }
    assert HexValue("5") == 5 by {
      assert "5"[..0] == "";
    }
  }

  /** A hexadecimal prefix without a digit after it is NaN, not 0. */
  lemma BareHexPrefixIsNaN()
    ensures ParseInt("0x") == None
  {
    assert TrimStart("0x") == "0x";
    assert Unsigned("0x")[2..] == "";
  }

  lemma {:induction false} NatToStringValue(n: nat)
    ensures DigitsValue(NatToString(n)) == n
    decreases n
  {
    if n >= 10 {
      NatToStringValue(n / 10);
      var r := NatToString(n);
      assert r[..|r| - 1] == NatToString(n / 10);
    }
  }

  lemma {:induction false} DigitPrefixAllDigits(s: string)
    requires forall i :: 0 <= i < |s| ==> IsDigit(s[i])
    ensures DigitPrefix(s) == s
    decreases |s|
  {
    if s != [] {
      DigitPrefixAllDigits(s[1..]);
    }
  }

  /** Reading back a number written with toString gives the number. */
  lemma ParseIntNatToString(n: nat)
    ensures ParseInt(NatToString(n)) == Some(n)
  {
    var s := NatToString(n);
    assert !IsSpace(s[0]);
    assert TrimStart(s) == s;
    assert s[0] !in "+-";
    assert Unsigned(s) == s;
    assert !HasHexPrefix(s) by {
      if |s| >= 2 {
        assert IsDigit(s[1]);
      }
    }
    DigitPrefixAllDigits(s);
    NatToStringValue(n);
  }

  /** A minus sign before the digits of `n` reads back as `-n`. */
  lemma NegativeRead(n: nat)
    ensures ParseInt("-" + NatToString(n)) == Some(-(n as int))
  {
    var s := NatToString(n);
    var t := "-" + s;
    assert TrimStart(t) == t;
    assert Unsigned(t) == s;
    assert !HasHexPrefix(s) by {
      if |s| >= 2 {
        assert IsDigit(s[1]);
      }
    }
    DigitPrefixAllDigits(s);
    NatToStringValue(n);
  }
}

=== FILE: wrappers.dfy ===
/** The optional value that stands for JavaScript's `undefined`/`null` and SQL's NULL. */
module Wrappers {

  datatype Option<+T> = None | Some(value: T) {

    /** The value, or `default` when there is none (JavaScript's `x ?? default`). */
    function GetOr(default: T): T
    {
      match this
      case Some(v) => v
      case None => default
    }
  }
}
